=== FILE: README.md ===
# Fluency for ProcessWire, modelled in Dafny

Fluency is a ProcessWire module that translates page content through the
DeepL API. This project models its pure core and proves properties of it:

- **The DeepL client.** `engines/DeepL.class.php` is the client the module
  loads, and `classes/DeepL.class.php` is the older client the
  configuration page still loads. Modelled here:
  - the choice of API host;
  - the status-message tables;
  - the form body `apiCall` sends;
  - `translate`, which turns the content into a list, tags the ignored
    phrases, merges the request parameters and strips the tags from the
    reply;
  - the ignored-phrase tagging itself: `preg_match_all` over
    `'/' . preg_quote($phrase) . '/i'`, then one `str_replace` round per
    found instance over the whole, already tagged text;
  - the marker removal.
- **The module class** (`Fluency.module.php`). Modelled here:
  - whether the module starts on a page;
  - how the configured languages split into one source and ordered
    targets, with `urlValid` per target;
  - the language-id to code associations;
  - the option merging of `translate` and its call into the engine, as
    written: the whole `$opts` array arrives as the engine's
    `$addParams`;
  - the sorted language lists;
  - the alternate-language link tags, as a list of (href, hreflang)
    records.
- **The configuration page** (`FluencyConfig.php`): the defaults, the
  API-key probe ("valid unless the usage call answers 403"), what it stores,
  which fields are shown, and the usage-row arithmetic.
- **The localization cache** (`classes/FluencyLocalization.class.php`). The
  cache directory is a map from file name `{langId}_{contextFile}` to the
  decoded string table. Modelled here:
  - base-string creation;
  - the cache read with its fallback;
  - the translation of a whole file;
  - the localization run over all configured languages;
  - `clearCache`.
- **The browser helpers** (`src/js/fluency_tools.js`):
  - `getTargetLanguageById`, with JavaScript's `parseInt(s, 10)`;
  - the URL of the module's data endpoint;
  - the form body of a request.

The network is a parameter. `provider: Call -> Reply` maps the call a
client makes (URL and body) to the reply (status code and decoded JSON).
The module's translator and the host's language data are inputs in the
same way.

Files:

| file | module | contents |
|---|---|---|
| outcome.dfy | Outcome | `Option`, `Result` |
| php_string.dfy | PhpString | `str_replace`, `explode`/`implode`, `trim`, `strtolower`, `strcmp`, integer to string |
| php_array.dfy | PhpArray | ordered PHP arrays, lookup, `unset`, `array_merge` |
| url_encoding.dfy | UrlEncoding | UTF-8, `urlencode`, `encodeURIComponent` and their decoders |
| pcre.dfy | Pcre | `preg_quote`, the delimiter scan, literal case-insensitive patterns, `preg_match_all` |
| ignore_tags.dfy | IgnoreTags | `addIgnoredTags`, `removeIgnoredTags`, the round trip |
| http_messages.dfy | HttpMessages | the three status-message tables |
| deepl_engine.dfy | DeepLEngine | `setApiUrl`, `apiCall`'s body, `translate` |
| legacy_deepl.dfy | LegacyDeepL | the older client, and its agreement with the engine |
| fluency_config.dfy | FluencyConfig | defaults, key probe, form, usage row |
| fluency_module.dfy | FluencyModule | readiness, languages, option merging, sorting, alternate tags |
| localization.dfy | Localization | the localization cache |
| client_tools.dfy | ClientTools | the browser helpers |

## Model

| member | source | states |
|---|---|---|
| PhpString.ReplaceAllIsJoinSplit | engines/DeepL.class.php:207 | `str_replace` of a non-empty needle is the text cut at the needle's occurrences and rejoined with the replacement |
| PhpString.ReplaceAll | engines/DeepL.class.php:208 | `str_replace($instance, $tagged, $text)`: case-sensitive, left to right, non-overlapping; `ReplaceAllIsJoinSplit` gives its independent split-and-join characterisation and `ReplaceAllAbsent` the no-occurrence case |
| PhpString.ReplaceAllAbsent | engines/DeepL.class.php:207 | `str_replace` of a needle that does not occur returns the text unchanged |
| PhpString.Split | Fluency.module.php:289 | `explode` always yields at least one piece |
| PhpString.SplitPiecesFree | Fluency.module.php:289 | no piece `explode` yields contains the delimiter |
| PhpString.JoinSplit | Fluency.module.php:289 | joining the pieces of `explode` with the same delimiter gives the text back |
| PhpString.SplitJoin | Fluency.module.php:289 | exploding pieces joined by a one-character delimiter none of them holds gives the pieces back |
| PhpString.Trim | Fluency.module.php:290 | `trim` removes only PHP's whitespace characters, from both ends only, and leaves none at either end |
| PhpString.TrimLeft | Fluency.module.php:290 | the left half of `trim`: what it drops is all whitespace and it stops at the first non-whitespace character |
| PhpString.TrimRight | Fluency.module.php:290 | the right half of `trim`, symmetric to `TrimLeft` |
| PhpString.ContainsLower | engines/DeepL.class.php:197 | an occurrence survives lower-casing of text and needle |
| PhpString.DecimalRoundTrip | classes/FluencyLocalization.class.php:243 | the decimal text of a number reads back as the number |
| PhpString.DecimalInjective | classes/FluencyLocalization.class.php:243 | different numbers have different decimal texts |
| PhpString.LexLeTotal | Fluency.module.php:337-339 | the `strcmp` order compares every pair |
| PhpString.LexLeTransitive | Fluency.module.php:337-339 | the `strcmp` order is transitive |
| PhpString.LexLeAntisymmetric | Fluency.module.php:337-339 | two strings ordered both ways by `strcmp` are equal |
| PhpArray.GetFound | Fluency.module.php:287 | a lookup succeeds exactly for a key the array holds, and returns a value stored under that key |
| PhpArray.Get | Fluency.module.php:287 | `$opts['ignoredStrings'] ?? []` as a lookup in an ordered array; `GetFound` states when it succeeds and what it returns |
| PhpArray.PutGet | Fluency.module.php:292 | after `$a[k] = v`, `$a[k]` is `v` and every other key reads as before |
| PhpArray.Put | Fluency.module.php:292 | `$opts['ignoredStrings'] = …`; `PutGet` (reads back, other keys unchanged), `PutKeys` and `PutUnique` characterise it |
| PhpArray.PutKeys | Fluency.module.php:292 | assignment keeps the key order and appends a new key at the end |
| PhpArray.PutUnique | Fluency.module.php:292 | assignment keeps keys unique |
| PhpArray.UnsetGet | engines/DeepL.class.php:129 | `unset($a[k])` removes exactly the entries under `k`; other keys read as before |
| PhpArray.Unset | engines/DeepL.class.php:129 | `unset($params['text'])`; `UnsetGet` states that exactly key `text` goes and everything else reads as before |
| PhpArray.Merge | engines/DeepL.class.php:257-262 | `array_merge` renumbers the integer-keyed values of both arrays in order, and a later string key overrides an earlier one in place |
| PhpArray.MergeNamedGet | Fluency.module.php:299-301 | after `array_merge(a, b)` a string key reads as in `b` when `b` has it, else as in `a` |
| PhpArray.MergeNamesKeys | engines/DeepL.class.php:257-262 | merging string-keyed entries keeps the existing key order and appends only new keys |
| UrlEncoding.Utf8 | engines/DeepL.class.php:122 | a character's UTF-8 form has 1 to 4 bytes, one byte exactly for ASCII, with a lead byte followed by continuation bytes |
| UrlEncoding.Utf8RoundTrip | engines/DeepL.class.php:122 | decoding a character's UTF-8 bytes gives the code point back |
| UrlEncoding.Encode | engines/DeepL.class.php:122 | `urlencode` and `encodeURIComponent` output only unreserved characters, `%`, upper-case hex digits and, for PHP, `+` |
| UrlEncoding.EncodedHasNoSeparators | engines/DeepL.class.php:122 | an encoded value holds no `&`, `=` or space, so it cannot break the form body |
| UrlEncoding.DecodeEncode | engines/DeepL.class.php:122 | decoding an encoded string gives its UTF-8 bytes back |
| UrlEncoding.DecodeEncodeBytes | src/js/fluency_tools.js:39 | decoding encoded bytes gives the bytes back, for both encoders |
| Pcre.ClosingDelimiter | engines/DeepL.class.php:197 | the delimiter PHP finds is a `/` that lies in the pattern |
| Pcre.QuoteLiteral | engines/DeepL.class.php:197 | a `preg_quote`d body stands for the phrase itself as a literal |
| Pcre.QuotedPattern | engines/DeepL.class.php:197 | `'/' . preg_quote($p) . '/i'` is a case-insensitive search for `$p` when `$p` has no `/`, and a compile error when it has one |
| Pcre.Quote | engines/DeepL.class.php:197 | `preg_quote($str)` with the default delimiter, so `/` is left unescaped; `QuoteLiteral` and `QuotedPattern` say what the quoted body means |
| Pcre.PlainPattern | classes/DeepL.class.php:157 | a phrase without operators or `/`, put into the pattern unescaped, is the same literal search |
| Pcre.FindAll | engines/DeepL.class.php:197 | every match is the phrase up to case and occurs in the text; an empty phrase matches at each of the n+1 positions |
| Pcre.FindAllEmpty | engines/DeepL.class.php:197 | a non-empty phrase finds nothing exactly when it occurs nowhere, in any casing |
| IgnoreTags.Remove | engines/DeepL.class.php:221-223 | `removeIgnoredTags` never makes a text longer |
| IgnoreTags.RemoveMarkers | engines/DeepL.class.php:221-223 | a marker at the front is deleted |
| IgnoreTags.RemoveKeeps | engines/DeepL.class.php:221-223 | text before the next `<` survives unchanged and in order |
| IgnoreTags.RemoveNoAngle | engines/DeepL.class.php:221-223 | text without `<` is returned unchanged |
| IgnoreTags.RemoveNoMarker | engines/DeepL.class.php:221-223 | text without markers is returned unchanged |
| IgnoreTags.TagInstanceSplits | engines/DeepL.class.php:203-209 | one replacement round puts the wrapped instance between the pieces the text splits into |
| IgnoreTags.RemoveTagInstance | engines/DeepL.class.php:203-223 | removing the markers undoes one round with a safe instance, whatever the text already holds |
| IgnoreTags.RemoveTagAll | engines/DeepL.class.php:203-223 | removing the markers undoes all rounds when every instance is safe |
| IgnoreTags.TagAll | engines/DeepL.class.php:203-209 | the replace loop of `addIgnoredTags`: one `str_replace` round per found instance over the already tagged text; `TagInstanceSplits` describes one round and `RemoveTagAll` states that removal undoes all rounds when every instance is safe |
| IgnoreTags.SearchQuoted | engines/DeepL.class.php:196-199 | the engine's search finds the phrase's case-insensitive matches, or fails on a `/` |
| IgnoreTags.SearchPlain | classes/DeepL.class.php:156-159 | for a plain phrase the older client's unescaped search is the engine's |
| IgnoreTags.AddNoPhrases | engines/DeepL.class.php:192-212 | with no phrases the text comes back unchanged |
| IgnoreTags.AddQuotedDetermined | engines/DeepL.class.php:192-212 | the engine's tagging always has a determined outcome in this model |
| IgnoreTags.AddSlashFirst | engines/DeepL.class.php:197-199 | a `/` in the first phrase breaks the pattern and the merge with the unset `$matches` fails |
| IgnoreTags.AddInstancesFromPhrases | engines/DeepL.class.php:196-199 | every instance found is spelt like some phrase up to case and occurs in the text |
| IgnoreTags.OccurrenceOfInstance | engines/DeepL.class.php:197 | a found instance is an occurrence of its phrase at some position |
| IgnoreTags.AddNoMatch | engines/DeepL.class.php:192-212 | when no phrase occurs in any casing, the text comes back unchanged |
| IgnoreTags.CollectOne | engines/DeepL.class.php:196-200 | for one phrase without `/` the instances are exactly its matches |
| IgnoreTags.Collect | engines/DeepL.class.php:196-200 | the `preg_match_all` loop of `addIgnoredTags`, with `$matches` kept from the previous phrase when a pattern fails; `CollectOne`, `AddInstancesFromPhrases` and `AddSlashFirst` characterise it |
| IgnoreTags.InstanceOfSafePhrase | engines/DeepL.class.php:197 | every casing of a safe phrase is a safe instance |
| IgnoreTags.RoundTrip | engines/DeepL.class.php:192-223 | for a text without markers and phrases that are safe (no `/`, no angle bracket, no piece of `/fluency-ignore`), removing the markers after tagging gives the text back, repeated instances included |
| IgnoreTags.AddIgnoredTags | engines/DeepL.class.php:192-212 | `addIgnoredTags`: collect the case-insensitive matches of every phrase, then one `str_replace` round per instance; `RoundTrip` (removal undoes it for safe phrases), `AddNoMatch`, `AddSlashFirst` and `DoubledInstanceLeavesMarkers` characterise it |
| IgnoreTags.LegacyAgreesOnPlain | classes/DeepL.class.php:152-170 | for plain phrases the older client tags exactly as the engine does |
| IgnoreTags.DoubledInstanceLeavesMarkers | engines/DeepL.class.php:203-223 | the phrase `ignore` in `ignore ignore` is found twice; the second round rewrites the first round's markers and removal leaves a pair of markers around each occurrence |
| IgnoreTags.IgnoreUnsafe | engines/DeepL.class.php:205 | `ignore`, a piece of the tag name, is not a safe phrase |
| IgnoreTags.AddFindsTwice | engines/DeepL.class.php:196-209 | a phrase occurring twice, separated by a space, is found twice and tagged in two rounds |
| IgnoreTags.TagTwice | engines/DeepL.class.php:203-209 | the two rounds on `w w` rewrite the markers the first round added |
| IgnoreTags.StripTwice | engines/DeepL.class.php:221-223 | removal after those two rounds leaves one marker pair around each occurrence |
| HttpMessages.DeepLReason | engines/DeepL.class.php:82-104 | exactly the nine listed codes have a reason |
| HttpMessages.TranslatorReason | classes/FluencyTranslator.class.php:15-37 | exactly the nine listed codes have a reason |
| HttpMessages.EngineMessage | engines/DeepL.class.php:82-104 | a listed code's message starts with its `HTTP/1.0` status line; any other code gets `An unknown error has occurred` |
| HttpMessages.LegacyMessage | classes/DeepL.class.php:41-63 | the same table with `HTTP/101` status lines |
| HttpMessages.TranslatorMessage | classes/FluencyTranslator.class.php:15-37 | the same shape for the base class's table |
| HttpMessages.StatusLineUnique | classes/FluencyTranslator.class.php:15-37 | one message cannot start with the status lines of two codes |
| HttpMessages.MessagesDistinct | classes/FluencyTranslator.class.php:15-37 | in each table a listed code's message differs from every other code's message and from the unknown-error text |
| HttpMessages.LookupDistinct | classes/FluencyTranslator.class.php:15-37 | a listed code's message is never another code's message |
| HttpMessages.Lookup | engines/DeepL.class.php:96-100 | `isset($messages[$code]) ? $messages[$code] : 'An unknown error has occurred'`; `LookupDistinct`, `MessagesDistinct` and `LookupProtocol` characterise it |
| HttpMessages.LegacyDiffersOnlyInProtocol | classes/DeepL.class.php:41-63 | the older client's messages are the engine's with `HTTP/1.0` replaced by `HTTP/101` |
| HttpMessages.LookupProtocol | classes/DeepL.class.php:41-63 | changing the protocol text changes only the status line's prefix |
| DeepLEngine.ApiUrl | engines/DeepL.class.php:61-73 | `pro` selects the pro host; every other account type, `free` included, selects the free host |
| DeepLEngine.NewClient | engines/DeepL.class.php:52-55 | a client exists exactly when an account type is given; its host follows the account type and a missing key becomes empty |
| DeepLEngine.ParamStringFields | engines/DeepL.class.php:112-133 | the parameter string is built exactly when the text list is; cut at `&`, it is an empty piece followed by the text fields, `ignore_tags=fluency-ignore` and the other parameters |
| DeepLEngine.ParamString | engines/DeepL.class.php:112-133 | the parameter string `apiCall` builds: `&text=` fields, `&ignore_tags=`, then the remaining parameters unencoded; `ParamStringFields` gives its field-by-field description and `TextFieldsDecode` the decoding of each text |
| DeepLEngine.TextFieldsPlain | engines/DeepL.class.php:122 | an encoded text field holds no `&` |
| DeepLEngine.TextFieldsDecode | engines/DeepL.class.php:122 | each text field is `text=` followed by a value that decodes to the text's UTF-8 bytes |
| DeepLEngine.AmpSplit | engines/DeepL.class.php:119-133 | `&`-prefixed fields without `&` split back into the fields |
| DeepLEngine.ApiCall | engines/DeepL.class.php:112-185 | the call posts the parameter string to `{host}{endpoint}?auth_key={key}`; the output carries the provider's data and code, and an error report, with the parameters, exactly for codes other than 200 |
| DeepLEngine.GetApiUsage | engines/DeepL.class.php:300-302 | the usage call posts an empty body to `/usage` |
| DeepLEngine.GetLanguageList | engines/DeepL.class.php:290-294 | the language call posts `&type={kind}` to `/languages` |
| DeepLEngine.TagEntries | engines/DeepL.class.php:251-255 | tagging keeps the number, order and keys of the texts and tags each string |
| DeepLEngine.AsList | engines/DeepL.class.php:246-247 | `gettype($content) === 'array' ? $content : [$content]`; `SingleTextSent` states that a single string becomes one `text` field |
| DeepLEngine.PrepareTexts | engines/DeepL.class.php:246-255 | the content wrapped as a list and, when phrases are given, tagged; `TagEntries` states count, order and keys are kept, `TagListSafe` that safe phrases never fail, and `Translate` posts exactly its result |
| DeepLEngine.TranslateParamsKeys | engines/DeepL.class.php:257-262 | the request has the given `source_lang`, `target_lang`, `tag_handling=xml` and `text`; every other key reads as in `addParams`, and the list values of `addParams` are kept |
| DeepLEngine.TranslateParams | engines/DeepL.class.php:257-262 | the request array of `translate`: `array_merge($addParams, [...])` with the four fixed keys; `TranslateParamsKeys` states which keys it sets and that every other key reads as in `addParams` |
| DeepLEngine.Translate | engines/DeepL.class.php:237-282 | the request is sent exactly when the texts can be tagged (a nested array, or a `/` in the first phrase, throws) and the parameter string can be built; it posts that parameter string of the merged parameters to `/translate`, and the reply's translations are untagged exactly when phrases were given and translations are present |
| DeepLEngine.SingleTextSent | engines/DeepL.class.php:248-262 | a single string is sent as one `text` field, then `ignore_tags`, then the other parameters |
| DeepLEngine.EchoComesBack | engines/DeepL.class.php:237-282 | if the service echoes the tagged texts, the untagged result is the original texts, for texts without markers and safe phrases |
| DeepLEngine.UntagEcho | engines/DeepL.class.php:267-279 | untagging an echo of texts tagged with safe phrases gives the texts back |
| DeepLEngine.Untagged | engines/DeepL.class.php:266-279 | the post-processing of `translate`: markers stripped from each translation when there were ignored phrases and the reply has translations; `UntagEcho` and `EchoComesBack` state that an echoed reply comes back as the original texts |
| DeepLEngine.TagListSafe | engines/DeepL.class.php:251-255 | with safe phrases every list of strings is tagged without failure |
| LegacyDeepL.ApiCall | classes/DeepL.class.php:71-144 | the older client appends the parameter string to the pro URL, posts nothing, and always reports the `HTTP/101` message of the code |
| LegacyDeepL.Translate | classes/DeepL.class.php:195-240 | the request is sent exactly when the texts can be tagged and the parameter string built; it is a GET of the pro `/translate` URL followed by that parameter string, carries the code's message, and is untagged exactly as in the engine |
| LegacyDeepL.AgreesWithProEngine | classes/DeepL.class.php:195-240 | for plain phrases the older client sends the pro engine's URL and body as one GET URL, and returns the same data and code when the service answers both alike |
| LegacyDeepL.ApiCallsAgree | classes/DeepL.class.php:71-144 | for the same parameters both clients' calls carry the same URL and body |
| LegacyDeepL.PrepareAgrees | classes/DeepL.class.php:204-213 | for plain phrases the older client prepares the same texts as the engine |
| FluencyConfig.DefaultsNotValidated | FluencyConfig.php:25-30 | the defaults have an empty key and an `api_key_valid` that is not `true` |
| FluencyConfig.Defaults | FluencyConfig.php:25-30 | `getDefaults`; `DefaultsNotValidated` and `FluencyModule.DefaultsNeverReady` state that the module never starts on them |
| FluencyConfig.CheckKey | FluencyConfig.php:57-79 | the probe runs exactly when a key is set; the key is valid exactly when the usage call does not answer 403, and only a rejected key carries a message, the 403 message |
| FluencyConfig.StoreCheck | FluencyConfig.php:81-83 | a probe that ran stores its verdict in `api_key_valid`; nothing else changes |
| FluencyConfig.ConfigForm | FluencyConfig.php:96-109 | only the key field is shown unless a key is set and validated; the key field asks for a key exactly when none is set |
| FluencyConfig.FullFormOnlyForAcceptedKey | FluencyConfig.php:57-109 | the full form appears exactly when a key is set and the usage call did not answer 403, and the 403 message exactly when it did |
| FluencyConfig.Usage | FluencyConfig.php:141-151 | a row exists exactly for a non-zero limit; remaining plus used is the limit, and the percentage is `used / limit * 100` rounded half up |
| FluencyConfig.UsageWithinLimit | FluencyConfig.php:141-151 | within the limit the percentage lies between 0 and 100 and is 100 at the limit |
| FluencyModule.ModuleShouldInit | Fluency.module.php:91-99 | readiness needs a key, a stored `api_key_valid` of `true` and an account type |
| FluencyModule.DefaultsNeverReady | Fluency.module.php:91-99 | with the default settings the module never starts |
| FluencyModule.ReadyAfterProbe | Fluency.module.php:91-99 | after storing the probe, the module starts exactly off the login page, with a key, the permission, a usage call not answering 403 and an account type |
| FluencyModule.ConfiguredLanguageData | Fluency.module.php:150-205 | the targets are the configured non-default languages in order; a source, when found, is the configured default language; there is none exactly when no default language is configured |
| FluencyModule.GatherTargets | Fluency.module.php:161-202 | the loop appends the targets in language order |
| FluencyModule.GatherSource | Fluency.module.php:161-202 | the loop finds a source exactly when a configured default language exists, and only such a language |
| FluencyModule.Gather | Fluency.module.php:153-202 | the loop over the host's languages that packages the configured ones; `GatherTargets` and `GatherSource` state what it collects |
| FluencyModule.TargetsDescribeLanguages | Fluency.module.php:150-205 | each target is a configured non-default language with its own settings, `urlValid` false exactly for RU, JA and ZH; every such language has a target |
| FluencyModule.AddTargetsKeys | Fluency.module.php:228-243 | adding targets adds exactly their ids, each mapped to its code, and keeps other entries |
| FluencyModule.IsoMatchesConfiguration | Fluency.module.php:228-243 | the associations have exactly the configured languages' ids, each mapped to its configured code |
| FluencyModule.IsoWithinConfiguration | Fluency.module.php:228-243 | every association is a configured language's id and code |
| FluencyModule.IsoCoversConfiguration | Fluency.module.php:228-243 | every configured language has an association |
| FluencyModule.IsoAssociations | Fluency.module.php:228-243 | `getLanguageIdIsoAssociations`: the source's and every target's id mapped to its code; `IsoMatchesConfiguration`, `IsoWithinConfiguration` and `IsoCoversConfiguration` characterise it |
| FluencyModule.MergeIgnored | Fluency.module.php:286-293 | with configured strings, `ignoredStrings` becomes the trimmed comma-split configuration followed by the caller's strings; without them the options are unchanged; nothing else changes |
| FluencyModule.MergeAddParams | Fluency.module.php:296-302 | with `preserve_formatting` configured, the merged `addParams` holds every string key of the caller's `addParams` with the caller's value, `preserve_formatting` with the configured value when the caller does not give it, and no other string key; its list values are the caller's, in order; the other options are unchanged |
| FluencyModule.MergeOptions | Fluency.module.php:286-302 | both merges together: options other than `ignoredStrings` and `addParams` are kept; `ignoredStrings` and `addParams` are merged as above when their setting is on, and each stays as the caller gave it when its own setting is off |
| FluencyModule.MergeFailsOnScalar | Fluency.module.php:286-302 | the merge fails exactly when a merge runs on a caller value that is not an array |
| FluencyModule.ComposedRequest | Fluency.module.php:306-311 | the engine is called with the merged options as its `addParams`, so the body is the parameter string of those options |
| FluencyModule.FluencyTranslate | Fluency.module.php:276-312 | `Fluency::translate`: merges the configured ignored phrases and `preserve_formatting` into `$opts`, then calls the engine with the whole `$opts` as `addParams`; `ComposedRequest`, `ComposedParams` and `MergeFailsOnScalar` characterise it |
| FluencyModule.ComposedParams | Fluency.module.php:306-311 | as written, the configured strings and `preserve_formatting` arrive nested under `ignoredStrings` and `addParams`, and the request's `preserve_formatting` is the caller's own |
| FluencyModule.MergeKeepsOption | Fluency.module.php:286-302 | every option other than the two merged ones is kept |
| FluencyModule.OptionsReachRequest | engines/DeepL.class.php:257-262 | `preserve_formatting`, `ignoredStrings` and `addParams` reach the request as given |
| FluencyModule.InsertByName | Fluency.module.php:336-341 | inserting into a name-sorted list keeps it sorted and adds exactly the element |
| FluencyModule.SortByName | Fluency.module.php:336-341 | sorting by `strcmp` on the name gives a sorted permutation |
| FluencyModule.TranslatableLanguages | Fluency.module.php:330-346 | with sorting, each list is a sorted permutation of the provider's list; without, both lists are unchanged |
| FluencyModule.RenderAltLanguageTags | Fluency.module.php:364-388 | the tags of the included languages, followed by exactly one final `x-default` tag |
| FluencyModule.AltTagsLoopFor | Fluency.module.php:370-380 | the loop appends the included languages' tags in order |
| FluencyModule.AltTagsExactly | Fluency.module.php:373-378 | a tag appears exactly for each language that is not excluded and has an association, with that association as hreflang |
| Localization.FileNameInjective | classes/FluencyLocalization.class.php:229-234 | a file name determines its language id and context |
| Localization.IdIsNotBase | classes/FluencyLocalization.class.php:243 | no language id's file is a base file |
| Localization.IdsDistinct | classes/FluencyLocalization.class.php:243 | different language ids give different id texts |
| Localization.LanguageFilesDistinct | classes/FluencyLocalization.class.php:229-234 | files of different languages, and base files, never coincide |
| Localization.Combine | classes/FluencyLocalization.class.php:217 | `array_combine` of keys and values of the same length has exactly those keys and values |
| Localization.CombineSplit | classes/FluencyLocalization.class.php:202-217 | splitting a table into keys and values and combining them again gives it back |
| Localization.BaseTable | classes/FluencyLocalization.class.php:153-155 | the base table keeps the definition's keys |
| Localization.BaseTableWithoutPlaceholder | classes/FluencyLocalization.class.php:153-155 | a definition without `%{DEFAULT_LANGUAGE}` is its own base table |
| Localization.CreateTranslationSource | classes/FluencyLocalization.class.php:145-159 | every base file holds its definition's base table; no other file changes |
| Localization.WriteBasesEffect | classes/FluencyLocalization.class.php:145-159 | each listed context's base file is written and every other file is kept |
| Localization.GetFromCache | classes/FluencyLocalization.class.php:242-266 | a cached file is returned and nothing changes; otherwise all base files are rewritten and the context's base table is returned; language files are never touched |
| Localization.ReadAfterWrite | classes/FluencyLocalization.class.php:229-265 | a written table is read back unchanged, without a change to the cache |
| Localization.WriteToCache | classes/FluencyLocalization.class.php:229-234 | `writeToCache`; `ReadAfterWrite` (the table reads back) and `WriteKeepsOtherReads` (reads of other files are unchanged) characterise it |
| Localization.WriteKeepsOtherReads | classes/FluencyLocalization.class.php:229-265 | a write does not change what a read of another file returns |
| Localization.FallbackIsBase | classes/FluencyLocalization.class.php:242-266 | after a fallback read the base file holds the returned table |
| Localization.GetBaseStrings | classes/FluencyLocalization.class.php:182-192 | `getBaseStrings`: the base file's table, or null when it is missing; `FallbackIsBase` states that a fallback read returns what the base file then holds |
| Localization.TranslateStrings | classes/FluencyLocalization.class.php:200-221 | the translation succeeds exactly when the translator returns as many texts as the table has; the result keeps the keys in order with the translations as values |
| Localization.TranslateIdentity | classes/FluencyLocalization.class.php:200-221 | a translator that returns its input leaves the table as it is |
| Localization.LanguagesOf | classes/FluencyLocalization.class.php:113-125 | the source language first, then each target, as code and id |
| Localization.ContextsKeepBase | classes/FluencyLocalization.class.php:168-172 | the contexts loop keeps the base files and finishes exactly when every context translates |
| Localization.ContextsFrame | classes/FluencyLocalization.class.php:168-172 | the contexts loop touches only the language's files of those contexts |
| Localization.ContextsValues | classes/FluencyLocalization.class.php:168-172 | after the loop, each context's file holds the translated base table |
| Localization.ForLanguageEffect | classes/FluencyLocalization.class.php:166-175 | one language: the base files stay, the step finishes exactly when every context translates, then each file holds its translated base table, and no other file changes |
| Localization.ForLanguageFrame | classes/FluencyLocalization.class.php:166-175 | one language's step changes only that language's files |
| Localization.LocalizeForLanguage | classes/FluencyLocalization.class.php:166-175 | `localizeForLanguage`; `ForLanguageEffect` (base files stay, success iff all contexts translate, values written) and `ForLanguageFrame` (only that language's files change) characterise it |
| Localization.LanguagesKeepBase | classes/FluencyLocalization.class.php:113-125 | the language loop keeps the base files and finishes exactly when every language's every context translates |
| Localization.LanguagesFrame | classes/FluencyLocalization.class.php:113-125 | the language loop touches only the listed languages' files |
| Localization.LanguagesValues | classes/FluencyLocalization.class.php:113-125 | with distinct ids, after the loop each language's file of each context holds its translation |
| Localization.LocalizeModuleOutcome | classes/FluencyLocalization.class.php:106-126 | the base files are always rebuilt; without a source the run stops there; with one it finishes exactly when every language's every context translates |
| Localization.LocalizeModuleWrites | classes/FluencyLocalization.class.php:106-126 | a finished run leaves every configured language's translated files |
| Localization.LocalizeModuleFrame | classes/FluencyLocalization.class.php:106-126 | files that are neither base files nor configured languages' files are never touched |
| Localization.LocalizeModule | classes/FluencyLocalization.class.php:106-126 | `localizeModule`: rebuild the base files, then localize the source and each target; `LocalizeModuleOutcome`, `LocalizeModuleWrites` and `LocalizeModuleFrame` characterise it |
| Localization.ArrayUnique | classes/FluencyLocalization.class.php:292 | `array_unique` keeps the first occurrence of each value, with its position as key, in order, and loses no value |
| Localization.ArrayUniqueDistinct | classes/FluencyLocalization.class.php:292 | the values `array_unique` keeps are pairwise different |
| Localization.ClearCache | classes/FluencyLocalization.class.php:273-293 | with the intended deletion (see Findings): exactly the listed files that are selected are deleted, the rest keep their contents, and the result is the de-duplicated prefixes of the deleted names |
| Localization.ClearLoopAsWritten | classes/FluencyLocalization.class.php:278-290 | as written, the loop throws exactly when some listed file is selected, and otherwise returns the cache and ids it was given |
| Localization.ClearCacheAsWritten | classes/FluencyLocalization.class.php:273-293 | as written, `clearCache` throws exactly when some listed file is selected, and otherwise deletes nothing and returns an empty list |
| Localization.ClearAsWrittenThrows | classes/FluencyLocalization.class.php:283-289 | clearing `10` from a cache holding `1020_page_editor.json` throws as written, where the intended deletion removes the file and reports `1020` |
| Localization.ClearLoopEffect | classes/FluencyLocalization.class.php:278-290 | with the intended deletion, the loop deletes the selected files and collects their prefixes in order |
| Localization.ClearLoop | classes/FluencyLocalization.class.php:278-290 | the `clearCache` loop with the intended deletion; `ClearLoopEffect` and `ClearedIdsExactly` characterise it, and `ClearLoopAsWritten` is the loop as written |
| Localization.ClearedIdsExactly | classes/FluencyLocalization.class.php:287 | a prefix is collected exactly when some selected file has it |
| Localization.ClearAllEmpties | classes/FluencyLocalization.class.php:273-293 | with the intended deletion, clearing without an id deletes every file, base files included |
| Localization.ClearOne | classes/FluencyLocalization.class.php:273-293 | with the intended deletion, a single selected file is deleted and its prefix returned |
| Localization.ClearMatchesSubstring | classes/FluencyLocalization.class.php:283-292 | the id is matched as a substring: with the intended deletion, clearing id `10` also deletes `1020_page_editor.json` and returns `1020` |
| ClientTools.TrimStart | src/js/fluency_tools.js:95 | `parseInt` skips exactly the leading whitespace |
| ClientTools.LeadingDigits | src/js/fluency_tools.js:95 | `parseInt` reads exactly the leading decimal digits |
| ClientTools.ParseIntReads | src/js/fluency_tools.js:95 | whitespace, an optional sign and digits followed by a non-digit read as the signed number |
| ClientTools.ParseInt | src/js/fluency_tools.js:95 | `parseInt(s, 10)`; `ParseIntReads`, `ParseIntNaN` and `ParseIntRoundTrip` characterise it |
| ClientTools.ParseIntNaN | src/js/fluency_tools.js:95 | text with no digit after the whitespace and optional sign reads as NaN |
| ClientTools.ParseIntRoundTrip | src/js/fluency_tools.js:95 | the decimal text of an integer reads back as that integer |
| ClientTools.GetTargetLanguageById | src/js/fluency_tools.js:93-107 | a target is returned exactly when the id parses and some target has it; it is the first target with that id |
| ClientTools.FirstSegment | src/js/fluency_tools.js:28-32 | an empty path gives the segment `undefined` |
| ClientTools.RequestUrlOfAdminPath | src/js/fluency_tools.js:28-32 | for a path `/admin/...` the URL is `protocol//host/admin/fluency/data/` |
| ClientTools.ModuleRequestUrl | src/js/fluency_tools.js:28-32 | the request URL of `moduleRequest`; `RequestUrlOfAdminPath` states it for admin paths and `FirstSegment` the empty-path case |
| ClientTools.WithoutBreakChars | src/js/fluency_tools.js:38 | no `\r` or `\n` remains, and text without them is unchanged |
| ClientTools.StripLineBreaks | src/js/fluency_tools.js:38 | the regular-expression replacement removes exactly the `\r` and `\n` characters |
| ClientTools.FormField | src/js/fluency_tools.js:39 | a field of a key without `&` holds no `&` |
| ClientTools.FieldRoundTrip | src/js/fluency_tools.js:39 | a field parses back into its key and the UTF-8 bytes of its value without line breaks |
| ClientTools.FormBodyRoundTrip | src/js/fluency_tools.js:35-43 | the body splits back into the fields and parses back into the data with line breaks removed |
| ClientTools.FormBody | src/js/fluency_tools.js:35-43 | the body of `moduleRequest`: `key=encodeURIComponent(value without line breaks)` joined by `&`; `FormBodyRoundTrip` and `FormBodyBreaks` characterise it |
| ClientTools.FormBodyBreaks | src/js/fluency_tools.js:35-43 | a line break in the body can only come from a key |

## Left out

- The HTTP exchange (cURL), `json_decode` of replies and the error logging
  in `apiCall` are not modelled; the reply is an input. This includes the
  undefined `$message` the engine logs at engines/DeepL.class.php:172.
  The page id and name in the engine's error report are also left out.
- `engines/DeepL.fluencyEngine.php` is not part of this model. It is an
  unfinished draft that nothing loads. `engines/TranslationEngine.interface.php`
  holds only signatures.
- Not modelled:
  - the host framework: `ready`, asset loading, the data and page
    dispatchers, form building;
  - template rendering (`getTemplate`, `renderLanguageSelectElement`);
  - `module_localizations/*.php` and `Fluency.info.php`;
  - the DOM, event and XHR code of the browser scripts.
- Both DeepL classes are named `DeepL`. Which one a request sees, and the
  clash if both load, is not modelled. The engine is the module's client,
  and the older class is the configuration page's.
- `Fluency::translatableLanguages` calls `availableLanguages`, which neither
  DeepL class defines. The model sorts the provider's lists, passed in as
  inputs.
- Pcre.FindAll: full regular-expression semantics are not modelled.
  Patterns are given meaning only when they are literal bodies under the
  modifier `i`, with ASCII case folding. A body with an unescaped operator
  is `NotModelled`.
- IgnoreTags.AddIgnoredTags: in the older client, phrases with regular
  expression operators give `Undetermined` rather than PHP's behaviour.
- Strings are sequences of characters. PHP's byte strings are treated as
  UTF-8 text.
- FluencyConfig.Usage: the percentage is computed in integers, rounding
  halves up. PHP's float division and `round` are not modelled, and
  neither is the `number_format` display.
- Localization.GetFromCache: a cached file whose contents are falsy (an
  empty file) is treated as a present table. The JSON encoding of the
  files is the identity on string tables.
- Localization.LocalizeModule: the `get` wrapper and `clearLocalizations`
  are not modelled. A missing source language is modelled as a run that
  stops after the base files, and its name prints as the empty string.
- FluencyModule.IsoMatchesConfiguration: the associations are stated for
  language lists with at most one default language, as the host provides.
- ClientTools.GetTargetLanguageById: the id is modelled as text. A number
  argument is read through its decimal text, which `ParseIntRoundTrip`
  covers for integers. Ids above 2^53, where JavaScript numbers lose
  precision, are not modelled.
- ClientTools.FormBody: the request data is an ordered sequence of
  properties, standing for the object's own properties in their order.
  Values that are not strings are not modelled; `replace` on them throws a
  TypeError at src/js/fluency_tools.js:38.
- DeepLEngine.Translate: content other than strings and arrays is not
  modelled. The source wraps any non-array value, null or
  an int included, as a one-element list.
- Localization.ClearCache: models the evidently intended deletion through
  the host's file tools, not the code as written, which throws at the first
  selected file. The as-written behaviour is `ClearCacheAsWritten`; see
  Findings. A deletion never fails in the model, so the exception the
  intended call's `$throw` argument raises on a failed deletion is not
  modelled.
- Localization.ClearLoop: performs the intended deletions; as written the
  loop throws at the first selected file (`ClearLoopAsWritten`).
- Localization.ClearLoopEffect: states the intended deletions; as written
  the loop throws at the first selected file (`ClearLoopAsWritten`).
- Localization.ClearAllEmpties: holds for the intended deletion; as written
  a non-empty listing throws and nothing is deleted.
- Localization.ClearOne: holds for the intended deletion; as written the
  selected file stays and no prefix is returned.
- Localization.ClearMatchesSubstring: holds for the intended deletion; as
  written the call throws and `1020_page_editor.json` stays
  (`ClearAsWrittenThrows`).

## Findings

| source | as written | input that shows it | evidently intended | confidence | as-written member | corrected member |
|---|---|---|---|---|---|---|
| classes/FluencyLocalization.class.php:289 | `unlink($cachedFile, false, true)` calls PHP's built-in `unlink`, which takes at most two arguments; PHP 8 throws `ArgumentCountError` at the first selected file, so nothing is deleted and nothing is returned | a cache holding `1020_page_editor.json`, cleared with id `10` | `$files->unlink($cachedFile, false, true)`, the file tools' `unlink($filename, $limitPath, $throw)` fetched at line 274, deleting each selected file and throwing only when a deletion fails | not executed; high | Localization.ClearCacheAsWritten, Localization.ClearAsWrittenThrows | Localization.ClearCache |

=== FILE: client_tools.dfy ===
/**
 * The browser-side helpers every admin script uses (`src/js/fluency_tools.js`):
 * finding the configured target language for a ProcessWire language id, and
 * building the URL and the form body of a request to the module's data
 * endpoint. The request itself, the DOM updates and the overlay are not
 * modelled.
 */
module ClientTools {
  import opened Outcome
  import opened PhpString
  import opened UrlEncoding
  import FluencyModule

  // ---------------------------------------------------------------------------
  // parseInt(s, 10)
  // ---------------------------------------------------------------------------

  /**
   * The characters `parseInt` skips at the start: ECMAScript's WhiteSpace
   * (tab, vertical tab, form feed, the byte order mark and the Unicode
   * space separators) and LineTerminator (LF, CR, U+2028, U+2029).
   */
  predicate JsSpace(c: char) {
    c == '\t' || c == '\U{B}' || c == '\U{C}' || c == '\U{FEFF}'
    || c == ' ' || c == '\U{A0}' || c == '\U{1680}' || ('\U{2000}' <= c <= '\U{200A}')
    || c == '\U{202F}' || c == '\U{205F}' || c == '\U{3000}'
    || c == '\n' || c == '\r' || c == '\U{2028}' || c == '\U{2029}'
  }

  /** The string without its leading white space. */
  function TrimStart(s: string): (r: string)
    ensures |r| <= |s| && r == s[|s| - |r|..]
    ensures forall k :: 0 <= k < |s| - |r| ==> JsSpace(s[k])
    ensures |r| > 0 ==> !JsSpace(r[0])
    decreases |s|
  {
    if |s| > 0 && JsSpace(s[0]) then TrimStart(s[1..]) else s
  }

  /** The longest prefix made of decimal digits. */
  function LeadingDigits(s: string): (r: string)
    ensures |r| <= |s| && r == s[..|r|]
    ensures forall k :: 0 <= k < |r| ==> IsDigit(r[k])
    ensures |r| < |s| ==> !IsDigit(s[|r|])
    decreases |s|
  {
    if |s| > 0 && IsDigit(s[0]) then [s[0]] + LeadingDigits(s[1..]) else ""
  }

  /**
   * `parseInt(s, 10)`: leading white space is skipped, one `+` or `-` is
   * read, then as many decimal digits as follow; anything after them is
   * ignored. Without a digit the result is `NaN` (`None`). With radix 10 a
   * `0x` prefix is not special: it reads as `0`.
   */
  function ParseInt(s: string): Option<int> {
    ParseSigned(TrimStart(s))
  }

  /** The part of `parseInt` after the white space: the sign, then the digits. */
  function ParseSigned(t: string): Option<int> {
    var negative := |t| > 0 && t[0] == '-';
    var u := if |t| > 0 && (t[0] == '-' || t[0] == '+') then t[1..] else t;
    var ds := LeadingDigits(u);
    var v: int := DecimalValue(ds);
    if |ds| == 0 then None
    else if negative then Some(-v)
    else Some(v)
  }

  /** Skipping white space in front of a string that does not start with any. */
  lemma {:induction false} TrimStartOf(ws: string, t: string)
    requires forall k :: 0 <= k < |ws| ==> JsSpace(ws[k])
    requires |t| > 0 ==> !JsSpace(t[0])
    ensures TrimStart(ws + t) == t
    decreases |ws|
  {
    if |ws| == 0 {
      assert ws + t == t;
    } else {
      var s := ws + t;
      assert s[0] == ws[0];
      assert s[1..] == ws[1..] + t;
      TrimStartOf(ws[1..], t);
    }
  }

  /** The digits in front of a string that does not start with one. */
  lemma {:induction false} LeadingDigitsOf(ds: string, t: string)
    requires forall k :: 0 <= k < |ds| ==> IsDigit(ds[k])
    requires |t| > 0 ==> !IsDigit(t[0])
    ensures LeadingDigits(ds + t) == ds
    decreases |ds|
  {
    if |ds| == 0 {
      assert ds + t == t;
    } else {
      var s := ds + t;
      assert s[0] == ds[0];
      assert s[1..] == ds[1..] + t;
      LeadingDigitsOf(ds[1..], t);
      assert ds == [ds[0]] + ds[1..];
    }
  }

  /** The sign `parseInt` may read in front of the digits. */
  datatype Sign = NoSign | Plus | Minus

  function SignText(sign: Sign): string {
    match sign
    case NoSign => ""
    case Plus => "+"
    case Minus => "-"
  }

  /** The value of a run of digits under a sign. */
  function Signed(sign: Sign, ds: string): int
    requires forall k :: 0 <= k < |ds| ==> IsDigit(ds[k])
  {
    if sign == Minus then -(DecimalValue(ds) as int) else DecimalValue(ds)
  }

  lemma SignedOf(t: string, ds: string)
    requires |ds| > 0
    requires LeadingDigits(if |t| > 0 && (t[0] == '-' || t[0] == '+') then t[1..] else t) == ds
    ensures ParseSigned(t) == Some(if |t| > 0 && t[0] == '-' then -(DecimalValue(ds) as int) else DecimalValue(ds))
  {
  }

  /** Digits without a sign, then a tail that does not continue them. */
  lemma UnsignedReads(ds: string, tail: string)
    requires |ds| > 0 && forall k :: 0 <= k < |ds| ==> IsDigit(ds[k])
    requires |tail| > 0 ==> !IsDigit(tail[0])
    ensures ParseSigned(ds + tail) == Some(DecimalValue(ds))
  {
    var t := ds + tail;
    LeadingDigitsOf(ds, tail);
    assert t[0] == ds[0];
    SignedOf(t, ds);
  }

  /** A sign character, digits, then a tail that does not continue them. */
  lemma SignCharReads(c: char, ds: string, tail: string)
    requires c == '+' || c == '-'
    requires |ds| > 0 && forall k :: 0 <= k < |ds| ==> IsDigit(ds[k])
    requires |tail| > 0 ==> !IsDigit(tail[0])
    ensures ParseSigned([c] + ds + tail) == Some(if c == '-' then -(DecimalValue(ds) as int) else DecimalValue(ds))
  {
    var t := [c] + (ds + tail);
    Assoc([c], ds, tail);
    LeadingDigitsOf(ds, tail);
    assert t[0] == c && t[1..] == ds + tail;
    SignedOf(t, ds);
  }

  /** Any sign, digits, and a tail that does not continue them. */
  lemma SignedTail(sign: Sign, ds: string, tail: string)
    requires |ds| > 0 && forall k :: 0 <= k < |ds| ==> IsDigit(ds[k])
    requires |tail| > 0 ==> !IsDigit(tail[0])
    ensures ParseSigned(SignText(sign) + ds + tail) == Some(Signed(sign, ds))
  {
    if sign == NoSign {
      assert SignText(sign) + ds + tail == ds + tail;
      UnsignedReads(ds, tail);
    } else {
      var c := if sign == Plus then '+' else '-';
      assert SignText(sign) + ds + tail == [c] + ds + tail;
      SignCharReads(c, ds, tail);
    }
  }

  /** `parseInt` skips the white space and reads the rest. */
  lemma ParseIntOf(ws: string, t: string)
    requires forall k :: 0 <= k < |ws| ==> JsSpace(ws[k])
    requires |t| > 0 ==> !JsSpace(t[0])
    ensures ParseInt(ws + t) == ParseSigned(t)
  {
    TrimStartOf(ws, t);
  }

  /**
   * What `parseInt` reads: any white space, an optional sign, a run of
   * digits and a tail that does not continue the run give the run's value,
   * negated after a minus sign.
   */
  lemma ParseIntReads(ws: string, sign: Sign, ds: string, tail: string)
    requires forall k :: 0 <= k < |ws| ==> JsSpace(ws[k])
    requires |ds| > 0 && forall k :: 0 <= k < |ds| ==> IsDigit(ds[k])
    requires |tail| > 0 ==> !IsDigit(tail[0])
    ensures ParseInt(ws + SignText(sign) + ds + tail) == Some(Signed(sign, ds))
  {
    var t := SignText(sign) + ds + tail;
    assert ws + SignText(sign) + ds + tail == ws + t;
    assert t[0] == (if sign == NoSign then ds[0] else SignText(sign)[0]);
    ParseIntOf(ws, t);
    SignedTail(sign, ds, tail);
  }

  /** Without a digit after the white space and the sign, `parseInt` gives `NaN`. */
  lemma ParseIntNaN(ws: string, sign: Sign, rest: string)
    requires forall k :: 0 <= k < |ws| ==> JsSpace(ws[k])
    requires |rest| > 0 ==> !IsDigit(rest[0])
    requires sign == NoSign && |rest| > 0 ==> !JsSpace(rest[0]) && rest[0] != '+' && rest[0] != '-'
    ensures ParseInt(ws + SignText(sign) + rest) == None
  {
    var t := SignText(sign) + rest;
    assert ws + SignText(sign) + rest == ws + t;
    LeadingDigitsOf("", rest);
    assert "" + rest == rest;
    if sign == NoSign {
      assert t == rest;
    } else {
      assert t[1..] == rest;
    }
    ParseIntOf(ws, t);
  }

  lemma ParseDigits(ds: string)
    requires |ds| > 0 && forall k :: 0 <= k < |ds| ==> IsDigit(ds[k])
    ensures ParseInt(ds) == Some(DecimalValue(ds))
  {
    ParseIntOf("", ds);
    assert "" + ds == ds;
    SignedTail(NoSign, ds, "");
    assert SignText(NoSign) + ds + "" == ds;
  }

  lemma ParseNegatedDigits(ds: string)
    requires |ds| > 0 && forall k :: 0 <= k < |ds| ==> IsDigit(ds[k])
    ensures ParseInt("-" + ds) == Some(Signed(Minus, ds))
  {
    var s := "-" + ds;
    assert s[0] == '-';
    ParseIntOf("", s);
    assert "" + s == s;
    SignedTail(Minus, ds, "");
    assert "-" + ds + "" == s;
  }

  /** The id a page prints with PHP's `"{$id}"` reads back as the same number. */
  lemma ParseIntRoundTrip(n: int)
    ensures ParseInt(IntToString(n)) == Some(n)
  {
    if n >= 0 {
      NonNegativeRoundTrip(n);
    } else {
      NegativeRoundTrip(n);
    }
  }

  lemma NonNegativeRoundTrip(n: nat)
    ensures ParseInt(IntToString(n)) == Some(n)
  {
    DecimalRoundTrip(n);
    ParseDigits(NatToDecimal(n));
  }

  lemma NegativeRoundTrip(n: int)
    requires n < 0
    ensures ParseInt(IntToString(n)) == Some(n)
  {
    var m: nat := -n;
    var ds := NatToDecimal(m);
    assert IntToString(n) == "-" + ds;
    DecimalRoundTrip(m);
    ParseNegatedDigits(ds);
    assert Signed(Minus, ds) == -(m as int);
  }

  // ---------------------------------------------------------------------------
  // getTargetLanguageById
  // ---------------------------------------------------------------------------

  /**
   * `getTargetLanguageById`: the first target whose ProcessWire id equals
   * `parseInt(id, 10)`, or `null` when none does. `NaN` equals nothing, so
   * an id without digits finds nothing.
   */
  method GetTargetLanguageById(languageId: string, targets: seq<FluencyModule.TargetLanguage>)
    returns (r: Option<FluencyModule.TargetLanguage>)
    ensures r.Some? <==>
      (ParseInt(languageId).Some? && exists i :: 0 <= i < |targets| && targets[i].pw.id == ParseInt(languageId).value)
    ensures r.Some? ==>
      (exists i :: 0 <= i < |targets| && targets[i] == r.value && r.value.pw.id == ParseInt(languageId).value
         && forall k :: 0 <= k < i ==> targets[k].pw.id != r.value.pw.id)
  {
    var id := ParseInt(languageId);
    var i := 0;
    while i < |targets|
      invariant 0 <= i <= |targets|
      invariant id.Some? ==> forall k :: 0 <= k < i ==> targets[k].pw.id != id.value
    {
      if id.Some? && targets[i].pw.id == id.value {
        return Some(targets[i]);
      }
      i := i + 1;
    }
    return None;
  }

  // ---------------------------------------------------------------------------
  // moduleRequest: URL and body
  // ---------------------------------------------------------------------------

  /** The parts of `window.location` the request URL is built from. */
  datatype Location = Location(protocol: string, host: string, pathname: string)

  /**
   * `pathname.split('/')[1]`: the first path segment. A path without a
   * second piece reads `undefined`, which the concatenation prints as
   * `"undefined"`.
   */
  function FirstSegment(pathname: string): (r: string)
    ensures pathname == "" ==> r == "undefined"
  {
    var parts := Split(pathname, "/");
    if |parts| > 1 then parts[1] else "undefined"
  }

  /** The request URL: `{protocol}//{host}/{first path segment}/fluency/data/`. */
  function ModuleRequestUrl(loc: Location): string {
    loc.protocol + "//" + loc.host + "/" + FirstSegment(loc.pathname) + "/fluency/data/"
  }

  /** The first piece of a string split on a character it holds after a piece without that character. */
  lemma {:induction false} SplitFirstPiece(p: string, c: char, rest: string)
    requires c !in p
    ensures Split(p + [c] + rest, [c])[0] == p
    decreases |p|
  {
    var s := p + [c] + rest;
    if |p| == 0 {
      assert s[..1] == [c];
    } else {
      assert s[0] == p[0] && p[0] != c;
      assert !IsPrefix([c], s);
      assert s[1..] == p[1..] + [c] + rest;
      SplitFirstPiece(p[1..], c, rest);
      assert p == [p[0]] + p[1..];
    }
  }

  /**
   * Under an admin path `/{admin}/…` the request goes to
   * `{protocol}//{host}/{admin}/fluency/data/`, whatever follows the first
   * segment.
   */
  lemma RequestUrlOfAdminPath(protocol: string, host: string, admin: string, rest: string)
    requires '/' !in admin
    ensures ModuleRequestUrl(Location(protocol, host, "/" + admin + "/" + rest))
      == protocol + "//" + host + "/" + admin + "/fluency/data/"
  {
    var p := "/" + admin + "/" + rest;
    assert IsPrefix("/", p);
    assert p[1..] == admin + ['/'] + rest;
    SplitFirstPiece(admin, '/', rest);
  }

  /**
   * The replace of `/(\r\n|\n|\r)/gm` with the empty string: the pattern's
   * alternatives are tried left to right at each position, so a CR LF pair
   * goes as one match and a lone LF or CR as another.
   */
  function StripLineBreaks(s: string): (r: string)
    ensures r == WithoutBreakChars(s)
    decreases |s|
  {
    if |s| == 0 then ""
    else if |s| >= 2 && s[0] == '\r' && s[1] == '\n' then
      assert s[1..][1..] == s[2..];
      StripLineBreaks(s[2..])
    else if s[0] == '\n' || s[0] == '\r' then StripLineBreaks(s[1..])
    else [s[0]] + StripLineBreaks(s[1..])
  }

  /** The string with every CR and every LF character dropped, one character at a time. */
  function WithoutBreakChars(s: string): (r: string)
    ensures '\r' !in r && '\n' !in r
    ensures |r| <= |s|
    ensures ('\r' !in s && '\n' !in s) ==> r == s
    decreases |s|
  {
    if |s| == 0 then ""
    else if s[0] == '\n' || s[0] == '\r' then WithoutBreakChars(s[1..])
    else [s[0]] + WithoutBreakChars(s[1..])
  }

  /** One form field: the property name as it is, `=`, and the value without line breaks, encoded by `encodeURIComponent`. */
  function FormField(key: string, value: string): (r: string)
    ensures (forall c :: c in key ==> c != '&') ==> '&' !in r
  {
    EncodedHasNoSeparators(JsUriComponent, StripLineBreaks(value));
    key + "=" + Encode(JsUriComponent, StripLineBreaks(value))
  }

  /** The request data, as its own properties in property order. */
  type RequestData = seq<(string, string)>

  function FormFields(data: RequestData): (r: seq<string>)
    ensures |r| == |data|
    ensures forall i :: 0 <= i < |data| ==> r[i] == FormField(data[i].0, data[i].1)
  {
    seq(|data|, i requires 0 <= i < |data| => FormField(data[i].0, data[i].1))
  }

  /** The form body: the fields joined with `&`. */
  function FormBody(data: RequestData): string {
    Join(FormFields(data), "&")
  }

  /** A field read back: the text up to the first `=` and the decoded bytes of what follows it. */
  function ParseField(field: string): (string, seq<byte>) {
    var key := Split(field, "=")[0];
    SplitHead(field, "=");
    (key, if |key| < |field| then Decode(JsUriComponent, field[|key| + 1..]) else [])
  }

  /** A form body read back: the pieces between `&`s, each read as a field. */
  function ParseBody(body: string): seq<(string, seq<byte>)> {
    var pieces := Split(body, "&");
    seq(|pieces|, i requires 0 <= i < |pieces| => ParseField(pieces[i]))
  }

  /**
   * Reading a field back gives its name and the UTF-8 bytes of its value
   * with the line breaks removed, when the name holds no `=`.
   */
  lemma FieldRoundTrip(key: string, value: string)
    requires '=' !in key
    ensures ParseField(FormField(key, value)) == (key, Utf8String(WithoutBreakChars(value)))
  {
    var enc := Encode(JsUriComponent, StripLineBreaks(value));
    var f := FormField(key, value);
    assert f == key + ['='] + enc;
    SplitFirstPiece(key, '=', enc);
    assert f[|key| + 1..] == enc;
    DecodeEncode(JsUriComponent, StripLineBreaks(value));
  }

  /**
   * The body the server receives reads back as the request data: one field
   * per property, in order, each with its name and the UTF-8 bytes of its
   * value less its line breaks, when no name holds `&` or `=`. An empty
   * request sends an empty body, which reads as one empty field, so the
   * data must not be empty.
   */
  lemma FormBodyRoundTrip(data: RequestData)
    requires |data| > 0
    requires forall i :: 0 <= i < |data| ==> '&' !in data[i].0 && '=' !in data[i].0
    ensures |ParseBody(FormBody(data))| == |data|
    ensures forall i :: 0 <= i < |data| ==>
      ParseBody(FormBody(data))[i] == (data[i].0, Utf8String(WithoutBreakChars(data[i].1)))
  {
    var fields := FormFields(data);
    forall i | 0 <= i < |fields| ensures '&' !in fields[i] {
      assert forall c :: c in data[i].0 ==> c != '&';
    }
    SplitJoin(fields, '&');
    assert Split(FormBody(data), "&") == fields;
    forall i | 0 <= i < |data| ensures ParseBody(FormBody(data))[i] == (data[i].0, Utf8String(WithoutBreakChars(data[i].1))) {
      FieldRoundTrip(data[i].0, data[i].1);
    }
  }

  /** A line break in the body can only come from a property name: values lose theirs and encoding writes none. */
  lemma FormBodyBreaks(data: RequestData, c: char)
    requires c == '\r' || c == '\n'
    ensures c in FormBody(data) ==> exists i :: 0 <= i < |data| && c in data[i].0
  {
    var fields := FormFields(data);
    forall i | 0 <= i < |fields| ensures c in fields[i] ==> c in data[i].0 {
      var enc := Encode(JsUriComponent, StripLineBreaks(data[i].1));
      assert !EncodedChar(JsUriComponent, c);
      assert fields[i] == data[i].0 + "=" + enc;
    }
    JoinChars(fields, "&", c);
  }

  /** A character of a joined string comes from a piece or from the separator. */
  lemma {:induction false} JoinChars(parts: seq<string>, sep: string, c: char)
    requires c !in sep
    ensures c in Join(parts, sep) ==> exists i :: 0 <= i < |parts| && c in parts[i]
    decreases |parts|
  {
    if |parts| > 1 {
      JoinChars(parts[1..], sep, c);
      if c in Join(parts, sep) && c !in parts[0] {
        assert Join(parts, sep) == parts[0] + sep + Join(parts[1..], sep);
        var i :| 0 <= i < |parts[1..]| && c in parts[1..][i];
        assert parts[i + 1] == parts[1..][i];
      }
    }
  }
}

=== FILE: deepl_engine.dfy ===
/**
 * The DeepL client the module loads (`engines/DeepL.class.php`): the choice
 * of API host, the form body `apiCall` posts, and `translate`, which turns
 * the content into a list, tags the ignored phrases, merges the request
 * parameters and strips the tags from what comes back.
 *
 * The HTTP exchange itself is a parameter: `provider` maps the call the
 * client makes (URL and body) to the reply (status code and decoded JSON).
 */
module DeepLEngine {
  import opened Outcome
  import opened PhpString
  import opened PhpArray
  import opened UrlEncoding
  import opened IgnoreTags

  const UrlBasePro: string := "https://api.deepl.com/v2"
  const UrlBaseFree: string := "https://api-free.deepl.com/v2"

  // ---------------------------------------------------------------------------
  // Construction
  // ---------------------------------------------------------------------------

  /** `setApiUrl`: the pro host for the account type `pro`, the free host for `free` and every other value. */
  function ApiUrl(accountType: string): (r: string)
    ensures r == UrlBasePro <==> accountType == "pro"
    ensures r == UrlBasePro || r == UrlBaseFree
  {
    if accountType == "pro" then UrlBasePro else UrlBaseFree
  }

  datatype Client = Client(apiKey: string, apiUrl: string)

  /**
   * `new DeepL(['apiKey' => ..., 'accountType' => ...])`, with `None` for a
   * null setting. A null key prints as the empty string in the URL; a null
   * account type is refused by `setApiUrl(string)` with a `TypeError`.
   */
  function NewClient(apiKey: Option<string>, accountType: Option<string>): (r: Option<Client>)
    ensures r.Some? <==> accountType.Some?
    ensures r.Some? ==> r.value.apiUrl == ApiUrl(accountType.value)
    ensures r.Some? && apiKey.Some? ==> r.value.apiKey == apiKey.value
    ensures r.Some? && apiKey.None? ==> r.value.apiKey == ""
  {
    match accountType
    case None => None
    case Some(t) => Some(Client(if apiKey.Some? then apiKey.value else "", ApiUrl(t)))
  }

  // ---------------------------------------------------------------------------
  // The parameter string
  // ---------------------------------------------------------------------------

  /** An array key as `"{$param}"` prints it. */
  function KeyText(k: Key): string {
    match k
    case Index(n) => IntToString(n)
    case Name(s) => s
  }

  /** One `name=value` field; the value is printed as it is, without encoding. */
  function Field(e: (Key, Value)): string {
    KeyText(e.0) + "=" + ValueText(e.1)
  }

  /** `&text=urlencode($text)` for each text in order; `None` when one is an array, which `urlencode` refuses with a `TypeError`. */
  function TextsPart(es: Entries): Option<string>
    decreases |es|
  {
    if |es| == 0 then Some("")
    else match es[0].1
      case Arr(_) => None
      case Str(s) =>
        match TextsPart(es[1..])
        case None => None
        case Some(rest) => Some("&" + ("text=" + Encode(PhpUrlencode, s)) + rest)
  }

  /** `foreach ($params as $param => $val) $paramString .= "&{$param}={$val}"`. */
  function ParamsPart(es: Entries): string
    decreases |es|
  {
    if |es| == 0 then "" else "&" + Field(es[0]) + ParamsPart(es[1..])
  }

  const TextKey: Key := Name("text")
  const IgnoreTagsField: string := "ignore_tags=" + TagName

  /**
   * The parameter string `apiCall` builds. When a `text` parameter is set,
   * its values come first (a scalar `text` has none: `foreach` skips it),
   * then the `ignore_tags` field, and `text` is removed from the rest.
   */
  function ParamString(params: Entries): Option<string> {
    match Get(params, TextKey)
    case None => Some(ParamsPart(params))
    case Some(v) =>
      var texts := if v.Arr? then TextsPart(v.entries) else Some("");
      match texts
      case None => None
      case Some(t) => Some(t + "&" + IgnoreTagsField + ParamsPart(Unset(params, TextKey)))
  }

  // The fields the body is meant to carry, stated independently of how the
  // string is assembled.

  /** The strings of an array's values in order, or `None` when one is an array. */
  function StringsOf(es: Entries): Option<seq<string>>
    decreases |es|
  {
    if |es| == 0 then Some([])
    else match es[0].1
      case Arr(_) => None
      case Str(s) =>
        match StringsOf(es[1..])
        case None => None
        case Some(rest) => Some([s] + rest)
  }

  /** The texts a `text` parameter holds: the array's string values, none for a scalar. */
  function TextStrings(v: Value): Option<seq<string>> {
    match v
    case Str(_) => Some([])
    case Arr(es) => StringsOf(es)
  }

  function TextFields(ts: seq<string>): (r: seq<string>)
    ensures |r| == |ts|
    ensures forall i :: 0 <= i < |ts| ==> r[i] == "text=" + Encode(PhpUrlencode, ts[i])
  {
    seq(|ts|, i requires 0 <= i < |ts| => "text=" + Encode(PhpUrlencode, ts[i]))
  }

  function ParamFields(es: Entries): (r: seq<string>)
    ensures |r| == |es|
    ensures forall i :: 0 <= i < |es| ==> r[i] == Field(es[i])
  {
    seq(|es|, i requires 0 <= i < |es| => Field(es[i]))
  }

  /** Each text, then the tag setting when there are texts to send, then every other parameter in array order. */
  function BodyFields(params: Entries): Option<seq<string>> {
    var rest := ParamFields(Unset(params, TextKey));
    match Get(params, TextKey)
    case None => Some(rest)
    case Some(v) =>
      match TextStrings(v)
      case None => None
      case Some(ts) => Some(TextFields(ts) + [IgnoreTagsField] + rest)
  }

  /** A parameter whose name and printed value hold no `&`, so it stays one field of the body. */
  predicate PlainParam(e: (Key, Value)) {
    '&' !in KeyText(e.0) && '&' !in ValueText(e.1)
  }

  /**
   * Splitting the parameter string at `&` gives exactly the intended fields
   * (after the empty piece before the first `&`), provided the parameters
   * other than `text` hold no `&`: the texts are encoded and cannot break
   * the body, the other values are not.
   */
  lemma ParamStringFields(params: Entries)
    requires forall e :: e in params && e.0 != TextKey ==> PlainParam(e)
    ensures ParamString(params).Some? <==> BodyFields(params).Some?
    ensures ParamString(params).Some? ==> Split(ParamString(params).value, "&") == [""] + BodyFields(params).value
  {
    var rest := Unset(params, TextKey);
    UnsetGet(params, TextKey);
    UnsetAbsent(params, TextKey);
    ParamsPartFields(rest);
    var pf := ParamFields(rest);
    assert forall i :: 0 <= i < |pf| ==> '&' !in pf[i] by {
      forall i | 0 <= i < |pf| ensures '&' !in pf[i] {
        assert rest[i] in rest;
      }
    }
    if Get(params, TextKey).None? {
      AmpSplit(pf);
    } else {
      var v := Get(params, TextKey).value;
      if v.Arr? {
        TextsPartFields(v.entries);
      }
      if TextStrings(v).Some? {
        var tf := TextFields(TextStrings(v).value);
        assert TextStrings(v).value == [] ==> tf == [];
        assert ParamString(params).value == Amp(tf) + "&" + IgnoreTagsField + Amp(pf);
        TextFieldsPlain(TextStrings(v).value);
        TextsThenRest(tf, pf);
      }
    }
  }

  /** The tag setting holds no `&`. */
  lemma IgnoreTagsFieldPlain()
    ensures '&' !in IgnoreTagsField
  {
    assert IgnoreTagsField == "ignore_tags=fluency-ignore";
  }

  lemma TextsThenRest(tf: seq<string>, pf: seq<string>)
    requires forall i :: 0 <= i < |tf| ==> '&' !in tf[i]
    requires forall i :: 0 <= i < |pf| ==> '&' !in pf[i]
    ensures Split(Amp(tf) + "&" + IgnoreTagsField + Amp(pf), "&") == [""] + (tf + [IgnoreTagsField] + pf)
  {
    IgnoreTagsFieldPlain();
    FieldsAround(tf, IgnoreTagsField, pf);
  }

  lemma FieldsAround(tf: seq<string>, g: string, pf: seq<string>)
    requires forall i :: 0 <= i < |tf| ==> '&' !in tf[i]
    requires '&' !in g
    requires forall i :: 0 <= i < |pf| ==> '&' !in pf[i]
    ensures Split(Amp(tf) + "&" + g + Amp(pf), "&") == [""] + (tf + [g] + pf)
  {
    var fields := tf + [g] + pf;
    FieldsFree(tf, g, pf);
    AmpAppend(tf, [g]);
    AmpAppend(tf + [g], pf);
    assert [g][1..] == [];
    assert Amp([g]) == "&" + g;
    Assoc(Amp(tf), "&", g);
    assert Amp(fields) == Amp(tf) + "&" + g + Amp(pf);
    AmpSplit(fields);
  }

  lemma FieldsFree(tf: seq<string>, g: string, pf: seq<string>)
    requires forall i :: 0 <= i < |tf| ==> '&' !in tf[i]
    requires '&' !in g
    requires forall i :: 0 <= i < |pf| ==> '&' !in pf[i]
    ensures forall i :: 0 <= i < |tf + [g] + pf| ==> '&' !in (tf + [g] + pf)[i]
  {
    var fields := tf + [g] + pf;
    forall i | 0 <= i < |fields| ensures '&' !in fields[i] {
      if i < |tf| { assert fields[i] == tf[i]; }
      else if i > |tf| { assert fields[i] == pf[i - |tf| - 1]; }
    }
  }

  /** No text field holds a `&`: the encoded texts cannot. */
  lemma TextFieldsPlain(ts: seq<string>)
    ensures forall i :: 0 <= i < |ts| ==> '&' !in TextFields(ts)[i]
  {
    forall i | 0 <= i < |ts| ensures '&' !in TextFields(ts)[i] {
      EncodedHasNoSeparators(PhpUrlencode, ts[i]);
    }
  }

  /** Each text field's value decodes back to the UTF-8 bytes of its text. */
  lemma TextFieldsDecode(ts: seq<string>)
    ensures forall i :: 0 <= i < |ts| ==>
      IsPrefix("text=", TextFields(ts)[i]) && Decode(PhpUrlencode, TextFields(ts)[i][5..]) == Utf8String(ts[i])
  {
    forall i | 0 <= i < |ts|
      ensures IsPrefix("text=", TextFields(ts)[i]) && Decode(PhpUrlencode, TextFields(ts)[i][5..]) == Utf8String(ts[i])
    {
      DecodeEncode(PhpUrlencode, ts[i]);
      assert TextFields(ts)[i][5..] == Encode(PhpUrlencode, ts[i]);
    }
  }

  /** `&f0&f1...`: each field after a `&`. */
  function Amp(fs: seq<string>): string
    decreases |fs|
  {
    if |fs| == 0 then "" else "&" + fs[0] + Amp(fs[1..])
  }

  lemma {:induction false} AmpAppend(a: seq<string>, b: seq<string>)
    ensures Amp(a + b) == Amp(a) + Amp(b)
    decreases |a|
  {
    if |a| == 0 {
      assert a + b == b;
    } else {
      assert (a + b)[1..] == a[1..] + b;
      AmpAppend(a[1..], b);
    }
  }

  lemma JoinLeadEmpty(f: string, rest: seq<string>, sep: string)
    ensures Join([f] + rest, sep) == f + Join([""] + rest, sep)
  {
    if |rest| == 0 {
      assert [f] + rest == [f];
      assert [""] + rest == [""];
    } else {
      JoinCons(f, rest, sep);
      JoinCons("", rest, sep);
    }
  }

  lemma {:induction false} AmpIsJoin(fs: seq<string>)
    ensures Amp(fs) == Join([""] + fs, "&")
    decreases |fs|
  {
    if |fs| > 0 {
      AmpIsJoin(fs[1..]);
      JoinCons("", fs, "&");
      JoinLeadEmpty(fs[0], fs[1..], "&");
      assert [fs[0]] + fs[1..] == fs;
    }
  }

  lemma AmpSplit(fs: seq<string>)
    requires forall i :: 0 <= i < |fs| ==> '&' !in fs[i]
    ensures Split(Amp(fs), "&") == [""] + fs
  {
    AmpIsJoin(fs);
    var parts := [""] + fs;
    assert forall i :: 0 <= i < |parts| ==> '&' !in parts[i] by {
      forall i | 0 <= i < |parts| ensures '&' !in parts[i] {
        if i > 0 { assert parts[i] == fs[i - 1]; }
      }
    }
    SplitJoin(parts, '&');
  }

  lemma {:induction false} ParamsPartFields(es: Entries)
    ensures ParamsPart(es) == Amp(ParamFields(es))
    decreases |es|
  {
    if |es| > 0 {
      ParamsPartFields(es[1..]);
      assert ParamFields(es)[1..] == ParamFields(es[1..]);
    }
  }

  lemma {:induction false} TextsPartFields(es: Entries)
    ensures TextsPart(es).Some? <==> StringsOf(es).Some?
    ensures TextsPart(es).Some? ==> TextsPart(es).value == Amp(TextFields(StringsOf(es).value))
    decreases |es|
  {
    if |es| > 0 {
      TextsPartFields(es[1..]);
      if es[0].1.Str? && StringsOf(es[1..]).Some? {
        var ts := StringsOf(es[1..]).value;
        assert StringsOf(es).value == [es[0].1.s] + ts;
        AmpTextFieldsCons(es[0].1.s, ts);
      }
    }
  }

  lemma AmpTextFieldsCons(s: string, ts: seq<string>)
    ensures Amp(TextFields([s] + ts)) == "&" + ("text=" + Encode(PhpUrlencode, s)) + Amp(TextFields(ts))
  {
    var fs := TextFields([s] + ts);
    assert fs[0] == "text=" + Encode(PhpUrlencode, s);
    assert fs[1..] == TextFields(ts);
  }

  // ---------------------------------------------------------------------------
  // The call
  // ---------------------------------------------------------------------------

  /** A translation as DeepL returns it. */
  datatype Translation = Translation(detectedSourceLanguage: string, text: string)

  /** The members of the decoded JSON reply the code reads; a body that does not decode has neither. */
  datatype Data = Data(message: Option<string>, translations: Option<seq<Translation>>)

  datatype Reply = Reply(httpCode: int, data: Data)

  /** What the client sends: the URL and, for a POST, the form body. */
  datatype Call = Call(url: string, postFields: Option<string>)

  /** The error report the engine attaches to a reply that is not `200`; the page id and name come from the host and are left out. */
  datatype Report = Report(httpCode: int, apiMessage: string, endpoint: string, parameters: string)

  datatype Message = NoMessage | ErrorReport(report: Report) | StatusText(text: string)

  /** The object `apiCall` returns. */
  datatype Output = Output(data: Data, httpCode: int, message: Message)

  datatype Exchange = Exchange(call: Call, output: Output)

  /** `isset($data->message) ? $data->message : 'No message returned'`. */
  function ApiMessage(d: Data): string {
    match d.message
    case Some(m) => m
    case None => "No message returned"
  }

  /** `"{$this->apiUrl}{$endpoint}?auth_key={$this->apiKey}"`. */
  function RequestUrl(base: string, endpoint: string, key: string): string {
    base + endpoint + "?auth_key=" + key
  }

  /**
   * `apiCall`: posts the parameter string to the request URL and returns the
   * reply's data and code, with an error report when the code is not `200`.
   * `None` when building the parameter string throws.
   */
  function ApiCall(c: Client, endpoint: string, params: Entries, provider: Call -> Reply): (r: Option<Exchange>)
    ensures r.Some? <==> ParamString(params).Some?
    ensures r.Some? ==> r.value.call == Call(RequestUrl(c.apiUrl, endpoint, c.apiKey), ParamString(params))
    ensures r.Some? ==> r.value.output.data == provider(r.value.call).data
    ensures r.Some? ==> r.value.output.httpCode == provider(r.value.call).httpCode
    ensures r.Some? ==> (r.value.output.message.ErrorReport? <==> r.value.output.httpCode != 200)
    ensures r.Some? && r.value.output.message.ErrorReport? ==> r.value.output.message.report.parameters == ParamString(params).value
  {
    match ParamString(params)
    case None => None
    case Some(body) =>
      var call := Call(RequestUrl(c.apiUrl, endpoint, c.apiKey), Some(body));
      var reply := provider(call);
      var message := if reply.httpCode != 200 then ErrorReport(Report(reply.httpCode, ApiMessage(reply.data), endpoint, body)) else NoMessage;
      Some(Exchange(call, Output(reply.data, reply.httpCode, message)))
  }

  /** `getApiUsage`: a call to `/usage` with an empty body. */
  function GetApiUsage(c: Client, provider: Call -> Reply): (r: Exchange)
    ensures r.call == Call(RequestUrl(c.apiUrl, "/usage", c.apiKey), Some(""))
    ensures r.output.httpCode == provider(r.call).httpCode
  {
    assert ParamString([]) == Some("");
    ApiCall(c, "/usage", [], provider).value
  }

  /** `getLanguageList($type)`: a call to `/languages` whose body is the one field `type`. */
  function GetLanguageList(c: Client, kind: string, provider: Call -> Reply): (r: Exchange)
    ensures r.call.url == RequestUrl(c.apiUrl, "/languages", c.apiKey)
    ensures r.call.postFields == Some("&type=" + kind)
    ensures r.output.data == provider(r.call).data
  {
    var params := [(Name("type"), Str(kind))];
    assert Get(params, TextKey).None?;
    assert params[1..] == [];
    assert Field(params[0]) == "type" + "=" + kind;
    assert ParamsPart(params) == "&" + ("type" + "=" + kind) + "";
    assert "&" + ("type" + "=" + kind) + "" == "&type=" + kind;
    ApiCall(c, "/languages", params, provider).value
  }

  // ---------------------------------------------------------------------------
  // translate
  // ---------------------------------------------------------------------------

  /** `gettype($content) === 'array' ? $content : [$content]`. */
  function AsList(content: Value): (r: Entries)
    ensures content.Arr? ==> r == content.entries
    ensures content.Str? ==> r == [(Index(0), content)]
  {
    match content
    case Arr(es) => es
    case Str(_) => [(Index(0), content)]
  }

  /** Why a request was not sent. */
  datatype Fault =
    | TypeError     // PHP threw
    | NotInterpreted  // a phrase uses regular-expression operators, which this model does not interpret

  /**
   * `array_map(fn($text) => addIgnoredTags($text, $ignoredStrings), $content)`:
   * the keys are kept and each value is tagged, in order; an array value is
   * refused by the `string` parameter.
   */
  function TagEntries(es: Entries, ps: seq<string>, quoted: bool): (r: Result<Entries, Fault>)
    ensures r.Ok? ==> |r.value| == |es|
    ensures r.Ok? ==> forall i :: 0 <= i < |es| ==>
      r.value[i].0 == es[i].0 && es[i].1.Str? && r.value[i].1.Str? && AddIgnoredTags(es[i].1.s, ps, quoted) == Tagged(r.value[i].1.s)
    decreases |es|
  {
    if |es| == 0 then Ok([])
    else match es[0].1
      case Arr(_) => Err(TypeError)
      case Str(s) =>
        match AddIgnoredTags(s, ps, quoted)
        case Failed => Err(TypeError)
        case Undetermined => Err(NotInterpreted)
        case Tagged(t) =>
          match TagEntries(es[1..], ps, quoted)
          case Err(f) => Err(f)
          case Ok(rest) => Ok([(es[0].0, Str(t))] + rest)
  }

  /** The content sent: tagged when there are ignored phrases, as given otherwise. */
  function PrepareTexts(content: Value, ps: seq<string>, quoted: bool): Result<Entries, Fault> {
    if |ps| > 0 then TagEntries(AsList(content), ps, quoted) else Ok(AsList(content))
  }

  /** The fixed keys `translate` sets over the caller's parameters. */
  function FixedParams(source: string, target: string, texts: Entries): Entries {
    [(Name("source_lang"), Str(source)), (Name("target_lang"), Str(target)), (Name("tag_handling"), Str("xml")), (TextKey, Arr(texts))]
  }

  /** `array_merge($addParams, [...])`. */
  function TranslateParams(source: string, target: string, texts: Entries, addParams: Entries): Entries {
    Merge(addParams, FixedParams(source, target, texts))
  }

  /** The fixed keys override the caller's; every other named parameter keeps the caller's value; language codes are sent as given. */
  lemma TranslateParamsKeys(source: string, target: string, texts: Entries, addParams: Entries)
    requires UniqueKeys(addParams)
    ensures Get(TranslateParams(source, target, texts, addParams), Name("source_lang")) == Some(Str(source))
    ensures Get(TranslateParams(source, target, texts, addParams), Name("target_lang")) == Some(Str(target))
    ensures Get(TranslateParams(source, target, texts, addParams), Name("tag_handling")) == Some(Str("xml"))
    ensures Get(TranslateParams(source, target, texts, addParams), TextKey) == Some(Arr(texts))
    ensures forall s :: s !in {"source_lang", "target_lang", "tag_handling", "text"} ==>
      Get(TranslateParams(source, target, texts, addParams), Name(s)) == Get(addParams, Name(s))
    ensures IndexedValues(TranslateParams(source, target, texts, addParams)) == IndexedValues(addParams)
  {
    var fixed := FixedParams(source, target, texts);
    assert UniqueKeys(fixed);
    KeysOfLength(fixed);
    GetUnique(fixed, 0);
    GetUnique(fixed, 1);
    GetUnique(fixed, 2);
    GetUnique(fixed, 3);
    assert fixed[2].0 in KeysOf(fixed) && fixed[3].0 in KeysOf(fixed);
    forall s | s !in {"source_lang", "target_lang", "tag_handling", "text"} ensures Name(s) !in KeysOf(fixed) {
    }
    NamedOnly(fixed);
  }

  /** Strips the markers from each translation's text; nothing else changes, and count and order are kept. */
  function Untag(ts: seq<Translation>): (r: seq<Translation>)
    ensures |r| == |ts|
    ensures forall i :: 0 <= i < |ts| ==>
      r[i].detectedSourceLanguage == ts[i].detectedSourceLanguage && r[i].text == Remove(ts[i].text)
  {
    seq(|ts|, i requires 0 <= i < |ts| => ts[i].(text := Remove(ts[i].text)))
  }

  /** The output after `translate`'s post-processing: tags stripped when there were ignored phrases and the reply has translations. */
  function Untagged(x: Exchange, hasIgnored: bool): Exchange {
    if hasIgnored && x.output.data.translations.Some? then
      x.(output := x.output.(data := x.output.data.(translations := Some(Untag(x.output.data.translations.value)))))
    else x
  }

  datatype Translated = Sent(exchange: Exchange) | NotSent(fault: Fault)

  /**
   * `translate`: the content as a list, tagged when there are ignored
   * phrases (escaped with `preg_quote`), posted to `/translate` with the
   * merged parameters; the reply's translations are untagged afterwards.
   */
  function Translate(c: Client, source: string, content: Value, target: string, addParams: Entries,
                     ignored: seq<string>, provider: Call -> Reply): (r: Translated)
    ensures r.NotSent? ==> r.fault == TypeError
    ensures r.Sent? <==>
      (PrepareTexts(content, ignored, true).Ok?
       && ParamString(TranslateParams(source, target, PrepareTexts(content, ignored, true).value, addParams)).Some?)
    ensures r.Sent? ==> r.exchange.call.url == RequestUrl(c.apiUrl, "/translate", c.apiKey)
    ensures r.Sent? ==>
      r.exchange.call.postFields == ParamString(TranslateParams(source, target, PrepareTexts(content, ignored, true).value, addParams))
    ensures r.Sent? ==> r.exchange.output.httpCode == provider(r.exchange.call).httpCode
    ensures r.Sent? && (|ignored| == 0 || provider(r.exchange.call).data.translations.None?) ==>
      r.exchange.output.data == provider(r.exchange.call).data
    ensures r.Sent? && |ignored| > 0 && provider(r.exchange.call).data.translations.Some? ==>
      r.exchange.output.data.translations == Some(Untag(provider(r.exchange.call).data.translations.value))
  {
    PrepareDetermined(content, ignored);
    match PrepareTexts(content, ignored, true)
    case Err(f) => NotSent(f)
    case Ok(texts) =>
      match ApiCall(c, "/translate", TranslateParams(source, target, texts, addParams), provider)
      case None => NotSent(TypeError)
      case Some(x) => Sent(Untagged(x, |ignored| > 0))
  }

  lemma PrepareDetermined(content: Value, ps: seq<string>)
    ensures PrepareTexts(content, ps, true).Err? ==> PrepareTexts(content, ps, true).error == TypeError
  {
    if |ps| > 0 {
      TagEntriesDetermined(AsList(content), ps);
    }
  }

  lemma {:induction false} TagEntriesDetermined(es: Entries, ps: seq<string>)
    ensures TagEntries(es, ps, true).Err? ==> TagEntries(es, ps, true).error == TypeError
    decreases |es|
  {
    if |es| > 0 && es[0].1.Str? {
      AddQuotedDetermined(es[0].1.s, ps);
      TagEntriesDetermined(es[1..], ps);
    }
  }

  /**
   * Without ignored phrases a string is sent as the one text of the request,
   * unchanged: the body's first field is that text.
   */
  lemma SingleTextSent(s: string, source: string, target: string, addParams: Entries)
    requires UniqueKeys(addParams)
    ensures PrepareTexts(Str(s), [], true) == Ok([(Index(0), Str(s))])
    ensures BodyFields(TranslateParams(source, target, [(Index(0), Str(s))], addParams))
      == Some(["text=" + Encode(PhpUrlencode, s), IgnoreTagsField]
              + ParamFields(Unset(TranslateParams(source, target, [(Index(0), Str(s))], addParams), TextKey)))
  {
    var texts := [(Index(0), Str(s))];
    var params := TranslateParams(source, target, texts, addParams);
    TranslateParamsText(source, target, texts, addParams);
    OneText(s);
    BodyFieldsOf(params, Arr(texts), [s]);
    var rest := ParamFields(Unset(params, TextKey));
    var f := "text=" + Encode(PhpUrlencode, s);
    assert [f] + [IgnoreTagsField] + rest == [f, IgnoreTagsField] + rest;
  }

  lemma TranslateParamsText(source: string, target: string, texts: Entries, addParams: Entries)
    requires UniqueKeys(addParams)
    ensures Get(TranslateParams(source, target, texts, addParams), TextKey) == Some(Arr(texts))
  {
    TranslateParamsKeys(source, target, texts, addParams);
  }

  lemma BodyFieldsOf(params: Entries, v: Value, ts: seq<string>)
    requires Get(params, TextKey) == Some(v) && TextStrings(v) == Some(ts)
    ensures BodyFields(params) == Some(TextFields(ts) + [IgnoreTagsField] + ParamFields(Unset(params, TextKey)))
  {
  }

  lemma OneText(s: string)
    ensures TextStrings(Arr([(Index(0), Str(s))])) == Some([s])
    ensures TextFields([s]) == ["text=" + Encode(PhpUrlencode, s)]
  {
    var texts := [(Index(0), Str(s))];
    assert texts[1..] == [];
    assert StringsOf(texts[1..]) == Some([]);
    assert [s] + [] == [s];
  }

  /**
   * When the phrases are safe and the texts hold no marker, a reply that
   * gives back the tagged texts untranslated comes out as the original
   * texts: tagging and untagging cancel out text by text.
   */
  lemma EchoComesBack(texts: seq<string>, ps: seq<string>, lang: string)
    requires forall i :: 0 <= i < |texts| ==> NoMarker(texts[i])
    requires forall j :: 0 <= j < |ps| ==> PhraseSafe(ps[j])
    ensures TagEntries(ListOf(texts), ps, true).Ok?
    ensures Untag(seq(|texts|, i requires 0 <= i < |texts| => Translation(lang, TagEntries(ListOf(texts), ps, true).value[i].1.s)))
      == seq(|texts|, i requires 0 <= i < |texts| => Translation(lang, texts[i]))
  {
    TagListSafe(texts, ps);
    var es := ListOf(texts);
    var r := TagEntries(es, ps, true).value;
    var tagged := seq(|texts|, i requires 0 <= i < |texts| => r[i].1.s);
    forall i | 0 <= i < |texts| ensures AddIgnoredTags(texts[i], ps, true) == Tagged(tagged[i]) {
      assert es[i].1.s == texts[i];
    }
    UntagEcho(texts, tagged, ps, lang);
  }

  lemma UntagEcho(texts: seq<string>, tagged: seq<string>, ps: seq<string>, lang: string)
    requires |tagged| == |texts|
    requires forall i :: 0 <= i < |texts| ==> NoMarker(texts[i]) && AddIgnoredTags(texts[i], ps, true) == Tagged(tagged[i])
    requires forall j :: 0 <= j < |ps| ==> PhraseSafe(ps[j])
    ensures Untag(seq(|texts|, i requires 0 <= i < |texts| => Translation(lang, tagged[i])))
      == seq(|texts|, i requires 0 <= i < |texts| => Translation(lang, texts[i]))
  {
    var echo := seq(|texts|, i requires 0 <= i < |texts| => Translation(lang, tagged[i]));
    var back := Untag(echo);
    forall i | 0 <= i < |texts| ensures back[i] == Translation(lang, texts[i]) {
      RoundTrip(texts[i], ps);
    }
  }

  lemma {:induction false} TagListSafe(texts: seq<string>, ps: seq<string>)
    requires forall j :: 0 <= j < |ps| ==> PhraseSafe(ps[j])
    ensures TagEntries(ListOf(texts), ps, true).Ok?
  {
    TagEntriesSafe(ListOf(texts), ps);
  }

  lemma {:induction false} TagEntriesSafe(es: Entries, ps: seq<string>)
    requires forall j :: 0 <= j < |ps| ==> PhraseSafe(ps[j])
    requires forall i :: 0 <= i < |es| ==> es[i].1.Str?
    ensures TagEntries(es, ps, true).Ok?
    decreases |es|
  {
    if |es| > 0 {
      CollectSlashFree(es[0].1.s, ps, [], None);
      TagEntriesSafe(es[1..], ps);
    }
  }
}

=== FILE: fluency_config.dfy ===
/**
 * The module's configuration page (`FluencyConfig.php`): the default
 * settings, the API-key probe that decides and stores whether the key is
 * valid, which fields the page shows, and the usage row. The probe uses the
 * older client (`classes/DeepL.class.php`), which this file loads.
 */
module FluencyConfig {
  import opened Outcome
  import opened PhpString
  import opened HttpMessages
  import opened DeepLEngine
  import opened LegacyDeepL

  /** A stored module setting: a string or a boolean. An unset setting is absent from the map. */
  datatype Setting = Text(s: string) | Flag(b: bool)

  type ModuleConfig = map<string, Setting>

  /** `getDefaults`. */
  function Defaults(): ModuleConfig {
    map["deepl_api_key" := Text(""), "api_key_valid" := Text("invalid")]
  }

  /** `isset($c[$k]) && $c[$k] === true`. */
  predicate IsTrue(c: ModuleConfig, k: string) {
    k in c && c[k] == Flag(true)
  }

  /** The defaults have an empty key and store `'invalid'`, a string, which is never `=== true`. */
  lemma DefaultsNotValidated()
    ensures !IsTrue(Defaults(), "api_key_valid")
    ensures "deepl_api_key" in Defaults() && !Truthy(Defaults()["deepl_api_key"].s)
  {
  }

  // ---------------------------------------------------------------------------
  // The key probe
  // ---------------------------------------------------------------------------

  /** The result of the probe: not run (no key), or run with its verdict and, for a rejected key, the message to show. */
  datatype KeyCheck = Unchecked | Checked(valid: bool, message: Option<string>)

  /** The call the older client's `getApiUsage` makes for a key: a GET of `/usage` on the pro host, with no parameters. */
  function UsageCall(key: string): Call {
    Call(RequestUrl(UrlBasePro, "/usage", key), None)
  }

  /**
   * The probe: when a key is set, the usage call decides, and the key counts
   * as valid unless the code is exactly `403` (so `0`, `429` or `500` all
   * count as valid); a rejected key keeps the message of the reply.
   */
  function CheckKey(key: string, provider: Call -> Reply): (r: KeyCheck)
    ensures r.Checked? <==> Truthy(key)
    ensures r.Checked? ==> (r.valid <==> provider(UsageCall(key)).httpCode != 403)
    ensures r.Checked? ==> (r.message.Some? <==> !r.valid)
    ensures r.Checked? && !r.valid ==> r.message == Some(LegacyMessage(403))
  {
    if !Truthy(key) then Unchecked
    else
      assert ParamString([]) == Some("");
      var x := LegacyDeepL.ApiCall(LegacyClient(key), "/usage", [], provider).value;
      assert x.call == UsageCall(key);
      if x.output.httpCode != 403 then Checked(true, None)
      else Checked(false, Some(x.output.message.text))
  }

  /** `$moduleConfig['api_key_valid'] = $apiKeyIsValid` and the save, when the probe ran. */
  function StoreCheck(c: ModuleConfig, check: KeyCheck): (r: ModuleConfig)
    ensures check.Unchecked? ==> r == c
    ensures check.Checked? ==> (IsTrue(r, "api_key_valid") <==> check.valid)
    ensures forall k :: k != "api_key_valid" ==> (k in r <==> k in c) && (k in c ==> r[k] == c[k])
  {
    match check
    case Unchecked => c
    case Checked(valid, _) => c["api_key_valid" := Flag(valid)]
  }

  // ---------------------------------------------------------------------------
  // The fields shown
  // ---------------------------------------------------------------------------

  /** The state of the key field: a note asking for a key, the probe's error, or a collapsed "validated" note. */
  datatype KeyField = AskForKey | KeyRejected(message: Option<string>) | KeyValidated

  /** The page is the key field alone, or the key field followed by the rest of the settings. */
  datatype Form = KeyOnly(field: KeyField) | FullForm(field: KeyField)

  function ConfigForm(key: string, check: KeyCheck): (r: Form)
    ensures r.KeyOnly? <==> !(Truthy(key) && check.Checked? && check.valid)
    ensures r.field == AskForKey <==> !Truthy(key)
    ensures r.field == KeyValidated <==> r.FullForm?
  {
    var valid := check.Checked? && check.valid;
    var field :=
      if !Truthy(key) then AskForKey
      else if !valid then KeyRejected(if check.Checked? then check.message else None)
      else KeyValidated;
    if !Truthy(key) || !valid then KeyOnly(field) else FullForm(field)
  }

  /** The probe and the page agree: the full settings appear exactly when a key is set and the usage call did not answer `403`. */
  lemma FullFormOnlyForAcceptedKey(key: string, provider: Call -> Reply)
    ensures ConfigForm(key, CheckKey(key, provider)).FullForm? <==> Truthy(key) && provider(UsageCall(key)).httpCode != 403
    ensures ConfigForm(key, CheckKey(key, provider)) == KeyOnly(KeyRejected(Some(LegacyMessage(403))))
      <==> Truthy(key) && provider(UsageCall(key)).httpCode == 403
  {
  }

  // ---------------------------------------------------------------------------
  // The usage row
  // ---------------------------------------------------------------------------

  /** Character limit, characters used, characters remaining and the percentage used. */
  datatype UsageRow = UsageRow(limit: int, used: int, remaining: int, percent: int)

  /**
   * The usage row: the remainder is `limit - used` and the percentage is
   * `round(used / limit * 100)`, rounding halves up. A zero limit divides by
   * zero, which PHP 8 refuses with a `DivisionByZeroError` (`None`).
   */
  function Usage(limit: nat, used: nat): (r: Option<UsageRow>)
    ensures r.Some? <==> limit > 0
    ensures r.Some? ==> r.value.limit == limit && r.value.used == used
    ensures r.Some? ==> r.value.remaining + used == limit
    ensures r.Some? ==> 2 * limit * r.value.percent - limit <= 200 * used < 2 * limit * r.value.percent + limit
  {
    if limit == 0 then None
    else
      var p := (200 * used + limit) / (2 * limit);
      RoundHalfUp(200 * used + limit, 2 * limit);
      Some(UsageRow(limit, used, limit - used, p))
  }

  lemma RoundHalfUp(a: nat, b: nat)
    requires b > 0
    ensures b * (a / b) <= a < b * (a / b) + b
  {
  }

  lemma Scale(limit: nat, p: int, k: int)
    ensures p >= k ==> limit * p >= limit * k
    ensures p <= k ==> limit * p <= limit * k
  {
  }

  /** The percentage never exceeds 100 while the usage stays within the limit, and is 100 at the limit. */
  lemma UsageWithinLimit(limit: nat, used: nat)
    requires 0 < limit && used <= limit
    ensures 0 <= Usage(limit, used).value.percent <= 100
    ensures used == limit ==> Usage(limit, used).value.percent == 100
  {
    var p := Usage(limit, used).value.percent;
    Scale(limit, p, 101);
    Scale(limit, p, 0);
    Scale(limit, p, 99);
  }
}

=== FILE: fluency_module.dfy ===
/**
 * The module class (`Fluency.module.php`): whether the module starts on a
 * page, how the configured languages split into one source and ordered
 * targets, the language-to-code associations, the option merging of
 * `translate` and its call into the DeepL engine, the sorted language lists
 * and the alternate-language link tags.
 *
 * The host's language list, the stored per-language settings, the page URLs
 * and the provider's language lists are inputs.
 */
module FluencyModule {
  import opened Outcome
  import opened PhpString
  import opened PhpArray
  import opened DeepLEngine
  import opened FluencyConfig

  // ---------------------------------------------------------------------------
  // Readiness
  // ---------------------------------------------------------------------------

  /**
   * `moduleShouldInit`: not on the login page, a key set, the user allowed
   * to translate, the stored key verdict exactly `true`, an account type set.
   */
  function ModuleShouldInit(pageName: string, apiKey: string, mayTranslate: bool, c: ModuleConfig): (r: bool)
    ensures r ==> Truthy(apiKey) && IsTrue(c, "api_key_valid") && "deepl_account_type" in c
  {
    pageName != "login" && Truthy(apiKey) && mayTranslate && IsTrue(c, "api_key_valid") && "deepl_account_type" in c
  }

  /** With the default settings the module never starts. */
  lemma DefaultsNeverReady(pageName: string, apiKey: string, mayTranslate: bool)
    ensures !ModuleShouldInit(pageName, apiKey, mayTranslate, Defaults())
  {
    DefaultsNotValidated();
  }

  /**
   * After the configuration page has probed the key and stored the verdict,
   * the module starts exactly when the page is not the login page, the key
   * is set, the user may translate, the usage call did not answer `403` and
   * an account type is stored.
   */
  lemma ReadyAfterProbe(pageName: string, apiKey: string, mayTranslate: bool, c: ModuleConfig, provider: Call -> Reply)
    ensures ModuleShouldInit(pageName, apiKey, mayTranslate, StoreCheck(c, CheckKey(apiKey, provider)))
      <==> pageName != "login" && Truthy(apiKey) && mayTranslate
           && provider(UsageCall(apiKey)).httpCode != 403 && "deepl_account_type" in c
  {
  }

  // ---------------------------------------------------------------------------
  // Configured languages
  // ---------------------------------------------------------------------------

  /** A language as the host lists it. */
  datatype PwLanguage = PwLanguage(id: int, name: string, title: string)

  /** The decoded `pw_language_{id}` setting: the DeepL code chosen for the language and its DeepL name. */
  datatype TranslatorData = TranslatorData(language: string, name: string)

  datatype SourceLanguage = SourceLanguage(pw: PwLanguage, translator: TranslatorData)
  datatype TargetLanguage = TargetLanguage(pw: PwLanguage, urlValid: bool, translator: TranslatorData)
  datatype LanguageData = LanguageData(source: Option<SourceLanguage>, targets: seq<TargetLanguage>)

  /** Codes whose translations cannot be used in page names. */
  const UrlInvalidLanguages: set<string> := {"RU", "JA", "ZH"}

  /** The source language is the one the host names `default`. */
  predicate IsDefault(l: PwLanguage) {
    l.name == "default"
  }

  /** One step of the loop: a language without settings is skipped; `default` becomes the source; any other is appended to the targets. */
  function AddLanguage(acc: LanguageData, l: PwLanguage, configured: map<int, TranslatorData>): LanguageData {
    if l.id !in configured then acc
    else if IsDefault(l) then acc.(source := Some(SourceLanguage(l, configured[l.id])))
    else
      var t := configured[l.id];
      acc.(targets := acc.targets + [TargetLanguage(l, t.language !in UrlInvalidLanguages, t)])
  }

  function Gather(langs: seq<PwLanguage>, configured: map<int, TranslatorData>, acc: LanguageData): LanguageData
    decreases |langs|
  {
    if |langs| == 0 then acc else Gather(langs[1..], configured, AddLanguage(acc, langs[0], configured))
  }

  /** The configured non-default languages, in order, as targets. */
  function Targets(langs: seq<PwLanguage>, configured: map<int, TranslatorData>): seq<TargetLanguage>
    decreases |langs|
  {
    if |langs| == 0 then []
    else
      var l := langs[0];
      var rest := Targets(langs[1..], configured);
      if l.id in configured && !IsDefault(l) then
        [TargetLanguage(l, configured[l.id].language !in UrlInvalidLanguages, configured[l.id])] + rest
      else rest
  }

  /** A source entry that describes a configured `default` language of the list. */
  predicate ValidSource(s: SourceLanguage, langs: seq<PwLanguage>, configured: map<int, TranslatorData>) {
    s.pw in langs && IsDefault(s.pw) && s.pw.id in configured && s.translator == configured[s.pw.id]
  }

  /**
   * `getConfiguredLanguageData`: the targets are the configured languages
   * other than `default`, in the host's order; the source is a configured
   * `default` language, and there is one exactly when the list has one.
   */
  function ConfiguredLanguageData(langs: seq<PwLanguage>, configured: map<int, TranslatorData>): (r: LanguageData)
    ensures r.targets == Targets(langs, configured)
    ensures r.source.Some? ==> ValidSource(r.source.value, langs, configured)
    ensures r.source.None? <==> NoConfiguredDefault(langs, configured)
  {
    GatherTargets(langs, configured, LanguageData(None, []));
    GatherSource(langs, langs, configured, LanguageData(None, []));
    Gather(langs, configured, LanguageData(None, []))
  }

  lemma {:induction false} GatherTargets(langs: seq<PwLanguage>, configured: map<int, TranslatorData>, acc: LanguageData)
    ensures Gather(langs, configured, acc).targets == acc.targets + Targets(langs, configured)
    decreases |langs|
  {
    if |langs| == 0 {
      assert acc.targets + [] == acc.targets;
    } else {
      var acc' := AddLanguage(acc, langs[0], configured);
      GatherTargets(langs[1..], configured, acc');
      var rest := Targets(langs[1..], configured);
      if langs[0].id in configured && !IsDefault(langs[0]) {
        var t := acc'.targets[|acc.targets|];
        assert acc'.targets == acc.targets + [t];
        assert acc.targets + [t] + rest == acc.targets + ([t] + rest);
      }
    }
  }

  /** No language of the list named `default` has settings. */
  predicate NoConfiguredDefault(langs: seq<PwLanguage>, configured: map<int, TranslatorData>) {
    forall l :: l in langs && IsDefault(l) ==> l.id !in configured
  }

  predicate SourceOk(s: Option<SourceLanguage>, all: seq<PwLanguage>, configured: map<int, TranslatorData>) {
    s.None? || ValidSource(s.value, all, configured)
  }

  lemma {:induction false} GatherSource(all: seq<PwLanguage>, langs: seq<PwLanguage>, configured: map<int, TranslatorData>, acc: LanguageData)
    requires forall l :: l in langs ==> l in all
    ensures SourceOk(acc.source, all, configured) ==> SourceOk(Gather(langs, configured, acc).source, all, configured)
    ensures Gather(langs, configured, acc).source.None? <==> acc.source.None? && NoConfiguredDefault(langs, configured)
    decreases |langs|
  {
    if |langs| > 0 {
      var acc' := AddLanguage(acc, langs[0], configured);
      assert forall l :: l in langs[1..] ==> l in langs;
      GatherSource(all, langs[1..], configured, acc');
      assert forall l :: l in langs <==> l == langs[0] || l in langs[1..];
    }
  }

  /** Each target is a configured non-default language of the list, unusable in page names exactly when its code is RU, JA or ZH. */
  lemma {:induction false} TargetsDescribeLanguages(langs: seq<PwLanguage>, configured: map<int, TranslatorData>)
    ensures forall t :: t in Targets(langs, configured) ==>
      t.pw in langs && !IsDefault(t.pw) && t.pw.id in configured && t.translator == configured[t.pw.id]
      && (t.urlValid <==> t.translator.language !in UrlInvalidLanguages)
    ensures forall l :: l in langs && !IsDefault(l) && l.id in configured ==>
      exists t :: t in Targets(langs, configured) && t.pw == l
    decreases |langs|
  {
    if |langs| > 0 {
      TargetsDescribeLanguages(langs[1..], configured);
      assert forall l :: l in langs <==> l == langs[0] || l in langs[1..];
      var l0 := langs[0];
      if l0.id in configured && !IsDefault(l0) {
        var t0 := TargetLanguage(l0, configured[l0.id].language !in UrlInvalidLanguages, configured[l0.id]);
        assert t0 in Targets(langs, configured);
      }
    }
  }

  // ---------------------------------------------------------------------------
  // Language id to code
  // ---------------------------------------------------------------------------

  function AddTargets(m: map<int, string>, ts: seq<TargetLanguage>): map<int, string>
    decreases |ts|
  {
    if |ts| == 0 then m else AddTargets(m[ts[0].pw.id := ts[0].translator.language], ts[1..])
  }

  /**
   * `getLanguageIdIsoAssociations`: the source's id and each target's id,
   * mapped to the language's code. (Without a source the code stores a null
   * under the key `''`, which no integer id can reach; the model stores
   * nothing.)
   */
  function IsoAssociations(d: LanguageData): map<int, string> {
    var m := if d.source.Some? then map[d.source.value.pw.id := d.source.value.translator.language] else map[];
    AddTargets(m, d.targets)
  }

  function TargetIds(ts: seq<TargetLanguage>): set<int> {
    set t | t in ts :: t.pw.id
  }

  lemma {:induction false} AddTargetsKeys(m: map<int, string>, ts: seq<TargetLanguage>)
    ensures AddTargets(m, ts).Keys == m.Keys + TargetIds(ts)
    ensures forall k :: k in AddTargets(m, ts) && k !in TargetIds(ts) ==> AddTargets(m, ts)[k] == m[k]
    ensures forall k :: k in TargetIds(ts) ==> exists t :: t in ts && t.pw.id == k && AddTargets(m, ts)[k] == t.translator.language
    decreases |ts|
  {
    if |ts| > 0 {
      var m' := m[ts[0].pw.id := ts[0].translator.language];
      AddTargetsKeys(m', ts[1..]);
      assert forall t :: t in ts <==> t == ts[0] || t in ts[1..];
      assert TargetIds(ts) == {ts[0].pw.id} + TargetIds(ts[1..]);
    }
  }

  /**
   * Every configured language is associated with its configured code, and no
   * other id is associated, when the list has at most one `default`.
   */
  lemma IsoMatchesConfiguration(langs: seq<PwLanguage>, configured: map<int, TranslatorData>)
    requires forall i, j :: 0 <= i < j < |langs| && IsDefault(langs[i]) ==> !IsDefault(langs[j])
    ensures IsoAssociations(ConfiguredLanguageData(langs, configured)).Keys == set l | l in langs && l.id in configured :: l.id
    ensures forall k :: k in IsoAssociations(ConfiguredLanguageData(langs, configured)) ==>
      k in configured && IsoAssociations(ConfiguredLanguageData(langs, configured))[k] == configured[k].language
  {
    IsoWithinConfiguration(langs, configured);
    IsoCoversConfiguration(langs, configured);
    var iso := IsoAssociations(ConfiguredLanguageData(langs, configured));
    forall k | k in iso ensures k in set l | l in langs && l.id in configured :: l.id {
      var l :| l in langs && l.id == k;
    }
  }

  /** Every associated id is that of a configured language of the list, with its configured code. */
  lemma IsoWithinConfiguration(langs: seq<PwLanguage>, configured: map<int, TranslatorData>)
    ensures forall k :: k in IsoAssociations(ConfiguredLanguageData(langs, configured)) ==>
      k in configured && IsoAssociations(ConfiguredLanguageData(langs, configured))[k] == configured[k].language
      && exists l :: l in langs && l.id == k
  {
    var d := ConfiguredLanguageData(langs, configured);
    var m := if d.source.Some? then map[d.source.value.pw.id := d.source.value.translator.language] else map[];
    TargetsDescribeLanguages(langs, configured);
    AddTargetsKeys(m, d.targets);
  }

  /** With at most one `default`, every configured language of the list is associated. */
  lemma IsoCoversConfiguration(langs: seq<PwLanguage>, configured: map<int, TranslatorData>)
    requires forall i, j :: 0 <= i < j < |langs| && IsDefault(langs[i]) ==> !IsDefault(langs[j])
    ensures forall l :: l in langs && l.id in configured ==> l.id in IsoAssociations(ConfiguredLanguageData(langs, configured))
  {
    var d := ConfiguredLanguageData(langs, configured);
    var m := if d.source.Some? then map[d.source.value.pw.id := d.source.value.translator.language] else map[];
    TargetsDescribeLanguages(langs, configured);
    AddTargetsKeys(m, d.targets);
    forall l | l in langs && l.id in configured ensures l.id in IsoAssociations(d) {
      if IsDefault(l) {
        OneDefault(langs, l, d.source.value.pw);
      } else {
        var t :| t in d.targets && t.pw == l;
      }
    }
  }

  lemma OneDefault(langs: seq<PwLanguage>, a: PwLanguage, b: PwLanguage)
    requires forall i, j :: 0 <= i < j < |langs| && IsDefault(langs[i]) ==> !IsDefault(langs[j])
    requires a in langs && b in langs && IsDefault(a) && IsDefault(b)
    ensures a == b
  {
    var i :| 0 <= i < |langs| && langs[i] == a;
    var j :| 0 <= j < |langs| && langs[j] == b;
  }

  // ---------------------------------------------------------------------------
  // translate: option merging and the call into the engine
  // ---------------------------------------------------------------------------

  /** `array_map('trim', explode(',', $cfg))`. */
  function ConfigPhrases(cfg: string): seq<string> {
    var parts := Split(cfg, ",");
    seq(|parts|, i requires 0 <= i < |parts| => Trim(parts[i]))
  }

  /** `$opts[$k] ?? []` as an argument of `array_merge`: a missing key gives `[]`; a scalar is refused with a `TypeError` (`None`). */
  function OptionArray(opts: Entries, k: string): Option<Entries> {
    match Get(opts, Name(k))
    case None => Some([])
    case Some(Arr(es)) => Some(es)
    case Some(Str(_)) => None
  }

  /** `ignoredStrings`: the configured phrases, when there are any, merged before the caller's. */
  function MergeIgnored(opts: Entries, nonTranslated: string): (r: Option<Entries>)
    ensures !Truthy(nonTranslated) ==> r == Some(opts)
    ensures Truthy(nonTranslated) ==> (r.Some? <==> OptionArray(opts, "ignoredStrings").Some?)
    ensures r.Some? ==> forall k :: k != Name("ignoredStrings") ==> Get(r.value, k) == Get(opts, k)
    ensures r.Some? && UniqueKeys(opts) ==> UniqueKeys(r.value)
    ensures Truthy(nonTranslated) && r.Some? ==>
      Get(r.value, Name("ignoredStrings")).Some? && Get(r.value, Name("ignoredStrings")).value.Arr?
      && IndexedValues(Get(r.value, Name("ignoredStrings")).value.entries)
         == IndexedValues(ListOf(ConfigPhrases(nonTranslated))) + IndexedValues(OptionArray(opts, "ignoredStrings").value)
  {
    if !Truthy(nonTranslated) then Some(opts)
    else match OptionArray(opts, "ignoredStrings")
      case None => None
      case Some(given) =>
        var v := Arr(Merge(ListOf(ConfigPhrases(nonTranslated)), given));
        PutGet(opts, Name("ignoredStrings"), v);
        PutUniqueWhen(opts, Name("ignoredStrings"), v);
        Some(Put(opts, Name("ignoredStrings"), v))
  }

  /** `addParams`: the configured `preserve_formatting`, when set, overridden by the caller's parameters. */
  function MergeAddParams(opts: Entries, preserveFormatting: string): (r: Option<Entries>)
    ensures !Truthy(preserveFormatting) ==> r == Some(opts)
    ensures Truthy(preserveFormatting) ==> (r.Some? <==> OptionArray(opts, "addParams").Some?)
    ensures r.Some? ==> forall k :: k != Name("addParams") ==> Get(r.value, k) == Get(opts, k)
    ensures r.Some? && UniqueKeys(opts) ==> UniqueKeys(r.value)
    ensures Truthy(preserveFormatting) && r.Some? ==>
      Get(r.value, Name("addParams")).Some? && Get(r.value, Name("addParams")).value.Arr?
    ensures Truthy(preserveFormatting) && r.Some? && UniqueKeys(OptionArray(opts, "addParams").value) ==>
      var given := OptionArray(opts, "addParams").value;
      Get(Get(r.value, Name("addParams")).value.entries, Name("preserve_formatting"))
        == if Name("preserve_formatting") in KeysOf(given) then Get(given, Name("preserve_formatting")) else Some(Str(preserveFormatting))
    ensures Truthy(preserveFormatting) && r.Some? && UniqueKeys(OptionArray(opts, "addParams").value) ==>
      var given := OptionArray(opts, "addParams").value;
      forall s :: Get(Get(r.value, Name("addParams")).value.entries, Name(s))
        == if Name(s) in KeysOf(given) then Get(given, Name(s))
           else if s == "preserve_formatting" then Some(Str(preserveFormatting)) else None
    ensures Truthy(preserveFormatting) && r.Some? ==>
      IndexedValues(Get(r.value, Name("addParams")).value.entries) == IndexedValues(OptionArray(opts, "addParams").value)
  {
    if !Truthy(preserveFormatting) then Some(opts)
    else match OptionArray(opts, "addParams")
      case None => None
      case Some(given) =>
        var pf: Entries := [(Name("preserve_formatting"), Str(preserveFormatting))];
        assert UniqueKeys(pf);
        PreserveFormattingGet(preserveFormatting);
        assert IndexedValues(pf) == [];
        var v := Arr(Merge(pf, given));
        PutGet(opts, Name("addParams"), v);
        PutUniqueWhen(opts, Name("addParams"), v);
        Some(Put(opts, Name("addParams"), v))
  }

  /** The one-entry array `['preserve_formatting' => p]` holds only that key. */
  lemma PreserveFormattingGet(p: string)
    ensures forall s ::
      Get([(Name("preserve_formatting"), Str(p))], Name(s)) == if s == "preserve_formatting" then Some(Str(p)) else None
  {
    var pf: Entries := [(Name("preserve_formatting"), Str(p))];
    assert pf[1..] == [];
  }

  lemma PutUniqueWhen(a: Entries, k: Key, v: Value)
    ensures UniqueKeys(a) ==> UniqueKeys(Put(a, k, v))
  {
    if UniqueKeys(a) {
      PutUnique(a, k, v);
    }
  }

  /** The option merging of `translate`: first `ignoredStrings`, then `addParams`. */
  function MergeOptions(opts: Entries, nonTranslated: string, preserveFormatting: string): (r: Option<Entries>)
    ensures !Truthy(nonTranslated) && !Truthy(preserveFormatting) ==> r == Some(opts)
    ensures r.Some? ==> forall s :: s != "ignoredStrings" && s != "addParams" ==> Get(r.value, Name(s)) == Get(opts, Name(s))
    ensures r.Some? && UniqueKeys(opts) ==> UniqueKeys(r.value)
    ensures r.Some? && Truthy(nonTranslated) && OptionArray(opts, "ignoredStrings").Some? ==>
      Get(r.value, Name("ignoredStrings")).Some? && Get(r.value, Name("ignoredStrings")).value.Arr?
      && IndexedValues(Get(r.value, Name("ignoredStrings")).value.entries)
         == IndexedValues(ListOf(ConfigPhrases(nonTranslated))) + IndexedValues(OptionArray(opts, "ignoredStrings").value)
    ensures r.Some? && Truthy(preserveFormatting) ==>
      Get(r.value, Name("addParams")).Some? && Get(r.value, Name("addParams")).value.Arr?
    ensures r.Some? && Truthy(preserveFormatting) && OptionArray(opts, "addParams").Some? && UniqueKeys(OptionArray(opts, "addParams").value) ==>
      var given := OptionArray(opts, "addParams").value;
      Get(Get(r.value, Name("addParams")).value.entries, Name("preserve_formatting"))
        == if Name("preserve_formatting") in KeysOf(given) then Get(given, Name("preserve_formatting")) else Some(Str(preserveFormatting))
    ensures r.Some? && Truthy(preserveFormatting) && OptionArray(opts, "addParams").Some? && UniqueKeys(OptionArray(opts, "addParams").value) ==>
      var given := OptionArray(opts, "addParams").value;
      forall s :: Get(Get(r.value, Name("addParams")).value.entries, Name(s))
        == if Name(s) in KeysOf(given) then Get(given, Name(s))
           else if s == "preserve_formatting" then Some(Str(preserveFormatting)) else None
    ensures r.Some? && Truthy(preserveFormatting) && OptionArray(opts, "addParams").Some? ==>
      IndexedValues(Get(r.value, Name("addParams")).value.entries) == IndexedValues(OptionArray(opts, "addParams").value)
    ensures r.Some? && !Truthy(preserveFormatting) ==> Get(r.value, Name("addParams")) == Get(opts, Name("addParams"))
    ensures r.Some? && !Truthy(nonTranslated) ==> Get(r.value, Name("ignoredStrings")) == Get(opts, Name("ignoredStrings"))
  {
    var ignoredMerged := MergeIgnored(opts, nonTranslated);
    if ignoredMerged.None? then None
    else
      var o := ignoredMerged.value;
      AddParamsUntouched(opts, nonTranslated);
      OptionNamesDiffer();
      var r := MergeAddParams(o, preserveFormatting);
      assert r.Some? ==> Get(r.value, Name("ignoredStrings")) == Get(o, Name("ignoredStrings"));
      r
  }

  /** Merging `ignoredStrings` leaves the `addParams` option as it was. */
  lemma AddParamsUntouched(opts: Entries, nonTranslated: string)
    ensures MergeIgnored(opts, nonTranslated).Some? ==>
      OptionArray(MergeIgnored(opts, nonTranslated).value, "addParams") == OptionArray(opts, "addParams")
  {
    if Truthy(nonTranslated) && OptionArray(opts, "ignoredStrings").Some? {
      var v := Arr(Merge(ListOf(ConfigPhrases(nonTranslated)), OptionArray(opts, "ignoredStrings").value));
      assert MergeIgnored(opts, nonTranslated) == Some(Put(opts, Name("ignoredStrings"), v));
      PutGet(opts, Name("ignoredStrings"), v);
      OptionNamesDiffer();
    }
  }

  lemma OptionNamesDiffer()
    ensures Name("addParams") != Name("ignoredStrings")
  {
    assert "addParams"[0] != "ignoredStrings"[0];
  }

  lemma MergeOptionsSteps(opts: Entries, nonTranslated: string, preserveFormatting: string)
    ensures MergeOptions(opts, nonTranslated, preserveFormatting)
      == if MergeIgnored(opts, nonTranslated).None? then None
         else MergeAddParams(MergeIgnored(opts, nonTranslated).value, preserveFormatting)
  {
  }

  /** The merge fails, with PHP's `TypeError`, exactly when a setting is used and the matching option is a scalar. */
  lemma MergeFailsOnScalar(opts: Entries, nonTranslated: string, preserveFormatting: string)
    ensures MergeOptions(opts, nonTranslated, preserveFormatting).None? <==>
      (Truthy(nonTranslated) && OptionArray(opts, "ignoredStrings").None?)
      || (Truthy(preserveFormatting) && OptionArray(opts, "addParams").None?)
  {
    AddParamsUntouched(opts, nonTranslated);
    MergeOptionsSteps(opts, nonTranslated, preserveFormatting);
  }

  /**
   * `Fluency::translate` as written: the merged options array is passed as
   * the engine's fourth argument, `$addParams`, and no ignored phrases are
   * passed.
   */
  function FluencyTranslate(c: Client, source: string, content: Value, target: string, opts: Entries,
                            nonTranslated: string, preserveFormatting: string, provider: Call -> Reply): Translated
  {
    match MergeOptions(opts, nonTranslated, preserveFormatting)
    case None => NotSent(TypeError)
    case Some(o) => DeepLEngine.Translate(c, source, content, target, o, [], provider)
  }

  /**
   * What the composition sends: the content untagged, whatever phrases are
   * configured, with the merged options as the top-level request parameters.
   */
  lemma ComposedRequest(c: Client, source: string, content: Value, target: string, opts: Entries,
                        nonTranslated: string, preserveFormatting: string, provider: Call -> Reply)
    ensures var r := FluencyTranslate(c, source, content, target, opts, nonTranslated, preserveFormatting, provider);
      r.Sent? ==>
        r.exchange.call.postFields
          == ParamString(TranslateParams(source, target, AsList(content), MergeOptions(opts, nonTranslated, preserveFormatting).value))
  {
    var m := MergeOptions(opts, nonTranslated, preserveFormatting);
    if m.Some? {
      assert PrepareTexts(content, [], true) == Ok(AsList(content));
      var x := DeepLEngine.ApiCall(c, "/translate", TranslateParams(source, target, AsList(content), m.value), provider);
      if x.Some? {
        assert Untagged(x.value, false).call == x.value.call;
      }
    }
  }

  /**
   * Among those parameters, `ignoredStrings` and `addParams` are arrays, so
   * they go out printed `Array`, and `preserve_formatting` is whatever the
   * caller put at the top level of the options: the configured setting never
   * reaches the request.
   */
  lemma ComposedParams(source: string, target: string, texts: Entries, opts: Entries,
                       nonTranslated: string, preserveFormatting: string)
    requires UniqueKeys(opts)
    ensures MergeOptions(opts, nonTranslated, preserveFormatting).Some? ==>
      var params := TranslateParams(source, target, texts, MergeOptions(opts, nonTranslated, preserveFormatting).value);
      Get(params, Name("preserve_formatting")) == Get(opts, Name("preserve_formatting"))
      && (Truthy(nonTranslated) ==> Get(params, Name("ignoredStrings")).Some? && Get(params, Name("ignoredStrings")).value.Arr?)
      && (Truthy(preserveFormatting) ==> Get(params, Name("addParams")).Some? && Get(params, Name("addParams")).value.Arr?)
  {
    var m := MergeOptions(opts, nonTranslated, preserveFormatting);
    MergeKeepsOption(opts, nonTranslated, preserveFormatting, "preserve_formatting");
    if m.Some? {
      OptionsReachRequest(source, target, texts, m.value);
    }
  }

  lemma MergeKeepsOption(opts: Entries, nonTranslated: string, preserveFormatting: string, s: string)
    requires s != "ignoredStrings" && s != "addParams"
    ensures MergeOptions(opts, nonTranslated, preserveFormatting).Some? ==>
      Get(MergeOptions(opts, nonTranslated, preserveFormatting).value, Name(s)) == Get(opts, Name(s))
  {
  }

  /** The options that are not fixed keys reach the request parameters unchanged. */
  lemma OptionsReachRequest(source: string, target: string, texts: Entries, o: Entries)
    requires UniqueKeys(o)
    ensures Get(TranslateParams(source, target, texts, o), Name("preserve_formatting")) == Get(o, Name("preserve_formatting"))
    ensures Get(TranslateParams(source, target, texts, o), Name("ignoredStrings")) == Get(o, Name("ignoredStrings"))
    ensures Get(TranslateParams(source, target, texts, o), Name("addParams")) == Get(o, Name("addParams"))
  {
    KeptByTranslate("preserve_formatting");
    ParamKept(source, target, texts, o, "preserve_formatting");
    KeptByTranslate("ignoredStrings");
    ParamKept(source, target, texts, o, "ignoredStrings");
    KeptByTranslate("addParams");
    ParamKept(source, target, texts, o, "addParams");
  }

  lemma ParamKept(source: string, target: string, texts: Entries, o: Entries, s: string)
    requires UniqueKeys(o)
    requires s !in {"source_lang", "target_lang", "tag_handling", "text"}
    ensures Get(TranslateParams(source, target, texts, o), Name(s)) == Get(o, Name(s))
  {
    TranslateParamsKeys(source, target, texts, o);
  }

  lemma KeptByTranslate(s: string)
    requires s == "preserve_formatting" || s == "ignoredStrings" || s == "addParams"
    ensures s !in {"source_lang", "target_lang", "tag_handling", "text"}
  {
  }

  // ---------------------------------------------------------------------------
  // Sorted language lists
  // ---------------------------------------------------------------------------

  /** A language as DeepL lists it. */
  datatype DeepLLanguage = DeepLLanguage(language: string, name: string)

  predicate SortedByName(s: seq<DeepLLanguage>) {
    forall i, j :: 0 <= i < j < |s| ==> LexLe(s[i].name, s[j].name)
  }

  /** Inserts before the first entry it does not follow, so equal names keep their order. */
  function InsertByName(x: DeepLLanguage, s: seq<DeepLLanguage>): (r: seq<DeepLLanguage>)
    requires SortedByName(s)
    ensures SortedByName(r)
    ensures multiset(r) == multiset(s) + multiset{x}
    decreases |s|
  {
    if |s| == 0 then [x]
    else if LexLe(x.name, s[0].name) then
      InsertFront(x, s);
      [x] + s
    else
      LexLeTotal(x.name, s[0].name);
      assert SortedByName(s[1..]);
      var rest := InsertByName(x, s[1..]);
      InsertBehind(s[0], rest, s[1..], x);
      assert s == [s[0]] + s[1..];
      [s[0]] + rest
  }

  lemma InsertFront(x: DeepLLanguage, s: seq<DeepLLanguage>)
    requires SortedByName(s) && |s| > 0 && LexLe(x.name, s[0].name)
    ensures SortedByName([x] + s)
  {
    var r := [x] + s;
    forall i, j | 0 <= i < j < |r| ensures LexLe(r[i].name, r[j].name) {
      if i == 0 && j > 1 {
        LexLeTransitive(x.name, s[0].name, s[j - 1].name);
      }
    }
  }

  lemma InsertBehind(h: DeepLLanguage, rest: seq<DeepLLanguage>, s: seq<DeepLLanguage>, x: DeepLLanguage)
    requires SortedByName(rest) && multiset(rest) == multiset(s) + multiset{x}
    requires forall k :: 0 <= k < |s| ==> LexLe(h.name, s[k].name)
    requires LexLe(h.name, x.name)
    ensures SortedByName([h] + rest)
  {
    var r := [h] + rest;
    forall i, j | 0 <= i < j < |r| ensures LexLe(r[i].name, r[j].name) {
      if i == 0 {
        var y := rest[j - 1];
        assert y in multiset(rest);
        if y != x {
          assert y in multiset(s);
          var k :| 0 <= k < |s| && s[k] == y;
        }
      }
    }
  }

  /** `usort($list, fn($a, $b) => strcmp($a->name, $b->name))`, stable as PHP 8's sort is. */
  function SortByName(s: seq<DeepLLanguage>): (r: seq<DeepLLanguage>)
    ensures SortedByName(r)
    ensures multiset(r) == multiset(s)
    decreases |s|
  {
    if |s| == 0 then []
    else
      assert s == [s[0]] + s[1..];
      InsertByName(s[0], SortByName(s[1..]))
  }

  /** `translatableLanguages($sort)`: both lists sorted by name when asked, as given otherwise. */
  function TranslatableLanguages(source: seq<DeepLLanguage>, target: seq<DeepLLanguage>, sort: bool): (r: (seq<DeepLLanguage>, seq<DeepLLanguage>))
    ensures sort ==> SortedByName(r.0) && multiset(r.0) == multiset(source)
    ensures sort ==> SortedByName(r.1) && multiset(r.1) == multiset(target)
    ensures !sort ==> r == (source, target)
  {
    if sort then (SortByName(source), SortByName(target)) else (source, target)
  }

  // ---------------------------------------------------------------------------
  // Alternate-language link tags
  // ---------------------------------------------------------------------------

  /** One `<link rel="alternate">` tag, as its two template values. */
  datatype AltTag = AltTag(href: string, hreflang: string)

  predicate HasAltTag(l: PwLanguage, excludeIds: seq<int>, iso: map<int, string>) {
    l.id !in excludeIds && l.id in iso
  }

  /** The loop of `renderAltLanguageMetaTags`, appending one tag per language that is not excluded and has a code. */
  function AltTagsLoop(langs: seq<PwLanguage>, excludeIds: seq<int>, iso: map<int, string>,
                       href: PwLanguage -> string, acc: seq<AltTag>): seq<AltTag>
    decreases |langs|
  {
    if |langs| == 0 then acc
    else
      var l := langs[0];
      var acc' := if HasAltTag(l, excludeIds, iso) then acc + [AltTag(href(l), iso[l.id])] else acc;
      AltTagsLoop(langs[1..], excludeIds, iso, href, acc')
  }

  /** The tags of the languages that get one, in list order. */
  function AltTagsFor(langs: seq<PwLanguage>, excludeIds: seq<int>, iso: map<int, string>, href: PwLanguage -> string): seq<AltTag>
    decreases |langs|
  {
    if |langs| == 0 then []
    else
      var l := langs[0];
      (if HasAltTag(l, excludeIds, iso) then [AltTag(href(l), iso[l.id])] else [])
      + AltTagsFor(langs[1..], excludeIds, iso, href)
  }

  /**
   * `renderAltLanguageMetaTags`: one tag per language, in order, that is not
   * excluded and has a code, then the `x-default` tag for the default
   * language's URL.
   */
  function RenderAltLanguageTags(langs: seq<PwLanguage>, excludeIds: seq<int>, iso: map<int, string>,
                                 href: PwLanguage -> string, defaultHref: string): (r: seq<AltTag>)
    ensures |r| >= 1 && r[|r| - 1] == AltTag(defaultHref, "x-default")
    ensures r[..|r| - 1] == AltTagsFor(langs, excludeIds, iso, href)
  {
    AltTagsLoopFor(langs, excludeIds, iso, href, []);
    var r := AltTagsLoop(langs, excludeIds, iso, href, []) + [AltTag(defaultHref, "x-default")];
    assert r[..|r| - 1] == AltTagsLoop(langs, excludeIds, iso, href, []);
    r
  }

  lemma {:induction false} AltTagsLoopFor(langs: seq<PwLanguage>, excludeIds: seq<int>, iso: map<int, string>,
                                          href: PwLanguage -> string, acc: seq<AltTag>)
    ensures AltTagsLoop(langs, excludeIds, iso, href, acc) == acc + AltTagsFor(langs, excludeIds, iso, href)
    decreases |langs|
  {
    if |langs| == 0 {
      assert acc + [] == acc;
    } else {
      var l := langs[0];
      var rest := AltTagsFor(langs[1..], excludeIds, iso, href);
      if HasAltTag(l, excludeIds, iso) {
        var t := AltTag(href(l), iso[l.id]);
        AltTagsLoopFor(langs[1..], excludeIds, iso, href, acc + [t]);
        assert acc + [t] + rest == acc + ([t] + rest);
      } else {
        AltTagsLoopFor(langs[1..], excludeIds, iso, href, acc);
        assert [] + rest == rest;
      }
    }
  }

  /** Every language-specific tag belongs to a language that is not excluded and has a code, and each such language has its tag. */
  lemma {:induction false} AltTagsExactly(langs: seq<PwLanguage>, excludeIds: seq<int>, iso: map<int, string>, href: PwLanguage -> string)
    ensures forall t :: t in AltTagsFor(langs, excludeIds, iso, href) ==>
      exists l :: l in langs && HasAltTag(l, excludeIds, iso) && t == AltTag(href(l), iso[l.id])
    ensures forall l :: l in langs && HasAltTag(l, excludeIds, iso) ==> AltTag(href(l), iso[l.id]) in AltTagsFor(langs, excludeIds, iso, href)
    decreases |langs|
  {
    if |langs| > 0 {
      AltTagsExactly(langs[1..], excludeIds, iso, href);
      assert forall l :: l in langs <==> l == langs[0] || l in langs[1..];
    }
  }
}

=== FILE: http_messages.dfy ===
/**
 * The user-facing messages for DeepL's HTTP status codes. Three copies of the
 * table exist: the engine's (`engines/DeepL.class.php`), the older client's
 * (`classes/DeepL.class.php`, whose status lines read `HTTP/101`) and the
 * shared base class's (`classes/FluencyTranslator.class.php`, with shorter
 * texts). Each lists the same nine codes; every other code gets one fixed
 * text. A listed message is a status line, `HTTP/1.0 403 `, followed by a
 * reason; the tables below give the reasons.
 */
module HttpMessages {
  import opened Outcome
  import opened PhpString

  /** The codes every table lists. */
  const ListedCodes: set<int> := {200, 400, 403, 404, 413, 429, 456, 500, 503}

  const UnknownError: string := "An unknown error has occurred"

  const Reason200: string := "OK"
  const Reason400: string := "Bad request. Please check error message and your parameters."
  const Reason403: string := "The DeepL API key in use is invalid or the associated account is not current."
  const Reason404: string := "The requested resource could not be found."
  const Reason413: string := "The amount of content is too large to translate."
  const Reason429: string := "Too many requests. Please wait and try again in a few moments."
  const Reason456: string := "The DeepL translation character limit for this billing period has been reached. Please review your DeepL account for more information."
  const Reason503: string := "There was an error communicating with the translation service, please try again later."
  const Reason500: string := "The translation service may be experiencing errors or is undergoing maintenance. Please try again later"

  /** The reasons of the DeepL client tables (the engine's and the older client's list the same texts). */
  function DeepLReason(code: int): (r: Option<string>)
    ensures r.Some? <==> code in ListedCodes
  {
    match code
    case 200 => Some(Reason200)
    case 400 => Some(Reason400)
    case 403 => Some(Reason403)
    case 404 => Some(Reason404)
    case 413 => Some(Reason413)
    case 429 => Some(Reason429)
    case 456 => Some(Reason456)
    case 503 => Some(Reason503)
    case 500 => Some(Reason500)
    case _ => None
  }

  const Short200: string := "OK"
  const Short400: string := "Bad request"
  const Short403: string := "Forbidden."
  const Short404: string := "The requested resource could not be found."
  const Short413: string := "The amount of content is too large to translate."
  const Short429: string := "Too many requests. Please wait and try again in a few moments"
  const Short456: string := "Translation limit has been reached"
  const Short503: string := "There was an error communicating with the translation service, please try again later."
  const Short500: string := "The translation service may be experiencing errors or is undergoing maintenance. Please try again later"

  /** The shorter reasons of the base class's table. */
  function TranslatorReason(code: int): (r: Option<string>)
    ensures r.Some? <==> code in ListedCodes
  {
    match code
    case 200 => Some(Short200)
    case 400 => Some(Short400)
    case 403 => Some(Short403)
    case 404 => Some(Short404)
    case 413 => Some(Short413)
    case 429 => Some(Short429)
    case 456 => Some(Short456)
    case 503 => Some(Short503)
    case 500 => Some(Short500)
    case _ => None
  }

  /** `HTTP/1.0 403 `: the protocol, the code and a space. */
  function StatusLine(protocol: string, code: nat): string {
    protocol + " " + NatToDecimal(code) + " "
  }

  /** `isset($messages[$code]) ? $messages[$code] : 'An unknown error has occurred'`, with `$messages[$code]` the status line and the reason. */
  function Lookup(protocol: string, reason: Option<string>, code: int): string
    requires reason.Some? ==> code >= 0
  {
    match reason
    case Some(text) => StatusLine(protocol, code) + text
    case None => UnknownError
  }

  /** `DeepL::getHttpMessage` of the engine. */
  function EngineMessage(code: int): (r: string)
    ensures code in ListedCodes ==> IsPrefix(StatusLine("HTTP/1.0", code), r)
    ensures code !in ListedCodes ==> r == UnknownError
  {
    Lookup("HTTP/1.0", DeepLReason(code), code)
  }

  /** `DeepL::getHttpMessage` of the older client. */
  function LegacyMessage(code: int): (r: string)
    ensures code in ListedCodes ==> IsPrefix(StatusLine("HTTP/101", code), r)
    ensures code !in ListedCodes ==> r == UnknownError
  {
    Lookup("HTTP/101", DeepLReason(code), code)
  }

  /** `FluencyTranslator::getHttpMessage`. */
  function TranslatorMessage(code: int): (r: string)
    ensures code in ListedCodes ==> IsPrefix(StatusLine("HTTP/1.0", code), r)
    ensures code !in ListedCodes ==> r == UnknownError
  {
    Lookup("HTTP/1.0", TranslatorReason(code), code)
  }

  /** A message starts with the status line of one code only. */
  lemma StatusLineUnique(r: string, protocol: string, a: nat, b: nat)
    requires 100 <= a < 1000 && 100 <= b < 1000
    ensures IsPrefix(StatusLine(protocol, a), r) && IsPrefix(StatusLine(protocol, b), r) ==> a == b
  {
    if IsPrefix(StatusLine(protocol, a), r) && IsPrefix(StatusLine(protocol, b), r) {
      StatusLinesAgree(r, protocol, a, b);
    }
  }

  lemma StatusLinesAgree(r: string, protocol: string, a: nat, b: nat)
    requires 100 <= a < 1000 && 100 <= b < 1000
    requires IsPrefix(StatusLine(protocol, a), r) && IsPrefix(StatusLine(protocol, b), r)
    ensures a == b
  {
    ThreeDigits(a);
    ThreeDigits(b);
    var n := |protocol| + 1;
    assert StatusLine(protocol, a)[n..n + 3] == NatToDecimal(a);
    assert StatusLine(protocol, b)[n..n + 3] == NatToDecimal(b);
    assert NatToDecimal(a) == r[n..n + 3] == NatToDecimal(b);
    DecimalInjective(a, b);
  }

  /** Every table gives each listed code its own message, and none of them is the unknown-code text. */
  lemma MessagesDistinct(a: int, b: int)
    requires a in ListedCodes && a != b
    ensures EngineMessage(a) != EngineMessage(b) && EngineMessage(a) != UnknownError
    ensures LegacyMessage(a) != LegacyMessage(b) && LegacyMessage(a) != UnknownError
    ensures TranslatorMessage(a) != TranslatorMessage(b) && TranslatorMessage(a) != UnknownError
  {
    assert 100 <= a < 1000;
    assert b in ListedCodes ==> 100 <= b < 1000;
    LookupDistinct("HTTP/1.0", DeepLReason(a), DeepLReason(b), a, b);
    LookupDistinct("HTTP/101", DeepLReason(a), DeepLReason(b), a, b);
    LookupDistinct("HTTP/1.0", TranslatorReason(a), TranslatorReason(b), a, b);
  }

  lemma LookupDistinct(protocol: string, ra: Option<string>, rb: Option<string>, a: int, b: int)
    requires |protocol| > 0 && protocol[0] == 'H'
    requires ra.Some? && 100 <= a < 1000 && (rb.Some? ==> 100 <= b < 1000) && a != b
    ensures Lookup(protocol, ra, a) != Lookup(protocol, rb, b)
    ensures Lookup(protocol, ra, a) != UnknownError
  {
    assert UnknownError[0] == 'A';
    assert Lookup(protocol, ra, a)[0] == 'H';
    if rb.Some? {
      StatusLineUnique(Lookup(protocol, rb, b), protocol, a, b);
    }
  }

  /** The older client's table says what the engine's says, under the protocol name `HTTP/101`. */
  lemma LegacyDiffersOnlyInProtocol(code: int)
    ensures code in ListedCodes ==> LegacyMessage(code) == "HTTP/101" + EngineMessage(code)[8..]
    ensures code !in ListedCodes ==> LegacyMessage(code) == EngineMessage(code)
  {
    LookupProtocol("HTTP/1.0", "HTTP/101", DeepLReason(code), code);
  }

  /** Two lookups in one table differ only in the protocol name they put in front. */
  lemma LookupProtocol(p1: string, p2: string, reason: Option<string>, code: int)
    requires reason.Some? ==> code >= 0
    ensures reason.Some? ==> Lookup(p2, reason, code) == p2 + Lookup(p1, reason, code)[|p1|..]
    ensures reason.None? ==> Lookup(p2, reason, code) == Lookup(p1, reason, code)
  {
    if reason.Some? {
      var rest := " " + NatToDecimal(code) + " " + reason.value;
      assert Lookup(p1, reason, code) == p1 + rest;
      assert Lookup(p2, reason, code) == p2 + rest;
      assert (p1 + rest)[|p1|..] == rest;
    }
  }
}

=== FILE: ignore_tags.dfy ===
/**
 * The `<fluency-ignore>` markers DeepL is told to leave untranslated
 * (`ignore_tags=fluency-ignore`): `addIgnoredTags` wraps every
 * case-insensitive occurrence of each ignored phrase in the markers before the
 * text is sent, `removeIgnoredTags` deletes the markers from the translation.
 *
 * The engine (`engines/DeepL.class.php`) escapes each phrase with
 * `preg_quote`; the older client (`classes/DeepL.class.php`) puts the phrase
 * into the pattern as it is. Both are modelled by one definition with a
 * `quoted` switch. The phrase search is PHP 8's: when a pattern does not
 * compile, `preg_match_all` fails and leaves `$matches` as it was, so the
 * matches of the previous phrase are merged again, and for the first phrase
 * `array_merge` receives `null` and throws a `TypeError`.
 *
 * Tagging replaces each found instance over the whole, already tagged text,
 * one instance after the other; the round-trip lemma states when removing the
 * markers gives the original text back, and `DoubledInstanceLeavesMarkers`
 * shows a text for which it does not.
 */
module IgnoreTags {
  import opened Outcome
  import opened PhpString
  import opened Pcre

  const TagName: string := "fluency-ignore"
  const Open: string := "<" + TagName + ">"
  const Close: string := "</" + TagName + ">"

  /** `"<fluency-ignore>{$instance}</fluency-ignore>"`. */
  function Wrap(w: string): string {
    Open + w + Close
  }

  /** The text holds neither marker. */
  predicate NoMarker(t: string) {
    !Contains(t, Open) && !Contains(t, Close)
  }

  // ---------------------------------------------------------------------------
  // The markers, abstractly
  // ---------------------------------------------------------------------------

  /**
   * The proofs below only use the shape of the markers: `o` is `<x>` and `c`
   * is `</x>` for a tag name `x` (here `inner` is `/x`) that holds no angle
   * bracket and does not start with `/`.
   */
  predicate MarkerPair(o: string, c: string, inner: string) {
    |inner| >= 2 && inner[0] == '/' && inner[1] != '/' && '<' !in inner && '>' !in inner
    && o == "<" + inner[1..] + ">" && c == "<" + inner + ">"
  }

  lemma FluencyMarkers()
    ensures MarkerPair(Open, Close, "/" + TagName)
  {
    assert '<' !in TagName && '>' !in TagName;
    assert ("/" + TagName)[1..] == TagName;
    assert Close == "<" + ("/" + TagName) + ">";
  }

  /** `preg_replace` of the markers `o` and `c` by nothing, one left-to-right pass. */
  function Strip(t: string, o: string, c: string): (r: string)
    ensures |r| <= |t|
    decreases |t|
  {
    if |o| > 0 && IsPrefix(o, t) then Strip(t[|o|..], o, c)
    else if |c| > 0 && IsPrefix(c, t) then Strip(t[|c|..], o, c)
    else if |t| == 0 then t
    else [t[0]] + Strip(t[1..], o, c)
  }

  lemma {:induction false} StripPlain(x: string, y: string, o: string, c: string, inner: string)
    requires MarkerPair(o, c, inner) && '<' !in x
    ensures Strip(x + y, o, c) == x + Strip(y, o, c)
    decreases |x|
  {
    if |x| > 0 {
      var s := x + y;
      assert s[0] == x[0] && o[0] == '<' && c[0] == '<';
      assert s[1..] == x[1..] + y;
      StripPlain(x[1..], y, o, c, inner);
      assert x == [x[0]] + x[1..];
    } else {
      assert x + y == y;
    }
  }

  lemma StripOpen(y: string, o: string, c: string, inner: string)
    requires MarkerPair(o, c, inner)
    ensures Strip(o + y, o, c) == Strip(y, o, c)
  {
    assert IsPrefix(o, o + y);
    assert (o + y)[|o|..] == y;
  }

  lemma StripClose(y: string, o: string, c: string, inner: string)
    requires MarkerPair(o, c, inner)
    ensures Strip(c + y, o, c) == Strip(y, o, c)
  {
    var s := c + y;
    assert s[1] == '/' && o[1] == inner[1];
    assert !IsPrefix(o, s);
    assert IsPrefix(c, s);
    assert s[|c|..] == y;
  }

  /** An instance that tagging can undo (see `InstanceSafe`), for the marker pair over `inner`. */
  predicate SafeFor(w: string, inner: string) {
    |w| == 0 || ('<' !in w && '>' !in w && !Contains(inner, w))
  }

  /** A prefix without `<` of a tagged text is a prefix of the text before tagging. */
  lemma {:induction false} TaggedPrefix(y: string, w: string, wrapped: string, p: string)
    requires |w| > 0 && |wrapped| > 0 && wrapped[0] == '<' && '<' !in p
    ensures IsPrefix(p, ReplaceAll(y, w, wrapped)) ==> IsPrefix(p, y)
    decreases |y|
  {
    if |p| > 0 && !IsPrefix(w, y) && |y| > 0 {
      var r := ReplaceAll(y[1..], w, wrapped);
      assert ReplaceAll(y, w, wrapped) == [y[0]] + r;
      TaggedPrefix(y[1..], w, wrapped, p[1..]);
      PrefixCons(p, y[0], r);
      PrefixCons(p, y[0], y[1..]);
      assert y == [y[0]] + y[1..];
    }
  }

  /** Where an instance could start inside `<x>` after the `<`: it would be a piece of `x` or hold the `>`. */
  lemma PrefixInside(x: string, inner: string, off: nat, w: string, rest: string, i: nat)
    requires off <= |inner| && x == inner[off..]
    requires 1 <= i < |x| + 2 && |w| > 0
    ensures IsPrefix(w, ("<" + x + ">")[i..] + rest) ==> Contains(inner, w) || '>' in w
  {
    var m := "<" + x + ">";
    var s := m[i..] + rest;
    if IsPrefix(w, s) {
      if i + |w| <= |x| + 1 {
        forall k | 0 <= k < |w| ensures w[k] == inner[off + i - 1 + k] {
          assert w[k] == s[k] == m[i + k] == x[i - 1 + k];
        }
        assert w == inner[off + i - 1..off + i - 1 + |w|];
        ContainsAt(inner, w, off + i - 1);
      } else {
        var k := |x| + 1 - i;
        assert w[k] == s[k] == m[|x| + 1] == '>';
      }
    }
  }

  /** A safe instance starts nowhere inside `<x>` (x a suffix of `inner`) after the `<`. */
  lemma NotInside(x: string, inner: string, off: nat, w: string, rest: string, i: nat)
    requires off <= |inner| && x == inner[off..]
    requires SafeFor(w, inner) && |w| > 0
    requires 1 <= i < |x| + 2
    ensures !IsPrefix(w, ("<" + x + ">")[i..] + rest)
  {
    PrefixInside(x, inner, off, w, rest, i);
  }

  /** Tagging steps over a marker `<x>` the instance does not start at. */
  lemma {:induction false} TagSkips(x: string, inner: string, off: nat, w: string, wrapped: string, rest: string, i: nat)
    requires off <= |inner| && x == inner[off..]
    requires SafeFor(w, inner) && |w| > 0
    requires 0 <= i <= |x| + 2
    requires i == 0 ==> !IsPrefix(w, ("<" + x + ">") + rest)
    ensures ReplaceAll(("<" + x + ">")[i..] + rest, w, wrapped) == ("<" + x + ">")[i..] + ReplaceAll(rest, w, wrapped)
    decreases |x| + 2 - i
  {
    var m := "<" + x + ">";
    if i < |m| {
      var y := m[i + 1..] + rest;
      assert m[i..] == [m[i]] + m[i + 1..];
      Assoc([m[i]], m[i + 1..], rest);
      if i > 0 {
        NotInside(x, inner, off, w, rest, i);
      } else {
        assert m[0..] == m;
      }
      ReplaceMiss(m[i], y, w, wrapped);
      TagSkips(x, inner, off, w, wrapped, rest, i + 1);
      Assoc([m[i]], m[i + 1..], ReplaceAll(rest, w, wrapped));
    } else {
      assert m[i..] + rest == rest;
    }
  }

  /** Stripping the markers undoes one tagging step with a safe instance, whatever the text. */
  lemma {:induction false} StripTagStep(s: string, w: string, o: string, c: string, inner: string)
    requires MarkerPair(o, c, inner) && SafeFor(w, inner)
    ensures Strip(ReplaceAll(s, w, o + w + c), o, c) == Strip(s, o, c)
    decreases |s|
  {
    if |w| == 0 {
    } else if IsPrefix(w, s) {
      StripWrapStep(s, w, o, c, inner);
    } else if |s| == 0 {
    } else if IsPrefix(o, s) {
      StripMarkerStep(s, w, o, c, inner, inner[1..], 1);
    } else if IsPrefix(c, s) {
      StripMarkerStep(s, w, o, c, inner, inner, 0);
    } else {
      StripOther(s, w, o, c, inner);
    }
  }

  /** The step of `StripTagStep` for a text that starts with the instance. */
  lemma StripWrapStep(s: string, w: string, o: string, c: string, inner: string)
    requires MarkerPair(o, c, inner) && SafeFor(w, inner) && |w| > 0 && IsPrefix(w, s)
    ensures Strip(ReplaceAll(s, w, o + w + c), o, c) == Strip(s, o, c)
    decreases |s|, 0
  {
    var rest := s[|w|..];
    var tr := ReplaceAll(rest, w, o + w + c);
    StripTagStep(rest, w, o, c, inner);
    assert ReplaceAll(s, w, o + w + c) == (o + w + c) + tr;
    StripWrapped(w, tr, o, c, inner);
    assert s == w + rest;
    StripPlain(w, rest, o, c, inner);
  }

  /** A wrapped instance loses its markers and keeps its text. */
  lemma StripWrapped(w: string, tr: string, o: string, c: string, inner: string)
    requires MarkerPair(o, c, inner) && '<' !in w
    ensures Strip((o + w + c) + tr, o, c) == w + Strip(tr, o, c)
  {
    assert (o + w + c) + tr == o + (w + (c + tr));
    StripOpen(w + (c + tr), o, c, inner);
    StripPlain(w, c + tr, o, c, inner);
    StripClose(tr, o, c, inner);
  }

  /** The step of `StripTagStep` for a text that starts with a marker `<x>`. */
  lemma StripMarkerStep(s: string, w: string, o: string, c: string, inner: string, x: string, off: nat)
    requires MarkerPair(o, c, inner) && SafeFor(w, inner) && |w| > 0
    requires off <= |inner| && x == inner[off..] && (x == inner[1..] || x == inner)
    requires !IsPrefix(w, s) && IsPrefix("<" + x + ">", s)
    requires x == inner ==> !IsPrefix(o, s)
    ensures Strip(ReplaceAll(s, w, o + w + c), o, c) == Strip(s, o, c)
    decreases |s|, 0
  {
    var m := "<" + x + ">";
    var wrapped := o + w + c;
    var rest := s[|m|..];
    assert s == m + rest;
    TagSkips(x, inner, off, w, wrapped, rest, 0);
    assert m[0..] == m;
    StripTagStep(rest, w, o, c, inner);
    if x == inner[1..] {
      assert m == o;
      StripOpen(ReplaceAll(rest, w, wrapped), o, c, inner);
      StripOpen(rest, o, c, inner);
    } else {
      assert m == c;
      StripClose(ReplaceAll(rest, w, wrapped), o, c, inner);
      StripClose(rest, o, c, inner);
    }
  }

  /** The step of `StripTagStep` for a text that starts with neither the instance nor a marker. */
  lemma StripOther(s: string, w: string, o: string, c: string, inner: string)
    requires MarkerPair(o, c, inner) && SafeFor(w, inner) && |w| > 0
    requires |s| > 0 && !IsPrefix(w, s) && !IsPrefix(o, s) && !IsPrefix(c, s)
    ensures Strip(ReplaceAll(s, w, o + w + c), o, c) == Strip(s, o, c)
    decreases |s|, 0
  {
    var wrapped := o + w + c;
    var r := ReplaceAll(s[1..], w, wrapped);
    var t := [s[0]] + r;
    assert ReplaceAll(s, w, wrapped) == t;
    StripTagStep(s[1..], w, o, c, inner);
    StripChar(s, o, c);
    OtherStartKept(s, w, o, c, inner);
    StripChar(t, o, c);
    assert t[1..] == r;
  }

  /** Tagging the rest of a text that starts with no marker leaves it starting with no marker. */
  lemma OtherStartKept(s: string, w: string, o: string, c: string, inner: string)
    requires MarkerPair(o, c, inner) && |w| > 0
    requires |s| > 0 && !IsPrefix(o, s) && !IsPrefix(c, s)
    ensures
      var t := [s[0]] + ReplaceAll(s[1..], w, o + w + c);
      !IsPrefix(o, t) && !IsPrefix(c, t)
  {
    var wrapped := o + w + c;
    var t := [s[0]] + ReplaceAll(s[1..], w, wrapped);
    if s[0] == '<' {
      assert wrapped[0] == '<';
      NoMarkerAfterTag(s, w, wrapped, o);
      NoMarkerAfterTag(s, w, wrapped, c);
    } else {
      NotPrefixAt(o, t, 0);
      NotPrefixAt(c, t, 0);
    }
  }

  /** `Strip` keeps a first character that starts no marker. */
  lemma StripChar(s: string, o: string, c: string)
    requires |s| > 0 && !IsPrefix(o, s) && !IsPrefix(c, s)
    ensures Strip(s, o, c) == [s[0]] + Strip(s[1..], o, c)
  {
  }

  /** A string differing from `m` at a position both have does not start with `m`. */
  lemma NotPrefixAt(m: string, s: string, k: nat)
    requires k < |m| && k < |s| && m[k] != s[k]
    ensures !IsPrefix(m, s)
  {
    assert k < |m| <= |s| ==> s[..|m|][k] == s[k];
  }

  /** Tagging the rest of a text cannot complete a marker that the text itself does not start with. */
  lemma NoMarkerAfterTag(s: string, w: string, wrapped: string, m: string)
    requires |s| > 0 && |w| > 0 && |wrapped| > 0 && wrapped[0] == '<'
    requires |m| > 0 && '<' !in m[1..] && !IsPrefix(m, s)
    ensures !IsPrefix(m, [s[0]] + ReplaceAll(s[1..], w, wrapped))
  {
    var r := ReplaceAll(s[1..], w, wrapped);
    TaggedPrefix(s[1..], w, wrapped, m[1..]);
    PrefixCons(m, s[0], r);
    PrefixCons(m, s[0], s[1..]);
    assert s == [s[0]] + s[1..];
  }

  // ---------------------------------------------------------------------------
  // removeIgnoredTags
  // ---------------------------------------------------------------------------

  /** `removeIgnoredTags`: every `<fluency-ignore>` and `</fluency-ignore>` is deleted, in one left-to-right pass. */
  function Remove(t: string): (r: string)
    ensures |r| <= |t|
  {
    Strip(t, Open, Close)
  }

  /** The markers themselves are what disappears. */
  lemma RemoveMarkers(y: string)
    ensures Remove(Open + y) == Remove(y)
    ensures Remove(Close + y) == Remove(y)
  {
    FluencyMarkers();
    StripOpen(y, Open, Close, "/" + TagName);
    StripClose(y, Open, Close, "/" + TagName);
  }

  /** Text before the next `<` survives unchanged and in order. */
  lemma RemoveKeeps(x: string, y: string)
    requires '<' !in x
    ensures Remove(x + y) == x + Remove(y)
  {
    FluencyMarkers();
    StripPlain(x, y, Open, Close, "/" + TagName);
  }

  /** Text without `<` is returned unchanged. */
  lemma RemoveNoAngle(t: string)
    requires '<' !in t
    ensures Remove(t) == t
  {
    RemoveKeeps(t, "");
    assert t + "" == t;
  }

  /** Text without markers is returned unchanged. */
  lemma RemoveNoMarker(t: string)
    requires NoMarker(t)
    ensures Remove(t) == t
  {
    StripAbsent(t, Open, Close);
  }

  lemma {:induction false} StripAbsent(t: string, o: string, c: string)
    requires |o| > 0 && |c| > 0 && !Contains(t, o) && !Contains(t, c)
    ensures Strip(t, o, c) == t
    decreases |t|
  {
    if |t| > 0 {
      StripAbsent(t[1..], o, c);
      assert t == [t[0]] + t[1..];
    }
  }

  // ---------------------------------------------------------------------------
  // Tagging the found instances
  // ---------------------------------------------------------------------------

  /** One round of the replacement loop: `str_replace($instance, "<fluency-ignore>{$instance}</fluency-ignore>", $text)`. */
  function TagInstance(t: string, w: string): string {
    ReplaceAll(t, w, Wrap(w))
  }

  /** The replacement loop over all found instances, each applied to the text the previous rounds produced. */
  function TagAll(t: string, instances: seq<string>): string
    decreases |instances|
  {
    if |instances| == 0 then t else TagAll(TagInstance(t, instances[0]), instances[1..])
  }

  /** A round puts the wrapped instance between the pieces the text splits into at the instance. */
  lemma TagInstanceSplits(t: string, w: string)
    requires |w| > 0
    ensures TagInstance(t, w) == Join(Split(t, w), Open + w + Close)
    ensures !Contains(t, w) ==> TagInstance(t, w) == t
  {
    ReplaceAllIsJoinSplit(t, w, Wrap(w));
    if !Contains(t, w) {
      ReplaceAllAbsent(t, w, Wrap(w));
    }
  }

  /** An instance the markers can be removed from again: empty, or without angle brackets and not a piece of `/fluency-ignore`. */
  predicate InstanceSafe(w: string) {
    SafeFor(w, "/" + TagName)
  }

  /** Removing the markers undoes a round with a safe instance, whatever the text holds already. */
  lemma RemoveTagInstance(t: string, w: string)
    requires InstanceSafe(w)
    ensures Remove(TagInstance(t, w)) == Remove(t)
  {
    FluencyMarkers();
    StripTagStep(t, w, Open, Close, "/" + TagName);
  }

  lemma {:induction false} RemoveTagAll(t: string, instances: seq<string>)
    requires forall i :: 0 <= i < |instances| ==> InstanceSafe(instances[i])
    ensures Remove(TagAll(t, instances)) == Remove(t)
    decreases |instances|
  {
    if |instances| > 0 {
      RemoveTagAll(TagInstance(t, instances[0]), instances[1..]);
      RemoveTagInstance(t, instances[0]);
    }
  }

  /** Tagging only empty instances (what an empty phrase finds) changes nothing. */
  lemma {:induction false} TagAllEmpty(t: string, instances: seq<string>)
    requires forall i :: 0 <= i < |instances| ==> instances[i] == ""
    ensures TagAll(t, instances) == t
    decreases |instances|
  {
    if |instances| > 0 {
      TagAllEmpty(t, instances[1..]);
    }
  }

  // ---------------------------------------------------------------------------
  // Finding the instances
  // ---------------------------------------------------------------------------

  /** The outcome of `preg_match_all` for one phrase. */
  datatype PhraseSearch =
    | Matched(ms: seq<string>)  // the pattern compiled; `$matches[0]`
    | Rejected                  // the pattern does not compile: `false`, `$matches` untouched
    | Unmodelled                // the pattern uses regular-expression operators

  /** What follows the opening `/` of the phrase's pattern: `preg_quote($str) . '/i'` in the engine, `$str . '/i'` in the older client. */
  function PatternOf(p: string, quoted: bool): string {
    (if quoted then Quote(p) else p) + "/i"
  }

  function SearchPhrase(t: string, p: string, quoted: bool): PhraseSearch {
    match CompileSlashed(PatternOf(p, quoted))
    case CaseInsensitiveLiteral(w) => Matched(FindAll(t, w))
    case CompileError => Rejected
    case NotModelled => Unmodelled
  }

  /** The engine's search finds the phrase itself, in any casing, unless the phrase holds the delimiter. */
  lemma SearchQuoted(t: string, p: string)
    ensures '/' !in p ==> SearchPhrase(t, p, true) == Matched(FindAll(t, p))
    ensures '/' in p ==> SearchPhrase(t, p, true) == Rejected
  {
    QuotedPattern(p);
  }

  /** For a plain phrase the older client's unescaped pattern searches exactly what the engine's escaped one does. */
  lemma SearchPlain(t: string, p: string)
    requires Plain(p)
    ensures SearchPhrase(t, p, false) == SearchPhrase(t, p, true) == Matched(FindAll(t, p))
  {
    PlainPattern(p);
    SearchQuoted(t, p);
  }

  /** The outcome of the search loop. */
  datatype Collected =
    | Found(found: seq<string>)  // `$instancesFound`
    | MergeTypeError             // `array_merge` was given `null`
    | OutsideModel               // some pattern used regular-expression operators

  /**
   * The search loop from the phrase `ps[0]` on, with the instances found so
   * far and the `$matches[0]` the previous call left behind (`None` before
   * any call succeeded).
   */
  function Collect(t: string, ps: seq<string>, quoted: bool, found: seq<string>, last: Option<seq<string>>): Collected
    decreases |ps|
  {
    if |ps| == 0 then Found(found)
    else match SearchPhrase(t, ps[0], quoted)
      case Matched(ms) => Collect(t, ps[1..], quoted, found + ms, Some(ms))
      case Unmodelled => OutsideModel
      case Rejected =>
        match last
        case None => MergeTypeError
        case Some(ms) => Collect(t, ps[1..], quoted, found + ms, last)
  }

  /** The result of `addIgnoredTags`. */
  datatype TagOutcome =
    | Tagged(text: string)  // the returned text
    | Failed                // the call ends in a `TypeError`
    | Undetermined          // a phrase uses regular-expression operators, which this model does not interpret

  /** `addIgnoredTags($text, $ignoredStrings)`, escaping the phrases with `preg_quote` when `quoted` holds. */
  function AddIgnoredTags(t: string, ps: seq<string>, quoted: bool): TagOutcome {
    match Collect(t, ps, quoted, [], None)
    case Found(instances) => Tagged(TagAll(t, instances))
    case MergeTypeError => Failed
    case OutsideModel => Undetermined
  }

  /** With no phrases the text comes back unchanged. */
  lemma AddNoPhrases(t: string, quoted: bool)
    ensures AddIgnoredTags(t, [], quoted) == Tagged(t)
  {
  }

  /** The engine interprets every phrase: its outcome is never left undetermined. */
  lemma AddQuotedDetermined(t: string, ps: seq<string>)
    ensures AddIgnoredTags(t, ps, true) != Undetermined
  {
    CollectQuoted(t, ps, [], None);
  }

  lemma {:induction false} CollectQuoted(t: string, ps: seq<string>, found: seq<string>, last: Option<seq<string>>)
    ensures Collect(t, ps, true, found, last) != OutsideModel
    decreases |ps|
  {
    if |ps| > 0 {
      SearchQuoted(t, ps[0]);
      if '/' in ps[0] {
        if last.Some? {
          CollectQuoted(t, ps[1..], found + last.value, last);
        }
      } else {
        CollectQuoted(t, ps[1..], found + FindAll(t, ps[0]), Some(FindAll(t, ps[0])));
      }
    }
  }

  /** A `/` in the first phrase makes the engine's pattern invalid, and the merge with the unset `$matches` fails. */
  lemma AddSlashFirst(t: string, ps: seq<string>)
    requires |ps| > 0 && '/' in ps[0]
    ensures AddIgnoredTags(t, ps, true) == Failed
  {
    SearchQuoted(t, ps[0]);
  }

  /** Every instance is spelt like some phrase, up to case, and occurs in the text. */
  predicate FromPhrases(ms: seq<string>, t: string, ps: seq<string>) {
    forall m :: m in ms ==> Contains(t, m) && exists p :: p in ps && CiEq(m, p)
  }

  lemma {:induction false} CollectFrom(t: string, ps: seq<string>, all: seq<string>, found: seq<string>, last: Option<seq<string>>)
    requires forall p :: p in ps ==> p in all
    requires FromPhrases(found, t, all)
    requires last.Some? ==> FromPhrases(last.value, t, all)
    ensures Collect(t, ps, true, found, last).Found? ==> FromPhrases(Collect(t, ps, true, found, last).found, t, all)
    decreases |ps|
  {
    if |ps| > 0 {
      SearchQuoted(t, ps[0]);
      assert ps[0] in all;
      if '/' in ps[0] {
        if last.Some? {
          CollectFrom(t, ps[1..], all, found + last.value, last);
        }
      } else {
        var ms := FindAll(t, ps[0]);
        assert FromPhrases(ms, t, all) by {
          forall m | m in ms ensures Contains(t, m) && exists p :: p in all && CiEq(m, p) {
            assert CiEq(m, ps[0]);
          }
        }
        CollectFrom(t, ps[1..], all, found + ms, Some(ms));
      }
    }
  }

  /** The engine finds its instances among the phrases' occurrences in the text. */
  lemma AddInstancesFromPhrases(t: string, ps: seq<string>)
    ensures Collect(t, ps, true, [], None).Found? ==> FromPhrases(Collect(t, ps, true, [], None).found, t, ps)
  {
    CollectFrom(t, ps, ps, [], None);
  }

  /** Tagging with no phrase found leaves the text as it was. */
  ghost predicate NotFound(t: string, p: string) {
    p == "" || forall i: nat :: !CiOccursAt(t, p, i)
  }

  /** An instance found for a phrase that has no occurrence can only be the empty match of an empty phrase. */
  lemma EmptyInstance(t: string, m: string, p: string)
    requires Contains(t, m) && CiEq(m, p) && NotFound(t, p)
    ensures m == ""
  {
    OccurrenceOfInstance(t, m, p);
  }

  lemma OccurrenceOfInstance(t: string, m: string, p: string)
    requires Contains(t, m) && CiEq(m, p)
    ensures exists i: nat :: CiOccursAt(t, p, i)
  {
    var i := ContainsWitness(t, m);
    assert CiOccursAt(t, p, i);
  }

  lemma {:induction false} CollectSlashFree(t: string, ps: seq<string>, found: seq<string>, last: Option<seq<string>>)
    requires forall j :: 0 <= j < |ps| ==> '/' !in ps[j]
    ensures Collect(t, ps, true, found, last).Found?
    decreases |ps|
  {
    if |ps| > 0 {
      SearchQuoted(t, ps[0]);
      var ms := FindAll(t, ps[0]);
      CollectSlashFree(t, ps[1..], found + ms, Some(ms));
    }
  }

  /** When no phrase occurs in the text, in any casing, the text comes back unchanged. */
  lemma AddNoMatch(t: string, ps: seq<string>)
    requires forall j :: 0 <= j < |ps| ==> '/' !in ps[j] && NotFound(t, ps[j])
    ensures AddIgnoredTags(t, ps, true) == Tagged(t)
  {
    CollectSlashFree(t, ps, [], None);
    AddInstancesFromPhrases(t, ps);
    var instances := Collect(t, ps, true, [], None).found;
    forall i | 0 <= i < |instances| ensures instances[i] == "" {
      var m := instances[i];
      assert m in instances;
      var p :| p in ps && CiEq(m, p);
      EmptyInstance(t, m, p);
    }
    TagAllEmpty(t, instances);
  }

  /** `/fluency-ignore`, the tag name with the closing slash; it holds no upper-case letter. */
  const Inner: string := "/" + TagName

  lemma InnerIsLower()
    ensures LowerString(Inner) == Inner
  {
    forall i | 0 <= i < |Inner| ensures LowerString(Inner)[i] == Inner[i] {
      assert !('A' <= Inner[i] <= 'Z');
    }
  }

  /**
   * A phrase the engine tags reversibly: it holds no `/` (the delimiter), and
   * it is empty or holds no angle bracket and is, in lower case, no piece of
   * `/fluency-ignore`.
   */
  predicate PhraseSafe(p: string) {
    '/' !in p && (p == "" || ('<' !in p && '>' !in p && !Contains(Inner, LowerString(p))))
  }

  /** Every casing of a safe phrase is a safe instance. */
  lemma InstanceOfSafePhrase(m: string, p: string)
    requires CiEq(m, p) && PhraseSafe(p)
    ensures InstanceSafe(m)
  {
    if p != "" {
      LowerKeepsAngles(m);
      LowerKeepsAngles(p);
      ContainsLower(Inner, m);
      InnerIsLower();
    }
  }

  /**
   * Removing the markers from what the engine's `addIgnoredTags` returns
   * gives the original text back, when the text holds no marker and every
   * phrase is safe; repeated instances nest markers and still come out.
   */
  lemma RoundTrip(t: string, ps: seq<string>)
    requires NoMarker(t)
    requires forall j :: 0 <= j < |ps| ==> PhraseSafe(ps[j])
    ensures AddIgnoredTags(t, ps, true).Tagged?
    ensures Remove(AddIgnoredTags(t, ps, true).text) == t
  {
    CollectSlashFree(t, ps, [], None);
    AddInstancesFromPhrases(t, ps);
    var instances := Collect(t, ps, true, [], None).found;
    forall i | 0 <= i < |instances| ensures InstanceSafe(instances[i]) {
      var m := instances[i];
      assert m in instances;
      var p :| p in ps && CiEq(m, p);
      InstanceOfSafePhrase(m, p);
    }
    RemoveTagAll(t, instances);
    RemoveNoMarker(t);
  }

  lemma {:induction false} CollectPlain(t: string, ps: seq<string>, found: seq<string>, last: Option<seq<string>>)
    requires forall j :: 0 <= j < |ps| ==> Plain(ps[j])
    ensures Collect(t, ps, false, found, last) == Collect(t, ps, true, found, last)
    decreases |ps|
  {
    if |ps| > 0 {
      SearchPlain(t, ps[0]);
      var ms := FindAll(t, ps[0]);
      CollectPlain(t, ps[1..], found + ms, Some(ms));
    }
  }

  /** For plain phrases the older client's unescaped patterns tag exactly as the engine does. */
  lemma LegacyAgreesOnPlain(t: string, ps: seq<string>)
    requires forall j :: 0 <= j < |ps| ==> Plain(ps[j])
    ensures AddIgnoredTags(t, ps, false) == AddIgnoredTags(t, ps, true)
  {
    CollectPlain(t, ps, [], None);
  }

  // ---------------------------------------------------------------------------
  // A phrase inside the tag name
  // ---------------------------------------------------------------------------

  /**
   * `ignore` is a piece of the tag name, so it is not a safe phrase. In the
   * text `ignore ignore` it is found twice; the second round rewrites the
   * markers the first round added, and removing the markers afterwards
   * leaves one pair of markers around each occurrence.
   */
  lemma DoubledInstanceLeavesMarkers()
    ensures !PhraseSafe("ignore")
    ensures AddIgnoredTags("ignore ignore", ["ignore"], true) == Tagged(TagAll("ignore ignore", ["ignore", "ignore"]))
    ensures Remove(TagAll("ignore ignore", ["ignore", "ignore"])) == Wrap("ignore") + " " + Wrap("ignore")
  {
    var w := "ignore";
    IgnoreUnsafe();
    assert w + " " + w == "ignore ignore";
    AddFindsTwice(w);
    MarkerParts();
    TagTwice(w);
    FluencyMarkers();
    assert '<' !in w;
    StripTwice(OpenStart, ">", CloseStart, w, Open, Close, "/" + TagName);
  }

  lemma IgnoreUnsafe()
    ensures !PhraseSafe("ignore")
  {
    assert Inner[9..15] == LowerString("ignore");
    ContainsAt(Inner, LowerString("ignore"), 9);
  }

  /** A phrase in a text that holds it twice, separated by a space, is found twice and both instances are tagged. */
  lemma AddFindsTwice(w: string)
    requires |w| > 0 && '/' !in w && Lower(w[0]) != ' '
    ensures AddIgnoredTags(w + " " + w, [w], true) == Tagged(TagAll(w + " " + w, [w, w]))
  {
    var t := w + " " + w;
    FindTwice(w);
    CollectOne(t, w);
  }

  /** One phrase without `/`: its matches are the instances. */
  lemma CollectOne(t: string, p: string)
    requires '/' !in p
    ensures Collect(t, [p], true, [], None) == Found(FindAll(t, p))
  {
    SearchQuoted(t, p);
    var ms := FindAll(t, p);
    assert [p][0] == p && [p][1..] == [];
    CollectMatched(t, [p], true, [], None, ms);
    assert [] + ms == ms;
    assert Collect(t, [], true, ms, Some(ms)) == Found(ms);
  }

  /** A phrase that matches adds its matches and becomes the last result. */
  lemma CollectMatched(t: string, ps: seq<string>, quoted: bool, found: seq<string>, last: Option<seq<string>>, ms: seq<string>)
    requires |ps| > 0 && SearchPhrase(t, ps[0], quoted) == Matched(ms)
    ensures Collect(t, ps, quoted, found, last) == Collect(t, ps[1..], quoted, found + ms, Some(ms))
  {
  }

  lemma FindTwice(w: string)
    requires |w| > 0 && Lower(w[0]) != ' '
    ensures FindAll(w + " " + w, w) == [w, w]
  {
    Assoc(w, " ", w);
    FindHead(w, " " + w);
    FindAfterSpace(w);
    FindHead(w, "");
    assert w + "" == w;
    assert FindAll("", w) == [];
  }

  /** A text that starts with the phrase yields it as its first match. */
  lemma FindHead(w: string, y: string)
    requires |w| > 0
    ensures FindAll(w + y, w) == [w] + FindAll(y, w)
  {
    var t := w + y;
    assert t[..|w|] == w && t[|w|..] == y;
  }

  lemma FindAfterSpace(w: string)
    requires |w| > 0 && Lower(w[0]) != ' '
    ensures FindAll(" " + w, w) == FindAll(w, w)
  {
    var u := " " + w;
    assert LowerString(u[..|w|])[0] == ' ';
    assert !CiEq(u[..|w|], w);
    assert u[1..] == w;
  }

  const OpenStart: string := "<fluency-"
  const CloseStart: string := "</fluency-"

  /** The markers end with `ignore>`, and where `<fluency-` and `</fluency-` end the markers go on with a letter. */
  lemma MarkerParts()
    ensures Open == OpenStart + "ignore" + ">" && Close == CloseStart + "ignore" + ">"
    ensures OpenStart[0] == '<' && '<' !in OpenStart[1..] && CloseStart[0] == '<' && '<' !in CloseStart[1..]
    ensures 'i' !in OpenStart && 'i' !in CloseStart
    ensures |OpenStart| < |Open| && Open[|OpenStart|] != '<' && Close[|OpenStart|] != '<'
    ensures |CloseStart| < |Open| && Open[|CloseStart|] != '<' && Close[|CloseStart|] != '<'
  {
  }

  /** Both tagging rounds for the text `w w`, with markers `a w b` and `d w b`. */
  lemma TagTwice(w: string)
    requires |w| > 0 && w[0] != ' ' && Open == OpenStart + w + ">" && Close == CloseStart + w + ">"
    requires w[0] !in OpenStart && w[0] !in CloseStart && w[0] != '>'
    ensures TagAll(w + " " + w, [w, w]) == Spread(OpenStart, ">", CloseStart, w) + " " + Spread(OpenStart, ">", CloseStart, w)
  {
    var W := Wrap(w);
    WrapSeven(OpenStart, ">", CloseStart, w, Open, Close);
    var t := w + " " + w;
    TagTwiceFirst(w, W);
    TagTwiceSecond(OpenStart, ">", CloseStart, w, W);
    var t1 := TagInstance(t, w);
    var t2 := TagInstance(t1, w);
    assert [w, w][1..] == [w] && [w][1..] == [];
    assert TagAll(t1, [w]) == TagAll(t2, []) == t2;
  }

  /** The first round wraps both occurrences. */
  lemma TagTwiceFirst(w: string, W: string)
    requires |w| > 0 && w[0] != ' '
    ensures ReplaceAll(w + " " + w, w, W) == W + " " + W
  {
    Assoc(w, " ", w);
    ReplaceHit(" " + w, w, W);
    ReplaceSkip(" ", w, w, W);
    ReplaceWhole(w, W);
    Assoc(W, " ", W);
  }

  /** A text that is exactly the instance is replaced as a whole. */
  lemma ReplaceWhole(w: string, W: string)
    requires |w| > 0
    ensures ReplaceAll(w, w, W) == W
  {
    ReplaceHit("", w, W);
    assert w + "" == w;
    assert ReplaceAll("", w, W) == "";
    assert W + "" == W;
  }

  /** What the second round makes of `a w b w d w b`: every `w` in it wrapped again. */
  function Spread(a: string, b: string, d: string, w: string): string {
    var W := a + w + b + w + d + w + b;
    a + W + b + W + d + W + b
  }

  /** The second round wraps the occurrence and the two in the markers, on both copies. */
  lemma TagTwiceSecond(a: string, b: string, d: string, w: string, W: string)
    requires W == a + w + b + w + d + w + b
    requires |w| > 0 && w[0] !in a && w[0] !in b && w[0] !in d && w[0] != ' '
    ensures ReplaceAll(W + " " + W, w, W) == Spread(a, b, d, w) + " " + Spread(a, b, d, w)
  {
    var S := Spread(a, b, d, w);
    Assoc(W, " ", W);
    TagWrapped(a, b, d, w, W, " " + W);
    ReplaceSkip(" ", W, w, W);
    TagWrappedAlone(a, b, d, w, W);
    Assoc(S, " ", S);
  }

  lemma TagWrappedAlone(a: string, b: string, d: string, w: string, W: string)
    requires W == a + w + b + w + d + w + b
    requires |w| > 0 && w[0] !in a && w[0] !in b && w[0] !in d
    ensures ReplaceAll(W, w, W) == Spread(a, b, d, w)
  {
    TagWrapped(a, b, d, w, W, "");
    assert W + "" == W;
    assert ReplaceAll("", w, W) == "";
    assert Spread(a, b, d, w) + "" == Spread(a, b, d, w);
  }

  lemma TagWrapped(a: string, b: string, d: string, w: string, W: string, y: string)
    requires W == a + w + b + w + d + w + b
    requires |w| > 0 && w[0] !in a && w[0] !in b && w[0] !in d
    ensures ReplaceAll(W + y, w, W) == Spread(a, b, d, w) + ReplaceAll(y, w, W)
  {
    var y6 := b + y;
    var y5 := w + y6;
    var y4 := d + y5;
    var y3 := w + y4;
    var y2 := b + y3;
    var y1 := w + y2;
    Regroup7(a, w, b, w, d, w, b, y);
    ReplaceSkip(b, y, w, W);
    ReplaceHit(y6, w, W);
    ReplaceSkip(d, y5, w, W);
    ReplaceHit(y4, w, W);
    ReplaceSkip(b, y3, w, W);
    ReplaceHit(y2, w, W);
    ReplaceSkip(a, y1, w, W);
    Regroup7(a, W, b, W, d, W, b, ReplaceAll(y, w, W));
  }

  /** `x1 + … + x7 + y`, grouped to the right. */
  lemma Regroup7(x1: string, x2: string, x3: string, x4: string, x5: string, x6: string, x7: string, y: string)
    ensures x1 + x2 + x3 + x4 + x5 + x6 + x7 + y == x1 + (x2 + (x3 + (x4 + (x5 + (x6 + (x7 + y))))))
  {
    Assoc(x1 + x2 + x3 + x4 + x5 + x6, x7, y);
    Assoc(x1 + x2 + x3 + x4 + x5, x6, x7 + y);
    Assoc(x1 + x2 + x3 + x4, x5, x6 + (x7 + y));
    Assoc(x1 + x2 + x3, x4, x5 + (x6 + (x7 + y)));
    Assoc(x1 + x2, x3, x4 + (x5 + (x6 + (x7 + y))));
    Assoc(x1, x2, x3 + (x4 + (x5 + (x6 + (x7 + y)))));
  }

  /** Removing the markers from the doubly tagged text keeps the markers the second round split apart. */
  lemma StripTwice(a: string, b: string, d: string, w: string, o: string, c: string, inner: string)
    requires MarkerPair(o, c, inner) && o == a + w + b && c == d + w + b
    requires '<' !in w && '<' !in b
    requires |a| > 0 && a[0] == '<' && '<' !in a[1..] && |a| < |o| && o[|a|] != '<' && c[|a|] != '<'
    requires |d| > 0 && d[0] == '<' && '<' !in d[1..] && |d| < |o| && o[|d|] != '<' && c[|d|] != '<'
    ensures Strip(Spread(a, b, d, w) + " " + Spread(a, b, d, w), o, c) == (o + w + c) + " " + (o + w + c)
  {
    var S := Spread(a, b, d, w);
    var W := o + w + c;
    StripSpread(a, b, d, w, o, c, inner, " " + S);
    StripPlain(" ", S, o, c, inner);
    StripSpread(a, b, d, w, o, c, inner, "");
    assert S + "" == S;
    assert Strip("", o, c) == "";
    assert W + "" == W;
    assert Strip(S, o, c) == W;
    Assoc(S, " ", S);
    Assoc(W, " ", W);
  }

  /** Stripping a spread wrapping leaves the markers of the first round: `Strip(Spread + y) == o + w + c + Strip(y)`. */
  lemma StripSpread(a: string, b: string, d: string, w: string, o: string, c: string, inner: string, y: string)
    requires MarkerPair(o, c, inner) && o == a + w + b && c == d + w + b
    requires '<' !in w && '<' !in b
    requires |a| > 0 && a[0] == '<' && '<' !in a[1..] && |a| < |o| && o[|a|] != '<' && c[|a|] != '<'
    requires |d| > 0 && d[0] == '<' && '<' !in d[1..] && |d| < |o| && o[|d|] != '<' && c[|d|] != '<'
    ensures Strip(Spread(a, b, d, w) + y, o, c) == o + w + c + Strip(y, o, c)
  {
    var W := o + w + c;
    var y3 := b + y;
    var y2 := d + (W + y3);
    var y1 := b + (W + y2);
    Regroup7(a, W, b, W, d, W, b, y);
    StripStartWrapped(a, w, y1, o, c, inner);
    StripPlainWrapped(b, w, y2, o, c, inner);
    StripStartWrapped(d, w, y3, o, c, inner);
    StripPlain(b, y, o, c, inner);
    Regroup7(a, w, b, w, d, w, b, Strip(y, o, c));
    WrapSeven(a, b, d, w, o, c);
  }

  lemma WrapSeven(a: string, b: string, d: string, w: string, o: string, c: string)
    requires o == a + w + b && c == d + w + b
    ensures o + w + c == a + w + b + w + d + w + b
  {
    Assoc(o + w, d + w, b);
    Assoc(o + w, d, w);
  }

  lemma StripPlainWrapped(x: string, w: string, y: string, o: string, c: string, inner: string)
    requires MarkerPair(o, c, inner) && '<' !in x && '<' !in w
    ensures Strip(x + ((o + w + c) + y), o, c) == x + (w + Strip(y, o, c))
  {
    StripPlain(x, (o + w + c) + y, o, c, inner);
    StripWrapped(w, y, o, c, inner);
  }

  lemma StripStartWrapped(x: string, w: string, y: string, o: string, c: string, inner: string)
    requires MarkerPair(o, c, inner) && '<' !in w
    requires |x| > 0 && x[0] == '<' && '<' !in x[1..] && |x| < |o| && o[|x|] != '<' && c[|x|] != '<'
    ensures Strip(x + ((o + w + c) + y), o, c) == x + (w + Strip(y, o, c))
  {
    var W := o + w + c;
    assert IsPrefix(o, W + y) by {
      Assoc(o, w + c, y);
      assert W == o + (w + c);
    }
    StripSkipsStart(x, W + y, o, c, inner);
    StripWrapped(w, y, o, c, inner);
  }

  /** The start `x` of a marker, followed by a whole opening marker, is kept: the markers go on with a letter where the `<` follows. */
  lemma StripSkipsStart(x: string, y: string, o: string, c: string, inner: string)
    requires MarkerPair(o, c, inner)
    requires |x| > 0 && x[0] == '<' && '<' !in x[1..]
    requires IsPrefix(o, y) && |x| < |o| && o[|x|] != '<' && c[|x|] != '<'
    ensures Strip(x + y, o, c) == x + Strip(y, o, c)
  {
    StartNoMarker(x, y, o, c);
    StripPlain(x[1..], y, o, c, inner);
    StripKeepsHead(x, y, o, c);
  }

  /** When `x + y` starts with no marker and the rest of `x` survives stripping, all of `x` does. */
  lemma StripKeepsHead(x: string, y: string, o: string, c: string)
    requires |x| > 0 && !IsPrefix(o, x + y) && !IsPrefix(c, x + y)
    requires Strip(x[1..] + y, o, c) == x[1..] + Strip(y, o, c)
    ensures Strip(x + y, o, c) == x + Strip(y, o, c)
  {
    var z := x[1..] + y;
    assert x + y == [x[0]] + z by {
      assert x == [x[0]] + x[1..];
      Assoc([x[0]], x[1..], y);
    }
    StripChar([x[0]] + z, o, c);
    assert ([x[0]] + z)[1..] == z;
    assert x + Strip(y, o, c) == [x[0]] + (x[1..] + Strip(y, o, c)) by {
      assert x == [x[0]] + x[1..];
      Assoc([x[0]], x[1..], Strip(y, o, c));
    }
  }

  /** A text `x + y` with `y` starting by `<` at a position where both markers have another character starts with neither marker. */
  lemma StartNoMarker(x: string, y: string, o: string, c: string)
    requires |y| > 0 && y[0] == '<'
    requires |x| < |o| && |x| < |c| && o[|x|] != '<' && c[|x|] != '<'
    ensures !IsPrefix(o, x + y) && !IsPrefix(c, x + y)
  {
    assert (x + y)[|x|] == '<';
    NotPrefixAt(o, x + y, |x|);
    NotPrefixAt(c, x + y, |x|);
  }
}

=== FILE: legacy_deepl.dfy ===
/**
 * The older DeepL client (`classes/DeepL.class.php`), still loaded by the
 * configuration page. It differs from the engine in three ways: every call
 * goes to the pro host with the parameter string appended to the URL, the
 * result always carries the status message of its code, and the ignored
 * phrases are put into the pattern without `preg_quote`. The parameter
 * string, the content handling and the untagging are the engine's.
 */
module LegacyDeepL {
  import opened Outcome
  import opened PhpString
  import opened PhpArray
  import opened IgnoreTags
  import opened Pcre
  import opened HttpMessages
  import opened DeepLEngine

  /** The client keeps only the key; there is no account type. */
  datatype LegacyClient = LegacyClient(apiKey: string)

  /**
   * `apiCall`: the parameter string is appended to the pro URL and nothing
   * is posted; the output always carries `getHttpMessage` of the code.
   */
  function ApiCall(c: LegacyClient, endpoint: string, params: Entries, provider: Call -> Reply): (r: Option<Exchange>)
    ensures r.Some? <==> ParamString(params).Some?
    ensures r.Some? ==> r.value.call == Call(RequestUrl(UrlBasePro, endpoint, c.apiKey) + ParamString(params).value, None)
    ensures r.Some? ==> r.value.output.data == provider(r.value.call).data
    ensures r.Some? ==> r.value.output.httpCode == provider(r.value.call).httpCode
    ensures r.Some? ==> r.value.output.message == StatusText(LegacyMessage(r.value.output.httpCode))
  {
    match ParamString(params)
    case None => None
    case Some(body) =>
      var call := Call(RequestUrl(UrlBasePro, endpoint, c.apiKey) + body, None);
      var reply := provider(call);
      Some(Exchange(call, Output(reply.data, reply.httpCode, StatusText(LegacyMessage(reply.httpCode)))))
  }

  /** `translate` of the older client: the engine's steps, with the phrases put into the patterns unescaped. */
  function Translate(c: LegacyClient, source: string, content: Value, target: string, addParams: Entries,
                     ignored: seq<string>, provider: Call -> Reply): (r: Translated)
    ensures r.Sent? <==>
      (PrepareTexts(content, ignored, false).Ok?
       && ParamString(TranslateParams(source, target, PrepareTexts(content, ignored, false).value, addParams)).Some?)
    ensures r.Sent? ==>
      r.exchange.call == Call(RequestUrl(UrlBasePro, "/translate", c.apiKey)
                              + ParamString(TranslateParams(source, target, PrepareTexts(content, ignored, false).value, addParams)).value, None)
    ensures r.Sent? ==> r.exchange.output.message == StatusText(LegacyMessage(r.exchange.output.httpCode))
    ensures r.Sent? && (|ignored| == 0 || provider(r.exchange.call).data.translations.None?) ==>
      r.exchange.output.data == provider(r.exchange.call).data
    ensures r.Sent? && |ignored| > 0 && provider(r.exchange.call).data.translations.Some? ==>
      r.exchange.output.data.translations == Some(Untag(provider(r.exchange.call).data.translations.value))
  {
    match PrepareTexts(content, ignored, false)
    case Err(f) => NotSent(f)
    case Ok(texts) =>
      match ApiCall(c, "/translate", TranslateParams(source, target, texts, addParams), provider)
      case None => NotSent(TypeError)
      case Some(x) => Sent(Untagged(x, |ignored| > 0))
  }

  /** The same call made as a GET: the form body appended to the URL. */
  function AsGet(call: Call): Call {
    Call(call.url + (if call.postFields.Some? then call.postFields.value else ""), None)
  }

  /**
   * For phrases without regular-expression operators the older client sends
   * what the engine with a pro account sends, only as one URL: the engine's
   * URL followed by its form body. When the service answers both calls the
   * same way, both clients return the same data and code.
   */
  lemma AgreesWithProEngine(key: string, source: string, content: Value, target: string, addParams: Entries,
                            ignored: seq<string>, provider: Call -> Reply)
    requires forall j :: 0 <= j < |ignored| ==> Plain(ignored[j])
    ensures
      var legacy := Translate(LegacyClient(key), source, content, target, addParams, ignored, provider);
      var engine := DeepLEngine.Translate(Client(key, UrlBasePro), source, content, target, addParams, ignored, provider);
      (legacy.Sent? <==> engine.Sent?)
      && (legacy.Sent? ==> legacy.exchange.call == AsGet(engine.exchange.call))
      && (legacy.Sent? && provider(legacy.exchange.call) == provider(engine.exchange.call) ==>
            legacy.exchange.output.data == engine.exchange.output.data
            && legacy.exchange.output.httpCode == engine.exchange.output.httpCode)
  {
    PrepareAgrees(content, ignored);
    var prepared := PrepareTexts(content, ignored, true);
    if prepared.Ok? {
      ApiCallsAgree(key, "/translate", TranslateParams(source, target, prepared.value, addParams), provider);
    }
  }

  /** The two clients' calls for the same parameters: the same URL and body, sent as one GET URL by the older client. */
  lemma ApiCallsAgree(key: string, endpoint: string, params: Entries, provider: Call -> Reply)
    ensures
      var l := ApiCall(LegacyClient(key), endpoint, params, provider);
      var e := DeepLEngine.ApiCall(Client(key, UrlBasePro), endpoint, params, provider);
      (l.Some? <==> e.Some?)
      && (l.Some? ==> l.value.call == AsGet(e.value.call))
      && (l.Some? && provider(l.value.call) == provider(e.value.call) ==>
            l.value.output.data == e.value.output.data && l.value.output.httpCode == e.value.output.httpCode)
  {
  }

  lemma PrepareAgrees(content: Value, ps: seq<string>)
    requires forall j :: 0 <= j < |ps| ==> Plain(ps[j])
    ensures PrepareTexts(content, ps, false) == PrepareTexts(content, ps, true)
  {
    if |ps| > 0 {
      TagEntriesAgree(AsList(content), ps);
    }
  }

  lemma {:induction false} TagEntriesAgree(es: Entries, ps: seq<string>)
    requires forall j :: 0 <= j < |ps| ==> Plain(ps[j])
    ensures TagEntries(es, ps, false) == TagEntries(es, ps, true)
    decreases |es|
  {
    if |es| > 0 {
      if es[0].1.Str? {
        LegacyAgreesOnPlain(es[0].1.s, ps);
      }
      TagEntriesAgree(es[1..], ps);
    }
  }
}

=== FILE: localization.dfy ===
/**
 * The module's own interface strings (`classes/FluencyLocalization.class.php`):
 * English base strings built from the definition files, one cached file per
 * language and context, reads that fall back to the base strings, the
 * translation of a whole file, the localization run over all configured
 * languages and the clearing of the cache.
 *
 * The cache directory is a map from file name to the decoded string table;
 * the definition files, the configured languages and the translator are
 * inputs.
 */
module Localization {
  import opened Outcome
  import opened PhpString
  import opened FluencyModule

  // ---------------------------------------------------------------------------
  // Contexts and file names
  // ---------------------------------------------------------------------------

  /** The three places the module shows its own strings. */
  datatype Context = PageEditor | TranslationTool | LanguageSelectElement

  /** The contexts in the order the class lists them. */
  const Contexts: seq<Context> := [PageEditor, TranslationTool, LanguageSelectElement]

  function ContextFile(ctx: Context): string {
    match ctx
    case PageEditor => "page_editor.json"
    case TranslationTool => "translation_tool.json"
    case LanguageSelectElement => "language_select_element.json"
  }

  /** A cache entry is named `{langId}_{contextFile}`. */
  function FileName(langId: string, ctx: Context): string {
    langId + "_" + ContextFile(ctx)
  }

  /** The id under which the English base strings are cached. */
  const BaseId: string := "base"

  /** A decoded JSON object of strings, its keys in order. */
  type StringTable = seq<(string, string)>

  /** The cache directory: file name to contents. */
  type Cache = map<string, StringTable>

  /** One of the three files of a language id. */
  predicate IsFileOf(f: string, langId: string) {
    f == FileName(langId, PageEditor) || f == FileName(langId, TranslationTool) || f == FileName(langId, LanguageSelectElement)
  }

  /** Every context is listed. */
  lemma ContextsComplete(ctx: Context)
    ensures ctx in Contexts
    ensures IsFileOf(FileName(BaseId, ctx), BaseId)
  {
  }

  /** The character before `.json`, different for each context. */
  function TailChar(ctx: Context): char {
    match ctx
    case PageEditor => 'r'
    case TranslationTool => 'l'
    case LanguageSelectElement => 't'
  }

  lemma FileNameTail(a: string, ctx: Context)
    ensures |FileName(a, ctx)| >= 6 && FileName(a, ctx)[|FileName(a, ctx)| - 6] == TailChar(ctx)
  {
    var f := ContextFile(ctx);
    assert FileName(a, ctx) == (a + "_") + f;
    assert f[|f| - 6] == TailChar(ctx);
  }

  /** File names identify the language id and the context. */
  lemma FileNameInjective(a: string, b: string, c1: Context, c2: Context)
    ensures FileName(a, c1) == FileName(b, c2) ==> a == b && c1 == c2
  {
    if FileName(a, c1) == FileName(b, c2) {
      FileNameTail(a, c1);
      FileNameTail(b, c2);
      assert c1 == c2;
      var f := FileName(a, c1);
      assert |a| == |b|;
      assert a == f[..|a|];
      assert b == f[..|b|];
    }
  }

  /** A language id's decimal form starts with a digit or `-`, never `base`'s `b`. */
  lemma IdIsNotBase(n: int)
    ensures IntToString(n) != BaseId
  {
    assert BaseId[0] == 'b';
    if n >= 0 {
      assert IsDigit(IntToString(n)[0]);
    }
  }

  lemma IdsDistinct(a: int, b: int)
    ensures IntToString(a) == IntToString(b) ==> a == b
  {
    if IntToString(a) == IntToString(b) {
      if a >= 0 && b >= 0 {
        DecimalInjective(a, b);
      } else if a < 0 && b < 0 {
        assert NatToDecimal(-a) == IntToString(a)[1..];
        DecimalInjective(-a, -b);
      }
    }
  }

  /** Files of different languages are different files. */
  lemma LanguageFilesDistinct(a: int, b: int, c1: Context, c2: Context)
    ensures a != b ==> FileName(IntToString(a), c1) != FileName(IntToString(b), c2)
    ensures FileName(IntToString(a), c1) != FileName(BaseId, c2)
  {
    IdsDistinct(a, b);
    IdIsNotBase(a);
    FileNameInjective(IntToString(a), IntToString(b), c1, c2);
    FileNameInjective(IntToString(a), BaseId, c1, c2);
  }

  // ---------------------------------------------------------------------------
  // Tables
  // ---------------------------------------------------------------------------

  function KeysOf(t: StringTable): (r: seq<string>)
    ensures |r| == |t|
  {
    seq(|t|, i requires 0 <= i < |t| => t[i].0)
  }

  function ValuesOf(t: StringTable): (r: seq<string>)
    ensures |r| == |t|
  {
    seq(|t|, i requires 0 <= i < |t| => t[i].1)
  }

  /** `array_combine($keys, $values)` for lists of the same length. */
  function Combine(ks: seq<string>, vs: seq<string>): (r: StringTable)
    requires |ks| == |vs|
    ensures KeysOf(r) == ks && ValuesOf(r) == vs
  {
    seq(|ks|, i requires 0 <= i < |ks| => (ks[i], vs[i]))
  }

  /** Splitting a table into keys and values and combining them again gives the table back. */
  lemma CombineSplit(t: StringTable)
    ensures Combine(KeysOf(t), ValuesOf(t)) == t
  {
  }

  const Placeholder: string := "%{DEFAULT_LANGUAGE}"

  /** A definition table with the placeholder replaced by the source language's name in every value. */
  function BaseTable(defs: StringTable, sourceName: string): (r: StringTable)
    ensures KeysOf(r) == KeysOf(defs)
  {
    seq(|defs|, i requires 0 <= i < |defs| => (defs[i].0, ReplaceAll(defs[i].1, Placeholder, sourceName)))
  }

  /** A definition without the placeholder is its own base table. */
  lemma BaseTableWithoutPlaceholder(defs: StringTable, sourceName: string)
    requires forall i :: 0 <= i < |defs| ==> !Contains(defs[i].1, Placeholder)
    ensures BaseTable(defs, sourceName) == defs
  {
    forall i | 0 <= i < |defs| ensures BaseTable(defs, sourceName)[i] == defs[i] {
      ReplaceAllAbsent(defs[i].1, Placeholder, sourceName);
    }
  }

  // ---------------------------------------------------------------------------
  // Writing and reading the cache
  // ---------------------------------------------------------------------------

  /** `writeToCache`: the file of the id and context now holds the table. */
  function WriteToCache(c: Cache, langId: string, ctx: Context, t: StringTable): Cache {
    c[FileName(langId, ctx) := t]
  }

  /** `getBaseStrings`: the cached base table of the context, `None` (null) when its file is missing. */
  function GetBaseStrings(c: Cache, ctx: Context): Option<StringTable> {
    if FileName(BaseId, ctx) in c then Some(c[FileName(BaseId, ctx)]) else None
  }

  /** All three base files hold the base tables of the definitions. */
  predicate BaseReady(c: Cache, defs: Context -> StringTable, sourceName: string) {
    forall ctx :: FileName(BaseId, ctx) in c && c[FileName(BaseId, ctx)] == BaseTable(defs(ctx), sourceName)
  }

  /** Two caches agree on one file. */
  predicate SameFile(f: string, a: Cache, b: Cache) {
    (f in a <==> f in b) && (f in a ==> a[f] == b[f])
  }

  function WriteBases(c: Cache, ctxs: seq<Context>, defs: Context -> StringTable, sourceName: string): Cache
    decreases |ctxs|
  {
    if |ctxs| == 0 then c
    else WriteBases(WriteToCache(c, BaseId, ctxs[0], BaseTable(defs(ctxs[0]), sourceName)), ctxs[1..], defs, sourceName)
  }

  /**
   * `createTranslationSource`: every context's base file is (re)written from
   * its definitions; no other file changes.
   */
  function CreateTranslationSource(c: Cache, defs: Context -> StringTable, sourceName: string): (r: Cache)
    ensures BaseReady(r, defs, sourceName)
    ensures forall f :: !IsFileOf(f, BaseId) ==> SameFile(f, c, r)
  {
    WriteBasesEffect(c, Contexts, defs, sourceName);
    WriteBases(c, Contexts, defs, sourceName)
  }

  lemma {:induction false} WriteBasesEffect(c: Cache, ctxs: seq<Context>, defs: Context -> StringTable, sourceName: string)
    ensures forall ctx :: ctx in ctxs ==>
      (FileName(BaseId, ctx) in WriteBases(c, ctxs, defs, sourceName)
       && WriteBases(c, ctxs, defs, sourceName)[FileName(BaseId, ctx)] == BaseTable(defs(ctx), sourceName))
    ensures forall f :: (forall ctx :: ctx in ctxs ==> f != FileName(BaseId, ctx)) ==> SameFile(f, c, WriteBases(c, ctxs, defs, sourceName))
    decreases |ctxs|
  {
    if |ctxs| > 0 {
      var c' := WriteToCache(c, BaseId, ctxs[0], BaseTable(defs(ctxs[0]), sourceName));
      var r := WriteBases(c, ctxs, defs, sourceName);
      assert r == WriteBases(c', ctxs[1..], defs, sourceName);
      WriteBasesEffect(c', ctxs[1..], defs, sourceName);
      forall ctx | ctx in ctxs
        ensures FileName(BaseId, ctx) in r && r[FileName(BaseId, ctx)] == BaseTable(defs(ctx), sourceName)
      {
        if ctx !in ctxs[1..] {
          assert ctx == ctxs[0];
          forall x | x in ctxs[1..] ensures FileName(BaseId, ctx) != FileName(BaseId, x) {
            FileNameInjective(BaseId, BaseId, ctx, x);
          }
          assert SameFile(FileName(BaseId, ctx), c', r);
        }
      }
      forall f | (forall ctx :: ctx in ctxs ==> f != FileName(BaseId, ctx)) ensures SameFile(f, c, r) {
        assert f != FileName(BaseId, ctxs[0]);
        assert forall x :: x in ctxs[1..] ==> x in ctxs;
        assert SameFile(f, c', r);
      }
    }
  }

  /**
   * `getFromCache`: the cached file when there is one; otherwise every base
   * file is rewritten from the definitions, even one that exists, and the
   * context's base table is returned. The cache after the read comes first.
   */
  function GetFromCache(c: Cache, langId: string, ctx: Context, defs: Context -> StringTable, sourceName: string): (r: (Cache, StringTable))
    ensures FileName(langId, ctx) in c ==> r == (c, c[FileName(langId, ctx)])
    ensures FileName(langId, ctx) !in c ==> r.1 == BaseTable(defs(ctx), sourceName) && BaseReady(r.0, defs, sourceName)
    ensures forall f :: !IsFileOf(f, BaseId) ==> SameFile(f, c, r.0)
  {
    if FileName(langId, ctx) in c then (c, c[FileName(langId, ctx)])
    else
      var c' := CreateTranslationSource(c, defs, sourceName);
      (c', GetBaseStrings(c', ctx).value)
  }

  /** Read after write: a written table is read back unchanged, and the cache is not touched by the read. */
  lemma ReadAfterWrite(c: Cache, langId: string, ctx: Context, t: StringTable, defs: Context -> StringTable, sourceName: string)
    ensures GetFromCache(WriteToCache(c, langId, ctx, t), langId, ctx, defs, sourceName) == (WriteToCache(c, langId, ctx, t), t)
  {
  }

  /** A write does not change what another file's read returns. */
  lemma WriteKeepsOtherReads(c: Cache, langId: string, ctx: Context, t: StringTable,
                             otherId: string, otherCtx: Context, defs: Context -> StringTable, sourceName: string)
    requires otherId != langId || otherCtx != ctx
    ensures GetFromCache(WriteToCache(c, langId, ctx, t), otherId, otherCtx, defs, sourceName).1
         == GetFromCache(c, otherId, otherCtx, defs, sourceName).1
  {
    FileNameInjective(otherId, langId, otherCtx, ctx);
  }

  /** A read of a missing file restores the base files: reading a base file afterwards gives the same table. */
  lemma FallbackIsBase(c: Cache, langId: string, ctx: Context, defs: Context -> StringTable, sourceName: string)
    requires FileName(langId, ctx) !in c
    ensures var (c', t) := GetFromCache(c, langId, ctx, defs, sourceName);
      GetBaseStrings(c', ctx) == Some(t) && GetFromCache(c', BaseId, ctx, defs, sourceName) == (c', t)
  {
  }

  // ---------------------------------------------------------------------------
  // Translating a table
  // ---------------------------------------------------------------------------

  /**
   * The module's `translate` seen from here: source code, texts and target
   * code to the translated texts, `None` when the result carries no
   * translation list.
   */
  type Translator = (string, seq<string>, string) -> Option<seq<string>>

  /** The source code `translateStrings` always passes. */
  const SourceCode: string := "EN"

  /**
   * `translateStrings`: the values are translated from English as one list
   * and the translations are put back under the keys, in order. A missing
   * list (`array_map` on null) or a list of another length (`array_combine`)
   * throws in PHP 8, which is `None` here.
   */
  function TranslateStrings(base: StringTable, iso: string, translator: Translator): (r: Option<StringTable>)
    ensures r.Some? <==> translator(SourceCode, ValuesOf(base), iso).Some? && |translator(SourceCode, ValuesOf(base), iso).value| == |base|
    ensures r.Some? ==> KeysOf(r.value) == KeysOf(base) && ValuesOf(r.value) == translator(SourceCode, ValuesOf(base), iso).value
  {
    var ts := translator(SourceCode, ValuesOf(base), iso);
    if ts.None? || |ts.value| != |base| then None else Some(Combine(KeysOf(base), ts.value))
  }

  /** A translator that returns the texts it is given leaves the table as it is. */
  lemma TranslateIdentity(base: StringTable, iso: string, translator: Translator)
    requires translator(SourceCode, ValuesOf(base), iso) == Some(ValuesOf(base))
    ensures TranslateStrings(base, iso, translator) == Some(base)
  {
    CombineSplit(base);
  }

  // ---------------------------------------------------------------------------
  // Localization runs
  // ---------------------------------------------------------------------------

  /** The cache after a run that finished, or the cache as it was when a step threw. */
  datatype Run = Done(cache: Cache) | Aborted(cache: Cache)

  /** The loop of `localizeForLanguage` over the given contexts. */
  function LocalizeContexts(c: Cache, ctxs: seq<Context>, iso: string, langId: string, translator: Translator): Run
    decreases |ctxs|
  {
    if |ctxs| == 0 then Done(c)
    else match GetBaseStrings(c, ctxs[0])
      case None => Aborted(c)
      case Some(base) =>
        match TranslateStrings(base, iso, translator)
        case None => Aborted(c)
        case Some(t) => LocalizeContexts(WriteToCache(c, langId, ctxs[0], t), ctxs[1..], iso, langId, translator)
  }

  /** `localizeForLanguage`: each context's base table translated and written under the language id. */
  function LocalizeForLanguage(c: Cache, iso: string, langId: int, translator: Translator): Run {
    LocalizeContexts(c, Contexts, iso, IntToString(langId), translator)
  }

  /** Each language in turn, stopping at the first step that throws. */
  function LocalizeLanguages(c: Cache, langs: seq<(string, int)>, translator: Translator): Run
    decreases |langs|
  {
    if |langs| == 0 then Done(c)
    else match LocalizeForLanguage(c, langs[0].0, langs[0].1, translator)
      case Aborted(c') => Aborted(c')
      case Done(c') => LocalizeLanguages(c', langs[1..], translator)
  }

  /** The source language's name, or the empty string a missing source prints as. */
  function SourceName(d: LanguageData): string {
    if d.source.Some? then d.source.value.translator.name else ""
  }

  /** The languages to localize, as code and id: the source first, then the targets in order. */
  function LanguagesOf(d: LanguageData): (r: seq<(string, int)>)
    requires d.source.Some?
    ensures |r| == 1 + |d.targets|
    ensures r[0] == (d.source.value.translator.language, d.source.value.pw.id)
    ensures forall i :: 0 <= i < |d.targets| ==> r[i + 1] == (d.targets[i].translator.language, d.targets[i].pw.id)
  {
    [(d.source.value.translator.language, d.source.value.pw.id)]
      + seq(|d.targets|, i requires 0 <= i < |d.targets| => (d.targets[i].translator.language, d.targets[i].pw.id))
  }

  /**
   * `localizeModule`: the base files first, then the source language, then
   * each target. Without a source the null code reaches a `string`
   * parameter and the run stops after the base files.
   */
  function LocalizeModule(c: Cache, defs: Context -> StringTable, d: LanguageData, translator: Translator): Run {
    var c' := CreateTranslationSource(c, defs, SourceName(d));
    if d.source.None? then Aborted(c')
    else LocalizeLanguages(c', LanguagesOf(d), translator)
  }

  /** What a language's file of a context should hold: the context's base table translated into the language. */
  function Expected(defs: Context -> StringTable, sourceName: string, ctx: Context, iso: string, translator: Translator): Option<StringTable> {
    TranslateStrings(BaseTable(defs(ctx), sourceName), iso, translator)
  }

  lemma {:induction false} ContextsKeepBase(c: Cache, ctxs: seq<Context>, iso: string, id: string, translator: Translator,
                                            defs: Context -> StringTable, sourceName: string)
    requires BaseReady(c, defs, sourceName) && id != BaseId
    ensures BaseReady(LocalizeContexts(c, ctxs, iso, id, translator).cache, defs, sourceName)
    ensures LocalizeContexts(c, ctxs, iso, id, translator).Done?
      <==> forall j :: 0 <= j < |ctxs| ==> Expected(defs, sourceName, ctxs[j], iso, translator).Some?
    decreases |ctxs|
  {
    if |ctxs| > 0 {
      var ctx := ctxs[0];
      assert GetBaseStrings(c, ctx) == Some(BaseTable(defs(ctx), sourceName));
      var e := Expected(defs, sourceName, ctx, iso, translator);
      if e.Some? {
        var c' := WriteToCache(c, id, ctx, e.value);
        forall x ensures FileName(BaseId, x) in c' && c'[FileName(BaseId, x)] == BaseTable(defs(x), sourceName) {
          FileNameInjective(id, BaseId, ctx, x);
        }
        ContextsKeepBase(c', ctxs[1..], iso, id, translator, defs, sourceName);
        assert forall j :: 0 < j < |ctxs| ==> ctxs[j] == ctxs[1..][j - 1];
      }
    }
  }

  lemma {:induction false} ContextsFrame(c: Cache, ctxs: seq<Context>, iso: string, id: string, translator: Translator)
    ensures forall f :: (forall j :: 0 <= j < |ctxs| ==> f != FileName(id, ctxs[j])) ==>
      SameFile(f, c, LocalizeContexts(c, ctxs, iso, id, translator).cache)
    decreases |ctxs|
  {
    if |ctxs| > 0 && GetBaseStrings(c, ctxs[0]).Some? && TranslateStrings(GetBaseStrings(c, ctxs[0]).value, iso, translator).Some? {
      var t := TranslateStrings(GetBaseStrings(c, ctxs[0]).value, iso, translator).value;
      var c' := WriteToCache(c, id, ctxs[0], t);
      var r := LocalizeContexts(c, ctxs, iso, id, translator);
      assert r == LocalizeContexts(c', ctxs[1..], iso, id, translator);
      ContextsFrame(c', ctxs[1..], iso, id, translator);
      forall f | (forall j :: 0 <= j < |ctxs| ==> f != FileName(id, ctxs[j])) ensures SameFile(f, c, r.cache) {
        assert f != FileName(id, ctxs[0]);
        forall j | 0 <= j < |ctxs[1..]| ensures f != FileName(id, ctxs[1..][j]) {
          assert ctxs[1..][j] == ctxs[j + 1];
        }
        assert SameFile(f, c', r.cache);
      }
    }
  }

  lemma {:induction false} ContextsValues(c: Cache, ctxs: seq<Context>, iso: string, id: string, translator: Translator,
                                          defs: Context -> StringTable, sourceName: string)
    requires BaseReady(c, defs, sourceName) && id != BaseId
    ensures LocalizeContexts(c, ctxs, iso, id, translator).Done? ==>
      forall ctx :: ctx in ctxs ==>
        Expected(defs, sourceName, ctx, iso, translator).Some?
        && FileName(id, ctx) in LocalizeContexts(c, ctxs, iso, id, translator).cache
        && LocalizeContexts(c, ctxs, iso, id, translator).cache[FileName(id, ctx)] == Expected(defs, sourceName, ctx, iso, translator).value
    decreases |ctxs|
  {
    if |ctxs| > 0 {
      var ctx0 := ctxs[0];
      assert GetBaseStrings(c, ctx0) == Some(BaseTable(defs(ctx0), sourceName));
      var e := Expected(defs, sourceName, ctx0, iso, translator);
      if e.Some? {
        var c' := WriteToCache(c, id, ctx0, e.value);
        var r := LocalizeContexts(c, ctxs, iso, id, translator);
        assert r == LocalizeContexts(c', ctxs[1..], iso, id, translator);
        forall x ensures FileName(BaseId, x) in c' && c'[FileName(BaseId, x)] == BaseTable(defs(x), sourceName) {
          FileNameInjective(id, BaseId, ctx0, x);
        }
        ContextsValues(c', ctxs[1..], iso, id, translator, defs, sourceName);
        ContextsFrame(c', ctxs[1..], iso, id, translator);
        if r.Done? {
          forall ctx | ctx in ctxs
            ensures Expected(defs, sourceName, ctx, iso, translator).Some?
              && FileName(id, ctx) in r.cache && r.cache[FileName(id, ctx)] == Expected(defs, sourceName, ctx, iso, translator).value
          {
            if ctx !in ctxs[1..] {
              assert ctx == ctx0;
              forall j | 0 <= j < |ctxs[1..]| ensures FileName(id, ctx) != FileName(id, ctxs[1..][j]) {
                FileNameInjective(id, id, ctx, ctxs[1..][j]);
              }
              assert SameFile(FileName(id, ctx), c', r.cache);
            }
          }
        }
      }
    }
  }

  /** The ids of the languages are pairwise different. */
  predicate DistinctIds(langs: seq<(string, int)>) {
    forall i, j :: 0 <= i < j < |langs| ==> langs[i].1 != langs[j].1
  }

  /**
   * One language: the base files stay as they are; the step finishes exactly
   * when every context translates; then each of the language's files holds
   * its context's translated base table; no other file changes.
   */
  lemma ForLanguageEffect(c: Cache, iso: string, langId: int, translator: Translator,
                          defs: Context -> StringTable, sourceName: string)
    requires BaseReady(c, defs, sourceName)
    ensures BaseReady(LocalizeForLanguage(c, iso, langId, translator).cache, defs, sourceName)
    ensures LocalizeForLanguage(c, iso, langId, translator).Done?
      <==> forall ctx :: Expected(defs, sourceName, ctx, iso, translator).Some?
    ensures forall f :: !IsFileOf(f, IntToString(langId)) ==> SameFile(f, c, LocalizeForLanguage(c, iso, langId, translator).cache)
    ensures LocalizeForLanguage(c, iso, langId, translator).Done? ==>
      forall ctx ::
        FileName(IntToString(langId), ctx) in LocalizeForLanguage(c, iso, langId, translator).cache
        && LocalizeForLanguage(c, iso, langId, translator).cache[FileName(IntToString(langId), ctx)]
           == Expected(defs, sourceName, ctx, iso, translator).value
  {
    var id := IntToString(langId);
    IdIsNotBase(langId);
    ContextsKeepBase(c, Contexts, iso, id, translator, defs, sourceName);
    ContextsFrame(c, Contexts, iso, id, translator);
    ContextsValues(c, Contexts, iso, id, translator, defs, sourceName);
    assert Contexts[0] == PageEditor && Contexts[1] == TranslationTool && Contexts[2] == LanguageSelectElement;
    forall ctx ensures ctx in Contexts {
      ContextsComplete(ctx);
    }
  }

  lemma {:induction false} LanguagesKeepBase(c: Cache, langs: seq<(string, int)>, translator: Translator,
                                             defs: Context -> StringTable, sourceName: string)
    requires BaseReady(c, defs, sourceName)
    ensures BaseReady(LocalizeLanguages(c, langs, translator).cache, defs, sourceName)
    ensures LocalizeLanguages(c, langs, translator).Done?
      <==> forall i, ctx :: 0 <= i < |langs| ==> Expected(defs, sourceName, ctx, langs[i].0, translator).Some?
    decreases |langs|
  {
    if |langs| > 0 {
      ForLanguageEffect(c, langs[0].0, langs[0].1, translator, defs, sourceName);
      var step := LocalizeForLanguage(c, langs[0].0, langs[0].1, translator);
      if step.Done? {
        LanguagesKeepBase(step.cache, langs[1..], translator, defs, sourceName);
        assert forall i :: 0 < i < |langs| ==> langs[i] == langs[1..][i - 1];
      } else {
        var ctx :| Expected(defs, sourceName, ctx, langs[0].0, translator).None?;
      }
    }
  }

  /** One language's step changes none but that language's three files. */
  lemma ForLanguageFrame(c: Cache, iso: string, langId: int, translator: Translator)
    ensures forall f :: !IsFileOf(f, IntToString(langId)) ==> SameFile(f, c, LocalizeForLanguage(c, iso, langId, translator).cache)
  {
    ContextsFrame(c, Contexts, iso, IntToString(langId), translator);
    assert Contexts[0] == PageEditor && Contexts[1] == TranslationTool && Contexts[2] == LanguageSelectElement;
  }

  lemma {:induction false} LanguagesFrame(c: Cache, langs: seq<(string, int)>, translator: Translator)
    ensures forall f :: (forall i :: 0 <= i < |langs| ==> !IsFileOf(f, IntToString(langs[i].1))) ==>
      SameFile(f, c, LocalizeLanguages(c, langs, translator).cache)
    decreases |langs|
  {
    if |langs| > 0 {
      ForLanguageFrame(c, langs[0].0, langs[0].1, translator);
      var step := LocalizeForLanguage(c, langs[0].0, langs[0].1, translator);
      var r := LocalizeLanguages(c, langs, translator);
      if step.Done? {
        assert r == LocalizeLanguages(step.cache, langs[1..], translator);
        LanguagesFrame(step.cache, langs[1..], translator);
        forall f | (forall i :: 0 <= i < |langs| ==> !IsFileOf(f, IntToString(langs[i].1))) ensures SameFile(f, c, r.cache) {
          assert !IsFileOf(f, IntToString(langs[0].1));
          forall i | 0 <= i < |langs[1..]| ensures !IsFileOf(f, IntToString(langs[1..][i].1)) {
            assert langs[1..][i] == langs[i + 1];
          }
          assert SameFile(f, c, step.cache);
          assert SameFile(f, step.cache, r.cache);
        }
      } else {
        assert r.cache == step.cache;
        forall f | (forall i :: 0 <= i < |langs| ==> !IsFileOf(f, IntToString(langs[i].1))) ensures SameFile(f, c, r.cache) {
          assert !IsFileOf(f, IntToString(langs[0].1));
        }
      }
    }
  }

  /** A language's file is not a file of a language with another id. */
  lemma NotFileOfOther(a: int, b: int, ctx: Context)
    requires a != b
    ensures !IsFileOf(FileName(IntToString(a), ctx), IntToString(b))
  {
    LanguageFilesDistinct(a, b, ctx, PageEditor);
    LanguageFilesDistinct(a, b, ctx, TranslationTool);
    LanguageFilesDistinct(a, b, ctx, LanguageSelectElement);
  }

  lemma {:induction false} LanguagesValues(c: Cache, langs: seq<(string, int)>, translator: Translator,
                                           defs: Context -> StringTable, sourceName: string)
    requires BaseReady(c, defs, sourceName) && DistinctIds(langs)
    ensures LocalizeLanguages(c, langs, translator).Done? ==>
      forall i, ctx :: 0 <= i < |langs| ==>
        Expected(defs, sourceName, ctx, langs[i].0, translator).Some?
        && FileName(IntToString(langs[i].1), ctx) in LocalizeLanguages(c, langs, translator).cache
        && LocalizeLanguages(c, langs, translator).cache[FileName(IntToString(langs[i].1), ctx)]
           == Expected(defs, sourceName, ctx, langs[i].0, translator).value
    decreases |langs|
  {
    if |langs| > 0 {
      var (iso, langId) := langs[0];
      ForLanguageEffect(c, iso, langId, translator, defs, sourceName);
      var step := LocalizeForLanguage(c, iso, langId, translator);
      var r := LocalizeLanguages(c, langs, translator);
      if step.Done? {
        var rest := langs[1..];
        assert r == LocalizeLanguages(step.cache, rest, translator);
        assert DistinctIds(rest);
        LanguagesValues(step.cache, rest, translator, defs, sourceName);
        if r.Done? {
          forall i, ctx | 0 <= i < |langs|
            ensures Expected(defs, sourceName, ctx, langs[i].0, translator).Some?
              && FileName(IntToString(langs[i].1), ctx) in r.cache
              && r.cache[FileName(IntToString(langs[i].1), ctx)] == Expected(defs, sourceName, ctx, langs[i].0, translator).value
          {
            if i == 0 {
              FirstLanguageKept(step.cache, langs, translator, ctx);
            } else {
              assert langs[i] == rest[i - 1];
            }
          }
        }
      }
    }
  }

  /** The later languages leave the first language's files alone. */
  lemma FirstLanguageKept(c: Cache, langs: seq<(string, int)>, translator: Translator, ctx: Context)
    requires |langs| > 0 && DistinctIds(langs)
    ensures SameFile(FileName(IntToString(langs[0].1), ctx), c, LocalizeLanguages(c, langs[1..], translator).cache)
  {
    var rest := langs[1..];
    LanguagesFrame(c, rest, translator);
    forall i | 0 <= i < |rest| ensures !IsFileOf(FileName(IntToString(langs[0].1), ctx), IntToString(rest[i].1)) {
      assert rest[i] == langs[i + 1];
      NotFileOfOther(langs[0].1, rest[i].1, ctx);
    }
  }

  /**
   * How a localization run ends. The base files always end up rebuilt from
   * the definitions, even when the run stops. Without a source the run stops
   * there; otherwise it finishes exactly when every configured language's
   * translation of every context succeeds.
   */
  lemma LocalizeModuleOutcome(c: Cache, defs: Context -> StringTable, d: LanguageData, translator: Translator)
    ensures BaseReady(LocalizeModule(c, defs, d, translator).cache, defs, SourceName(d))
    ensures d.source.None? ==> LocalizeModule(c, defs, d, translator).Aborted?
    ensures d.source.Some? ==>
      (LocalizeModule(c, defs, d, translator).Done? <==>
         (forall i, ctx :: 0 <= i < |LanguagesOf(d)| ==> Expected(defs, SourceName(d), ctx, LanguagesOf(d)[i].0, translator).Some?))
  {
    if d.source.Some? {
      LanguagesKeepBase(CreateTranslationSource(c, defs, SourceName(d)), LanguagesOf(d), translator, defs, SourceName(d));
    }
  }

  /**
   * What a finished run leaves behind: with different language ids, each
   * language's file of each context holds its translated base table.
   */
  lemma LocalizeModuleWrites(c: Cache, defs: Context -> StringTable, d: LanguageData, translator: Translator)
    requires d.source.Some? && DistinctIds(LanguagesOf(d))
    ensures LocalizeModule(c, defs, d, translator).Done? ==>
      forall i, ctx :: 0 <= i < |LanguagesOf(d)| ==>
        Expected(defs, SourceName(d), ctx, LanguagesOf(d)[i].0, translator).Some?
        && FileName(IntToString(LanguagesOf(d)[i].1), ctx) in LocalizeModule(c, defs, d, translator).cache
        && LocalizeModule(c, defs, d, translator).cache[FileName(IntToString(LanguagesOf(d)[i].1), ctx)]
           == Expected(defs, SourceName(d), ctx, LanguagesOf(d)[i].0, translator).value
  {
    var c' := CreateTranslationSource(c, defs, SourceName(d));
    var langs := LanguagesOf(d);
    assert LocalizeModule(c, defs, d, translator) == LocalizeLanguages(c', langs, translator);
    LanguagesValues(c', langs, translator, defs, SourceName(d));
  }

  /**
   * A file that is neither a base file nor a file of a configured language
   * is never touched, whether or not the run finishes.
   */
  lemma LocalizeModuleFrame(c: Cache, defs: Context -> StringTable, d: LanguageData, translator: Translator)
    ensures forall f ::
      (!IsFileOf(f, BaseId) && (d.source.Some? ==> forall i :: 0 <= i < |LanguagesOf(d)| ==> !IsFileOf(f, IntToString(LanguagesOf(d)[i].1))))
      ==> SameFile(f, c, LocalizeModule(c, defs, d, translator).cache)
  {
    var c' := CreateTranslationSource(c, defs, SourceName(d));
    var r := LocalizeModule(c, defs, d, translator);
    if d.source.Some? {
      var langs := LanguagesOf(d);
      assert r == LocalizeLanguages(c', langs, translator);
      LanguagesFrame(c', langs, translator);
      forall f | !IsFileOf(f, BaseId) && (forall i :: 0 <= i < |langs| ==> !IsFileOf(f, IntToString(langs[i].1)))
        ensures SameFile(f, c, r.cache)
      {
        assert SameFile(f, c, c');
        assert SameFile(f, c', r.cache);
      }
    }
  }

  // ---------------------------------------------------------------------------
  // Clearing the cache
  // ---------------------------------------------------------------------------

  /** `explode('_', $name)[0]`: a file name up to its first `_`. */
  function IdPrefix(name: string): string {
    Split(name, "_")[0]
  }

  /** A file is cleared when no id is given (or a falsy one), or when its name contains the id anywhere. */
  predicate Selected(name: string, languageId: string) {
    !Truthy(languageId) || Contains(name, languageId)
  }

  function ClearLoop(c: Cache, listing: seq<string>, languageId: string, ids: seq<string>): (Cache, seq<string>)
    decreases |listing|
  {
    if |listing| == 0 then (c, ids)
    else if !Selected(listing[0], languageId) then ClearLoop(c, listing[1..], languageId, ids)
    else ClearLoop(c - {listing[0]}, listing[1..], languageId, ids + [IdPrefix(listing[0])])
  }

  /** The prefixes of the selected file names, in listing order, repeats included. */
  function ClearedIds(listing: seq<string>, languageId: string): seq<string>
    decreases |listing|
  {
    if |listing| == 0 then []
    else (if Selected(listing[0], languageId) then [IdPrefix(listing[0])] else []) + ClearedIds(listing[1..], languageId)
  }

  /**
   * `array_unique`: the first occurrence of each value, with its position in
   * the input as its key.
   */
  function Dedup(xs: seq<string>, i: nat, seen: set<string>): seq<(nat, string)>
    requires i <= |xs|
    decreases |xs| - i
  {
    if i == |xs| then []
    else if xs[i] in seen then Dedup(xs, i + 1, seen)
    else [(i, xs[i])] + Dedup(xs, i + 1, seen + {xs[i]})
  }

  /** Values of `xs` before position `i`. */
  function Before(xs: seq<string>, i: nat): set<string>
    requires i <= |xs|
  {
    set k | 0 <= k < i :: xs[k]
  }

  lemma BeforeStep(xs: seq<string>, i: nat)
    requires i < |xs|
    ensures Before(xs, i + 1) == Before(xs, i) + {xs[i]}
  {
    forall x | x in Before(xs, i + 1) ensures x in Before(xs, i) + {xs[i]} {
      var k :| 0 <= k < i + 1 && xs[k] == x;
      if k < i {
        assert xs[k] in Before(xs, i);
      }
    }
    forall x | x in Before(xs, i) ensures x in Before(xs, i + 1) {
      var k :| 0 <= k < i && xs[k] == x;
      assert xs[k] in Before(xs, i + 1);
    }
    assert xs[i] in Before(xs, i + 1);
  }

  /** Kept entries come from positions at or after `i`, with their values, in increasing order. */
  lemma {:induction false} DedupPositions(xs: seq<string>, i: nat, seen: set<string>)
    requires i <= |xs|
    ensures forall j :: 0 <= j < |Dedup(xs, i, seen)| ==>
      i <= Dedup(xs, i, seen)[j].0 < |xs| && xs[Dedup(xs, i, seen)[j].0] == Dedup(xs, i, seen)[j].1
    ensures forall j, k :: 0 <= j < k < |Dedup(xs, i, seen)| ==> Dedup(xs, i, seen)[j].0 < Dedup(xs, i, seen)[k].0
    decreases |xs| - i
  {
    if i < |xs| {
      if xs[i] in seen {
        DedupPositions(xs, i + 1, seen);
      } else {
        DedupPositions(xs, i + 1, seen + {xs[i]});
      }
    }
  }

  /** A kept value has not occurred earlier, and every value not seen before `i` is kept. */
  lemma {:induction false} DedupFirst(xs: seq<string>, i: nat, seen: set<string>)
    requires i <= |xs| && seen == Before(xs, i)
    ensures forall j :: 0 <= j < |Dedup(xs, i, seen)| ==>
      Dedup(xs, i, seen)[j].0 <= |xs| && Dedup(xs, i, seen)[j].1 !in Before(xs, Dedup(xs, i, seen)[j].0)
    ensures forall k :: i <= k < |xs| && xs[k] !in seen ==> exists j :: 0 <= j < |Dedup(xs, i, seen)| && Dedup(xs, i, seen)[j].1 == xs[k]
    decreases |xs| - i
  {
    DedupPositions(xs, i, seen);
    if i < |xs| {
      BeforeStep(xs, i);
      if xs[i] in seen {
        assert Dedup(xs, i, seen) == Dedup(xs, i + 1, seen);
        DedupFirst(xs, i + 1, seen);
      } else {
        var rest := Dedup(xs, i + 1, seen + {xs[i]});
        var r := Dedup(xs, i, seen);
        assert r == [(i, xs[i])] + rest;
        DedupFirst(xs, i + 1, seen + {xs[i]});
        forall j | 0 <= j < |r| ensures r[j].0 <= |xs| && r[j].1 !in Before(xs, r[j].0) {
          if j > 0 {
            assert r[j] == rest[j - 1];
          }
        }
        forall k | i <= k < |xs| && xs[k] !in seen ensures exists j :: 0 <= j < |r| && r[j].1 == xs[k] {
          if xs[k] == xs[i] {
            assert r[0].1 == xs[k];
          } else {
            var j :| 0 <= j < |rest| && rest[j].1 == xs[k];
            assert r[j + 1].1 == xs[k];
          }
        }
      }
    }
  }

  /**
   * `array_unique` on a list: the first occurrence of each value, in order,
   * keyed by its position.
   */
  function ArrayUnique(xs: seq<string>): (r: seq<(nat, string)>)
    ensures forall j :: 0 <= j < |r| ==> r[j].0 < |xs| && xs[r[j].0] == r[j].1
    ensures forall j :: 0 <= j < |r| ==> forall k :: 0 <= k < r[j].0 ==> xs[k] != r[j].1
    ensures forall j, k :: 0 <= j < k < |r| ==> r[j].0 < r[k].0
    ensures forall x :: x in xs ==> exists j :: 0 <= j < |r| && r[j].1 == x
  {
    assert Before(xs, 0) == {};
    DedupPositions(xs, 0, {});
    DedupFirst(xs, 0, {});
    var r := Dedup(xs, 0, {});
    forall j, k | 0 <= j < |r| && 0 <= k < r[j].0 ensures xs[k] != r[j].1 {
      assert xs[k] in Before(xs, r[j].0);
    }
    r
  }

  /** No value is kept twice. */
  lemma ArrayUniqueDistinct(xs: seq<string>)
    ensures forall j, k :: 0 <= j < k < |ArrayUnique(xs)| ==> ArrayUnique(xs)[j].1 != ArrayUnique(xs)[k].1
  {
    var r := ArrayUnique(xs);
    forall j, k | 0 <= j < k < |r| ensures r[j].1 != r[k].1 {
      assert xs[r[j].0] == r[j].1;
    }
  }

  /**
   * `clearCache` with the deletion evidently intended: every listed file that
   * is selected is deleted, as `$files->unlink($cachedFile, false, true)` of the
   * host's file tools would do when every deletion succeeds, and the
   * de-duplicated prefixes of the deleted names are returned. `listing` is the directory listing in the order the host
   * returns it. The code as written is `ClearCacheAsWritten`.
   */
  function ClearCache(c: Cache, listing: seq<string>, languageId: string): (r: (Cache, seq<(nat, string)>))
    ensures forall f :: f in r.0 <==> f in c && !(f in listing && Selected(f, languageId))
    ensures forall f :: f in r.0 ==> r.0[f] == c[f]
    ensures r.1 == ArrayUnique(ClearedIds(listing, languageId))
  {
    ClearLoopEffect(c, listing, languageId, []);
    var (c', ids) := ClearLoop(c, listing, languageId, []);
    assert [] + ClearedIds(listing, languageId) == ClearedIds(listing, languageId);
    (c', ArrayUnique(ids))
  }

  lemma {:induction false} ClearLoopEffect(c: Cache, listing: seq<string>, languageId: string, ids: seq<string>)
    ensures ClearLoop(c, listing, languageId, ids).1 == ids + ClearedIds(listing, languageId)
    ensures forall f :: f in ClearLoop(c, listing, languageId, ids).0 <==> f in c && !(f in listing && Selected(f, languageId))
    ensures forall f :: f in ClearLoop(c, listing, languageId, ids).0 ==> ClearLoop(c, listing, languageId, ids).0[f] == c[f]
    decreases |listing|
  {
    if |listing| > 0 {
      var f0 := listing[0];
      assert forall f :: f in listing <==> f == f0 || f in listing[1..];
      if Selected(f0, languageId) {
        ClearLoopEffect(c - {f0}, listing[1..], languageId, ids + [IdPrefix(f0)]);
        assert ids + [IdPrefix(f0)] + ClearedIds(listing[1..], languageId) == ids + ([IdPrefix(f0)] + ClearedIds(listing[1..], languageId));
      } else {
        ClearLoopEffect(c, listing[1..], languageId, ids);
        assert [] + ClearedIds(listing[1..], languageId) == ClearedIds(listing[1..], languageId);
      }
    }
  }

  /** The cleared ids are exactly the prefixes of the selected listed names. */
  lemma {:induction false} ClearedIdsExactly(listing: seq<string>, languageId: string)
    ensures forall x :: x in ClearedIds(listing, languageId) <==>
      exists f :: f in listing && Selected(f, languageId) && IdPrefix(f) == x
    decreases |listing|
  {
    if |listing| > 0 {
      ClearedIdsExactly(listing[1..], languageId);
      assert forall f :: f in listing <==> f == listing[0] || f in listing[1..];
    }
  }

  /** Clearing without an id empties a cache whose files are all listed, base files included. */
  lemma ClearAllEmpties(c: Cache, listing: seq<string>)
    requires forall f :: f in c ==> f in listing
    ensures ClearCache(c, listing, "").0 == map[]
  {
  }

  /** Clearing a cache of one selected file deletes it and reports its prefix. */
  lemma ClearOne(f: string, t: StringTable, languageId: string)
    requires Selected(f, languageId)
    ensures ClearCache(map[f := t], [f], languageId) == (map[], [(0, IdPrefix(f))])
  {
    assert ClearedIds([f], languageId) == [IdPrefix(f)];
    assert Dedup([IdPrefix(f)], 0, {}) == [(0, IdPrefix(f))];
  }

  /** The id is matched as a substring: clearing `10` also deletes the files of language `1020`, and reports `1020`. */
  lemma ClearMatchesSubstring(t: StringTable)
    ensures ClearCache(map[FileName("1020", PageEditor) := t], [FileName("1020", PageEditor)], "10")
         == (map[], [(0, "1020")])
  {
    var f := FileName("1020", PageEditor);
    assert IsPrefix("10", f);
    SplitPrefix("1020", ContextFile(PageEditor));
    ClearOne(f, t, "10");
  }

  /**
   * The loop as written: `unlink($cachedFile, false, true)` calls PHP's
   * built-in `unlink`, which takes at most two arguments, so PHP 8 throws an
   * `ArgumentCountError` at the first selected file, before anything is
   * deleted (`None`). A run that selects no file returns what it was given.
   */
  function ClearLoopAsWritten(c: Cache, listing: seq<string>, languageId: string, ids: seq<string>): (r: Option<(Cache, seq<string>)>)
    ensures r.None? <==> ClearedIds(listing, languageId) != []
    ensures r.Some? ==> r.value == (c, ids)
    decreases |listing|
  {
    if |listing| == 0 then Some((c, ids))
    else if Selected(listing[0], languageId) then None
    else
      assert ClearedIds(listing, languageId) == [] + ClearedIds(listing[1..], languageId);
      ClearLoopAsWritten(c, listing[1..], languageId, ids)
  }

  /**
   * `clearCache` as written: it throws as soon as some listed file is
   * selected, and otherwise deletes nothing and returns an empty list.
   */
  function ClearCacheAsWritten(c: Cache, listing: seq<string>, languageId: string): (r: Option<(Cache, seq<(nat, string)>)>)
    ensures r.None? <==> exists f :: f in listing && Selected(f, languageId)
    ensures r.Some? ==> r.value == (c, [])
  {
    ClearedIdsExactly(listing, languageId);
    NoneSelected(listing, languageId);
    match ClearLoopAsWritten(c, listing, languageId, [])
    case None => None
    case Some(_) => Some((c, []))
  }

  /** No prefix is collected exactly when no listed file is selected. */
  lemma {:induction false} NoneSelected(listing: seq<string>, languageId: string)
    ensures ClearedIds(listing, languageId) == [] <==> forall f :: f in listing ==> !Selected(f, languageId)
    decreases |listing|
  {
    if |listing| > 0 {
      NoneSelected(listing[1..], languageId);
      assert forall f :: f in listing <==> f == listing[0] || f in listing[1..];
    }
  }

  /**
   * The two differ on every cache that has a selected file: clearing `10`
   * from a cache holding `1020_page_editor.json` throws as written and keeps
   * the file, where the intended deletion removes it and reports `1020`.
   */
  lemma ClearAsWrittenThrows(t: StringTable)
    ensures ClearCacheAsWritten(map[FileName("1020", PageEditor) := t], [FileName("1020", PageEditor)], "10").None?
    ensures ClearCache(map[FileName("1020", PageEditor) := t], [FileName("1020", PageEditor)], "10") == (map[], [(0, "1020")])
  {
    var f := FileName("1020", PageEditor);
    assert IsPrefix("10", f);
    assert f in [f] && Selected(f, "10");
    ClearMatchesSubstring(t);
  }

  /** A name with an underscore after a prefix free of underscores splits at it. */
  lemma {:induction false} SplitPrefix(p: string, rest: string)
    requires forall i :: 0 <= i < |p| ==> p[i] != '_'
    ensures IdPrefix(p + "_" + rest) == p
    decreases |p|
  {
    var s := p + "_" + rest;
    if |p| == 0 {
      assert s == "_" + rest;
      assert IsPrefix("_", s);
    } else {
      assert s[0] == p[0] && !IsPrefix("_", s);
      assert s[1..] == p[1..] + "_" + rest;
      SplitPrefix(p[1..], rest);
      assert p == [p[0]] + p[1..];
    }
  }
}

=== FILE: outcome.dfy ===
/** Optional values and results shared by every module of the model. */
module Outcome {

  /** A value that may be missing: PHP's `null`, an absent array key, a JS `null`. */
  datatype Option<+T> = None | Some(value: T)

  /** The outcome of an operation that PHP would abort with an error or exception. */
  datatype Result<+T, +E> = Ok(value: T) | Err(error: E)
}

=== FILE: pcre.dfy ===
/**
 * The slice of PHP's PCRE functions the ignore-tag code reaches:
 * `preg_quote`, the compilation of a `/…/i` pattern (delimiter scan, modifier
 * check, body), and `preg_match_all` for a pattern whose body is a literal.
 * A body that uses regular-expression operators is reported as `NotModelled`
 * rather than given a meaning; matching is byte-wise with ASCII-only case
 * folding, as PCRE does without the `u` modifier.
 */
module Pcre {
  import opened Outcome
  import opened PhpString

  // ---------------------------------------------------------------------------
  // preg_quote
  // ---------------------------------------------------------------------------

  /** The characters `preg_quote` prefixes with a backslash (the delimiter argument is not used by the callers). */
  predicate QuotedSpecial(c: char) {
    c in {'.', '\\', '+', '*', '?', '[', '^', ']', '$', '(', ')', '{', '}', '=', '!', '<', '>', '|', ':', '-', '#'}
  }

  function QuoteChar(c: char): string {
    if c == '\0' then "\\000"
    else if QuotedSpecial(c) then ['\\', c]
    else [c]
  }

  /** `preg_quote(s)`. */
  function Quote(s: string): string
    decreases |s|
  {
    if |s| == 0 then "" else QuoteChar(s[0]) + Quote(s[1..])
  }

  // ---------------------------------------------------------------------------
  // Pattern compilation
  // ---------------------------------------------------------------------------

  /** What compiling a pattern gives: a literal to search for case-insensitively, a PHP error, or a pattern this model gives no meaning to. */
  datatype Compiled = CaseInsensitiveLiteral(w: string) | CompileError | NotModelled

  predicate AsciiAlnum(c: char) {
    ('0' <= c <= '9') || ('A' <= c <= 'Z') || ('a' <= c <= 'z')
  }

  /** Characters that are operators when they appear unescaped in a PCRE body. */
  predicate Metachar(c: char) {
    c in {'^', '$', '.', '[', '|', '(', ')', '?', '*', '+', '{'}
  }

  /**
   * The position of the closing delimiter `/`: PHP walks the pattern after
   * the opening delimiter, stepping over every backslash together with the
   * character after it. `None` when there is no closing delimiter.
   */
  function ClosingDelimiter(s: string): (r: Option<nat>)
    ensures r.Some? ==> r.value < |s| && s[r.value] == '/'
    decreases |s|
  {
    if |s| == 0 then None
    else if s[0] == '\\' && |s| >= 2 then
      match ClosingDelimiter(s[2..])
      case None => None
      case Some(j) => Some(j + 2)
    else if s[0] == '/' then Some(0)
    else
      match ClosingDelimiter(s[1..])
      case None => None
      case Some(j) => Some(j + 1)
  }

  /** The characters PHP accepts after the closing delimiter. */
  predicate KnownModifier(c: char) {
    c in {'i', 'm', 's', 'x', 'A', 'D', 'S', 'U', 'X', 'J', 'u', 'n', ' ', '\n', '\r'}
  }

  /** The literal a PCRE body stands for, when it uses no operator. */
  function LiteralBody(b: string): Compiled
    decreases |b|
  {
    if |b| == 0 then CaseInsensitiveLiteral("")
    else if b[0] == '\\' then
      if |b| == 1 then CompileError
      else if !AsciiAlnum(b[1]) then Prepend(b[1], LiteralBody(b[2..]))
      else if |b| >= 4 && b[1..4] == "000" then Prepend('\0', LiteralBody(b[4..]))
      else NotModelled
    else if Metachar(b[0]) || b[0] == '\0' then NotModelled
    else Prepend(b[0], LiteralBody(b[1..]))
  }

  function Prepend(c: char, r: Compiled): Compiled {
    if r.CaseInsensitiveLiteral? then CaseInsensitiveLiteral([c] + r.w) else r
  }

  /**
   * Compiling the pattern `/` + `p`: PHP takes the first character as the
   * delimiter (the callers always write `/`) and reads `p` as
   * `body/modifiers`.
   */
  function CompileSlashed(p: string): Compiled {
    match ClosingDelimiter(p)
    case None => CompileError
    case Some(j) => WithModifiers(p[..j], p[j + 1..])
  }

  /** The body under the modifiers: only a lone `i` is given a meaning here; an unknown modifier is PHP's "Unknown modifier" error. */
  function WithModifiers(body: string, mods: string): Compiled {
    if mods == "i" then LiteralBody(body)
    else if UnknownModifierIn(mods) then CompileError
    else NotModelled
  }

  predicate UnknownModifierIn(mods: string) {
    exists k :: 0 <= k < |mods| && !KnownModifier(mods[k])
  }

  function Shift(o: Option<nat>, n: nat): Option<nat> {
    match o
    case None => None
    case Some(j) => Some(j + n)
  }

  lemma SkipPlain(c: char, y: string)
    requires c != '\\' && c != '/'
    ensures ClosingDelimiter([c] + y) == Shift(ClosingDelimiter(y), 1)
  {
    assert ([c] + y)[1..] == y;
  }

  lemma SkipEscape(c: char, y: string)
    ensures ClosingDelimiter(['\\', c] + y) == Shift(ClosingDelimiter(y), 2)
  {
    assert (['\\', c] + y)[2..] == y;
  }

  /** The delimiter scan steps over one quoted character as a whole. */
  lemma SkipQuoted(c: char, y: string)
    requires c != '/'
    ensures ClosingDelimiter(QuoteChar(c) + y) == Shift(ClosingDelimiter(y), |QuoteChar(c)|)
  {
    if c == '\0' {
      assert QuoteChar(c) + y == ['\\', '0'] + (['0'] + (['0'] + y));
      SkipEscape('0', ['0'] + (['0'] + y));
      SkipPlain('0', ['0'] + y);
      SkipPlain('0', y);
    } else if QuotedSpecial(c) {
      SkipEscape(c, y);
    } else {
      assert c != '\\' by { assert QuotedSpecial('\\'); }
      SkipPlain(c, y);
    }
  }

  lemma {:induction false} QuoteNoDelimiter(s: string, x: string)
    requires '/' !in s
    ensures ClosingDelimiter(Quote(s) + x) == Shift(ClosingDelimiter(x), |Quote(s)|)
    decreases |s|
  {
    if |s| > 0 {
      var q := QuoteChar(s[0]);
      var y := Quote(s[1..]) + x;
      assert Quote(s) == q + Quote(s[1..]);
      Assoc(q, Quote(s[1..]), x);
      QuoteNoDelimiter(s[1..], x);
      SkipQuoted(s[0], y);
      ShiftShift(ClosingDelimiter(x), |Quote(s[1..])|, |q|);
    } else {
      assert Quote(s) + x == x;
    }
  }

  lemma ShiftShift(o: Option<nat>, a: nat, b: nat)
    ensures Shift(Shift(o, a), b) == Shift(o, a + b)
  {
  }

  lemma {:induction false} QuoteLiteral(s: string)
    ensures LiteralBody(Quote(s)) == CaseInsensitiveLiteral(s)
    decreases |s|
  {
    if |s| > 0 {
      var q := QuoteChar(s[0]);
      var y := Quote(s[1..]);
      QuoteLiteral(s[1..]);
      assert Quote(s) == q + y;
      if s[0] == '\0' {
        assert (q + y)[1..4] == "000" && (q + y)[4..] == y;
      } else if QuotedSpecial(s[0]) {
        assert (q + y)[2..] == y;
      } else {
        assert (q + y)[1..] == y;
      }
      assert [s[0]] + s[1..] == s;
    }
  }

  /**
   * `'/' . preg_quote($str) . '/i'` compiles to a case-insensitive search for
   * `$str` itself, unless `$str` holds a `/`: `preg_quote` is not told the
   * delimiter, so that `/` ends the pattern early and the rest, `/i`
   * included, is read as modifiers, which PHP rejects.
   */
  lemma QuotedPattern(s: string)
    ensures '/' !in s ==> CompileSlashed(Quote(s) + "/i") == CaseInsensitiveLiteral(s)
    ensures '/' in s ==> CompileSlashed(Quote(s) + "/i") == CompileError
  {
    if '/' !in s {
      QuotedPatternLiteral(s);
    } else {
      QuotedPatternSlash(s);
    }
  }

  lemma QuotedPatternLiteral(s: string)
    requires '/' !in s
    ensures CompileSlashed(Quote(s) + "/i") == CaseInsensitiveLiteral(s)
  {
    var p := Quote(s) + "/i";
    var j := |Quote(s)|;
    QuoteNoDelimiter(s, "/i");
    assert ClosingDelimiter("/i") == Some(0);
    assert p[..j] == Quote(s);
    assert p[j + 1..] == "i";
    QuoteLiteral(s);
  }

  lemma QuotedPatternSlash(s: string)
    requires '/' in s
    ensures CompileSlashed(Quote(s) + "/i") == CompileError
  {
    var a, rest := FirstSlash(s);
    var qa, qr := Quote(a), Quote(rest);
    var x := "/" + qr + "/i";
    var p := Quote(s) + "/i";
    QuoteAround(a, rest);
    assert Quote(s) == qa + "/" + qr;
    Regroup(qa, qr, p);
    DelimiterAfterQuote(a, x);
    EarlyDelimiter(p, |qa|);
  }

  lemma Regroup(qa: string, qr: string, p: string)
    requires p == qa + "/" + qr + "/i"
    ensures p == qa + ("/" + qr + "/i")
    ensures |p| >= |qa| + 3 && p[|p| - 2] == '/'
  {
  }

  /** A closing delimiter found before the final `/i` leaves that `/` among the modifiers. */
  lemma EarlyDelimiter(p: string, j: nat)
    requires ClosingDelimiter(p) == Some(j)
    requires j + 3 <= |p| && p[|p| - 2] == '/'
    ensures CompileSlashed(p) == CompileError
  {
    SlashModifierAt(p, j);
    CompileAt(p, j);
  }

  lemma SlashModifierAt(p: string, j: nat)
    requires j + 3 <= |p| && p[|p| - 2] == '/'
    ensures WithModifiers(p[..j], p[j + 1..]) == CompileError
  {
    var mods := p[j + 1..];
    assert mods[|mods| - 2] == '/';
    SlashModifier(p[..j], mods);
  }

  lemma CompileAt(p: string, j: nat)
    requires ClosingDelimiter(p) == Some(j)
    ensures CompileSlashed(p) == WithModifiers(p[..j], p[j + 1..])
  {
  }

  lemma QuoteAround(a: string, rest: string)
    ensures Quote(a + "/" + rest) == Quote(a) + "/" + Quote(rest)
  {
    assert a + "/" + rest == a + ("/" + rest);
    QuoteSplit(a, "/" + rest);
    QuoteSplit("/", rest);
    assert Quote("/") == "/";
  }

  lemma DelimiterAfterQuote(a: string, x: string)
    requires '/' !in a && |x| > 0 && x[0] == '/'
    ensures ClosingDelimiter(Quote(a) + x) == Some(|Quote(a)|)
  {
    QuoteNoDelimiter(a, x);
    DelimiterAfter(Quote(a), x);
  }

  lemma DelimiterAfter(q: string, x: string)
    requires |x| > 0 && x[0] == '/'
    requires ClosingDelimiter(q + x) == Shift(ClosingDelimiter(x), |q|)
    ensures ClosingDelimiter(q + x) == Some(|q|)
  {
    assert ClosingDelimiter(x) == Some(0);
  }

  /** Modifiers that still hold a `/` are rejected, whatever the body. */
  lemma SlashModifier(body: string, mods: string)
    requires |mods| >= 2 && mods[|mods| - 2] == '/'
    ensures WithModifiers(body, mods) == CompileError
  {
    assert !KnownModifier(mods[|mods| - 2]);
    assert mods != "i";
  }

  /** The part before the first `/` and the part after it. */
  lemma FirstSlash(s: string) returns (a: string, rest: string)
    requires '/' in s
    ensures s == a + "/" + rest && '/' !in a
  {
    var k :| 0 <= k < |s| && s[k] == '/';
    while k > 0 && '/' in s[..k]
      invariant 0 <= k < |s| && s[k] == '/'
      decreases k
    {
      var k' :| 0 <= k' < k && s[k'] == '/';
      k := k';
    }
    a, rest := s[..k], s[k + 1..];
    assert s == s[..k] + [s[k]] + s[k + 1..];
  }

  lemma {:induction false} QuoteSplit(a: string, b: string)
    ensures Quote(a + b) == Quote(a) + Quote(b)
    decreases |a|
  {
    if |a| > 0 {
      assert (a + b)[1..] == a[1..] + b;
      QuoteSplit(a[1..], b);
    } else {
      assert a + b == b;
    }
  }

  /** A phrase PHP reads as itself when it is put into a pattern unescaped: no backslash, delimiter, NUL or operator. */
  predicate Plain(p: string) {
    forall i :: 0 <= i < |p| ==> p[i] != '\\' && p[i] != '/' && p[i] != '\0' && !Metachar(p[i])
  }

  lemma {:induction false} PlainDelimiter(p: string, x: string)
    requires Plain(p)
    ensures ClosingDelimiter(p + x) == Shift(ClosingDelimiter(x), |p|)
    decreases |p|
  {
    if |p| > 0 {
      var c, y := p[0], p[1..];
      assert c != '\\' && c != '/';
      PlainTail(p);
      assert p + x == [c] + (y + x);
      SkipPlain(c, y + x);
      PlainDelimiter(y, x);
    } else {
      assert p + x == x;
    }
  }

  lemma PlainTail(p: string)
    requires Plain(p) && |p| > 0
    ensures Plain(p[1..])
  {
    forall i | 0 <= i < |p| - 1 ensures p[1..][i] == p[i + 1] {
    }
  }

  lemma {:induction false} PlainLiteral(p: string)
    requires Plain(p)
    ensures LiteralBody(p) == CaseInsensitiveLiteral(p)
    decreases |p|
  {
    if |p| > 0 {
      PlainTail(p);
      PlainLiteral(p[1..]);
      assert p == [p[0]] + p[1..];
    }
  }

  /** An unescaped plain phrase compiles to the case-insensitive literal it spells. */
  lemma PlainPattern(p: string)
    requires Plain(p)
    ensures CompileSlashed(p + "/i") == CaseInsensitiveLiteral(p)
  {
    PlainDelimiter(p, "/i");
    assert ClosingDelimiter("/i") == Some(0);
    var q := p + "/i";
    assert q[..|p|] == p && q[|p| + 1..] == "i";
    PlainLiteral(p);
  }

  // ---------------------------------------------------------------------------
  // preg_match_all with a literal, case-insensitive pattern
  // ---------------------------------------------------------------------------

  /**
   * `$matches[0]` of `preg_match_all` for the case-insensitive literal `w`:
   * the non-overlapping occurrences found left to right, as they are spelt in
   * `t`. An empty pattern matches the empty string at each of the |t| + 1
   * positions.
   */
  function FindAll(t: string, w: string): (ms: seq<string>)
    ensures |w| == 0 ==> |ms| == |t| + 1
    ensures forall m :: m in ms ==> CiEq(m, w) && Contains(t, m)
    decreases |t|
  {
    if |w| == 0 then
      EmptyMatches(t);
      seq(|t| + 1, _ => "")
    else if |t| < |w| then []
    else if CiEq(t[..|w|], w) then
      ContainsPrefixes(t, |w|);
      [t[..|w|]] + FindAll(t[|w|..], w)
    else
      ContainsSuffix(t, 1);
      FindAll(t[1..], w)
  }

  lemma EmptyMatches(t: string)
    ensures Contains(t, "")
  {
    assert IsPrefix("", t);
  }

  /** The prefix of `t` is found in `t`, and so is everything found in the rest. */
  lemma ContainsPrefixes(t: string, n: nat)
    requires n <= |t|
    ensures Contains(t, t[..n])
    ensures forall m :: Contains(t[n..], m) ==> Contains(t, m)
  {
    assert IsPrefix(t[..n], t);
    ContainsSuffix(t, n);
  }

  lemma ContainsSuffix(t: string, n: nat)
    requires n <= |t|
    ensures forall m :: Contains(t[n..], m) ==> Contains(t, m)
  {
    forall m | Contains(t[n..], m) ensures Contains(t, m) {
      var i := ContainsWitness(t[n..], m);
      assert t[n..][i..i + |m|] == t[n + i..n + i + |m|];
      ContainsAt(t, m, n + i);
    }
  }

  /** Some case-insensitive occurrence of the non-empty `w` starts at `i`. */
  predicate CiOccursAt(t: string, w: string, i: nat) {
    i + |w| <= |t| && CiEq(t[i..i + |w|], w)
  }

  /** A non-empty literal yields no match exactly when it occurs nowhere in `t`, in any casing. */
  lemma {:induction false} FindAllEmpty(t: string, w: string)
    requires |w| > 0
    ensures FindAll(t, w) == [] <==> forall i: nat :: !CiOccursAt(t, w, i)
    decreases |t|
  {
    if |t| < |w| {
    } else if CiEq(t[..|w|], w) {
      assert CiOccursAt(t, w, 0) by { assert t[0..|w|] == t[..|w|]; }
    } else {
      FindAllEmpty(t[1..], w);
      if FindAll(t, w) == [] {
        forall i: nat ensures !CiOccursAt(t, w, i) {
          if i == 0 {
            assert t[0..|w|] == t[..|w|];
          } else {
            assert !CiOccursAt(t[1..], w, i - 1);
            if i + |w| <= |t| {
              assert t[1..][i - 1..i - 1 + |w|] == t[i..i + |w|];
            }
          }
        }
      } else {
        var i: nat :| CiOccursAt(t[1..], w, i);
        assert t[1..][i..i + |w|] == t[i + 1..i + 1 + |w|];
        assert CiOccursAt(t, w, i + 1);
      }
    }
  }
}

=== FILE: php_array.dfy ===
/**
 * PHP arrays as the Fluency code uses them: ordered maps whose keys are
 * integers or strings, whose values are strings or nested arrays. Only the
 * operations the code performs are modelled: lookup (`$a[k]`, `isset`,
 * `??`), assignment (`$a[k] = v`), `unset`, `array_merge`, and the
 * conversion of a value to text inside a double-quoted string.
 */
module PhpArray {
  import opened Outcome

  datatype Key = Index(n: int) | Name(s: string)

  /** A scalar string or a nested array; the order of `entries` is the array's iteration order. */
  datatype Value = Str(s: string) | Arr(entries: seq<(Key, Value)>)

  type Entries = seq<(Key, Value)>

  function KeysOf(a: Entries): seq<Key>
    decreases |a|
  {
    if |a| == 0 then [] else [a[0].0] + KeysOf(a[1..])
  }

  lemma {:induction false} KeysOfLength(a: Entries)
    ensures |KeysOf(a)| == |a|
    ensures forall i :: 0 <= i < |a| ==> KeysOf(a)[i] == a[i].0
    decreases |a|
  {
    if |a| > 0 {
      KeysOfLength(a[1..]);
    }
  }

  lemma {:induction false} KeysOfAppend(a: Entries, b: Entries)
    ensures KeysOf(a + b) == KeysOf(a) + KeysOf(b)
    decreases |a|
  {
    if |a| > 0 {
      assert (a + b)[1..] == a[1..] + b;
      KeysOfAppend(a[1..], b);
    } else {
      assert a + b == b;
    }
  }

  /** Every key occurs once, as in every PHP array. */
  predicate UniqueKeys(a: Entries) {
    forall i, j :: 0 <= i < j < |a| ==> a[i].0 != a[j].0
  }

  /** `$a[k] ?? null`: the value of the first entry with key `k`. */
  function Get(a: Entries, k: Key): Option<Value>
    decreases |a|
  {
    if |a| == 0 then None
    else if a[0].0 == k then Some(a[0].1)
    else Get(a[1..], k)
  }

  /** A key is found exactly when it is one of the array's keys, and then with the value of an entry. */
  lemma {:induction false} GetFound(a: Entries, k: Key)
    ensures Get(a, k).Some? <==> k in KeysOf(a)
    ensures Get(a, k).Some? ==> (k, Get(a, k).value) in a
    decreases |a|
  {
    if |a| > 0 && a[0].0 != k {
      GetFound(a[1..], k);
    }
  }

  /** With unique keys, each entry's key finds that entry's value. */
  lemma {:induction false} GetUnique(a: Entries, i: nat)
    requires UniqueKeys(a) && i < |a|
    ensures Get(a, a[i].0) == Some(a[i].1)
    decreases i
  {
    if i > 0 {
      assert a[0].0 != a[i].0;
      assert UniqueKeys(a[1..]) && a[1..][i - 1] == a[i];
      GetUnique(a[1..], i - 1);
    }
  }

  /** An array with string keys only has no integer-keyed values. */
  lemma {:induction false} NamedOnly(a: Entries)
    requires forall i :: 0 <= i < |a| ==> a[i].0.Name?
    ensures IndexedValues(a) == []
    decreases |a|
  {
    if |a| > 0 {
      NamedOnly(a[1..]);
    }
  }

  /** `$a[k] = v`: an existing key keeps its position and gets the new value, a new key is appended. */
  function Put(a: Entries, k: Key, v: Value): Entries
    decreases |a|
  {
    if |a| == 0 then [(k, v)]
    else if a[0].0 == k then [(k, v)] + a[1..]
    else [a[0]] + Put(a[1..], k, v)
  }

  lemma {:induction false} PutGet(a: Entries, k: Key, v: Value)
    ensures Get(Put(a, k, v), k) == Some(v)
    ensures forall k' :: k' != k ==> Get(Put(a, k, v), k') == Get(a, k')
    decreases |a|
  {
    if |a| > 0 && a[0].0 != k {
      PutGet(a[1..], k, v);
    }
  }

  lemma {:induction false} PutKeys(a: Entries, k: Key, v: Value)
    ensures k in KeysOf(a) ==> KeysOf(Put(a, k, v)) == KeysOf(a)
    ensures k !in KeysOf(a) ==> KeysOf(Put(a, k, v)) == KeysOf(a) + [k]
    decreases |a|
  {
    if |a| > 0 && a[0].0 != k {
      PutKeys(a[1..], k, v);
    }
  }

  lemma PutUnique(a: Entries, k: Key, v: Value)
    requires UniqueKeys(a)
    ensures UniqueKeys(Put(a, k, v))
  {
    var r := Put(a, k, v);
    PutKeys(a, k, v);
    KeysOfLength(a);
    KeysOfLength(r);
    forall i, j | 0 <= i < j < |r| ensures r[i].0 != r[j].0 {
      assert KeysOf(r)[i] == r[i].0 && KeysOf(r)[j] == r[j].0;
      if j < |a| {
        assert KeysOf(a)[i] == a[i].0 && KeysOf(a)[j] == a[j].0;
      } else {
        assert KeysOf(a)[i] == a[i].0;
      }
    }
  }

  /** `unset($a[k])`: the entries keyed `k` disappear, the others keep their order. */
  function Unset(a: Entries, k: Key): Entries
    decreases |a|
  {
    if |a| == 0 then []
    else if a[0].0 == k then Unset(a[1..], k)
    else [a[0]] + Unset(a[1..], k)
  }

  lemma {:induction false} UnsetGet(a: Entries, k: Key)
    ensures Get(Unset(a, k), k) == None
    ensures forall k' :: k' != k ==> Get(Unset(a, k), k') == Get(a, k')
    ensures forall e :: e in Unset(a, k) <==> e in a && e.0 != k
    decreases |a|
  {
    if |a| > 0 {
      UnsetGet(a[1..], k);
      assert forall e :: e in a <==> e == a[0] || e in a[1..];
    }
  }

  /** Unsetting a key the array does not hold changes nothing. */
  lemma {:induction false} UnsetAbsent(a: Entries, k: Key)
    ensures Get(a, k).None? ==> Unset(a, k) == a
    decreases |a|
  {
    if |a| > 0 && a[0].0 != k {
      UnsetAbsent(a[1..], k);
      assert a == [a[0]] + a[1..];
    }
  }

  /** A PHP list: `[x0, x1, ...]` has keys 0, 1, ... */
  function ListOf(xs: seq<string>): (r: Entries)
    ensures |r| == |xs|
    ensures forall i :: 0 <= i < |xs| ==> r[i] == (Index(i), Str(xs[i]))
  {
    seq(|xs|, i requires 0 <= i < |xs| => (Index(i), Str(xs[i])))
  }

  /** The values of the integer-keyed entries, in order. */
  function IndexedValues(a: Entries): seq<Value>
    decreases |a|
  {
    if |a| == 0 then []
    else if a[0].0.Index? then [a[0].1] + IndexedValues(a[1..])
    else IndexedValues(a[1..])
  }

  lemma {:induction false} IndexedValuesAppend(a: Entries, e: (Key, Value))
    ensures IndexedValues(a + [e]) == IndexedValues(a) + (if e.0.Index? then [e.1] else [])
    decreases |a|
  {
    if |a| > 0 {
      assert (a + [e])[1..] == a[1..] + [e];
      IndexedValuesAppend(a[1..], e);
    } else {
      assert a + [e] == [e];
    }
  }

  lemma {:induction false} IndexedValuesPutName(a: Entries, s: string, v: Value)
    ensures IndexedValues(Put(a, Name(s), v)) == IndexedValues(a)
    decreases |a|
  {
    if |a| > 0 && a[0].0 != Name(s) {
      IndexedValuesPutName(a[1..], s, v);
    }
  }

  /** Every integer key in `a` is below `n`. */
  predicate IndexesBelow(a: Entries, n: int) {
    forall i :: 0 <= i < |a| && a[i].0.Index? ==> a[i].0.n < n
  }

  lemma {:induction false} PutNameIndexes(a: Entries, s: string, v: Value, n: int)
    requires IndexesBelow(a, n)
    ensures IndexesBelow(Put(a, Name(s), v), n)
    decreases |a|
  {
    if |a| > 0 && a[0].0 != Name(s) {
      assert IndexesBelow(a[1..], n) by {
        forall i | 0 <= i < |a[1..]| && a[1..][i].0.Index? ensures a[1..][i].0.n < n {
          assert a[1..][i] == a[i + 1];
        }
      }
      PutNameIndexes(a[1..], s, v, n);
    }
  }

  /** The array invariant `array_merge` maintains: unique keys, integer keys below the count of integer-keyed entries. */
  predicate MergeInv(a: Entries) {
    UniqueKeys(a) && IndexesBelow(a, |IndexedValues(a)|)
  }

  /** One step of `array_merge`: an integer key is appended with the next index, a string key is assigned. */
  function MergeStep(acc: Entries, e: (Key, Value)): Entries {
    if e.0.Index? then acc + [(Index(|IndexedValues(acc)|), e.1)]
    else Put(acc, e.0, e.1)
  }

  lemma MergeStepInv(acc: Entries, e: (Key, Value))
    requires MergeInv(acc)
    ensures MergeInv(MergeStep(acc, e))
  {
    var r := MergeStep(acc, e);
    if e.0.Index? {
      var n := |IndexedValues(acc)|;
      IndexedValuesAppend(acc, (Index(n), e.1));
      assert r[|acc|] == (Index(n), e.1);
      assert forall i :: 0 <= i < |acc| ==> r[i] == acc[i];
    } else {
      IndexedValuesPutName(acc, e.0.s, e.1);
      PutUnique(acc, e.0, e.1);
      PutNameIndexes(acc, e.0.s, e.1, |IndexedValues(acc)|);
    }
  }

  lemma MergeStepIndexed(acc: Entries, e: (Key, Value))
    ensures IndexedValues(MergeStep(acc, e)) == IndexedValues(acc) + (if e.0.Index? then [e.1] else [])
  {
    if e.0.Index? {
      IndexedValuesAppend(acc, (Index(|IndexedValues(acc)|), e.1));
    } else {
      IndexedValuesPutName(acc, e.0.s, e.1);
    }
  }

  lemma MergeStepGet(acc: Entries, e: (Key, Value), s: string)
    ensures Get(MergeStep(acc, e), Name(s)) == if e.0 == Name(s) then Some(e.1) else Get(acc, Name(s))
  {
    if e.0.Index? {
      GetAppend(acc, (Index(|IndexedValues(acc)|), e.1), Name(s));
    } else {
      PutGet(acc, e.0, e.1);
    }
  }

  lemma {:induction false} GetAppend(a: Entries, e: (Key, Value), k: Key)
    requires k != e.0
    ensures Get(a + [e], k) == Get(a, k)
    decreases |a|
  {
    if |a| > 0 {
      assert (a + [e])[1..] == a[1..] + [e];
      GetAppend(a[1..], e, k);
    } else {
      assert a + [e] == [e];
    }
  }

  function MergeInto(acc: Entries, b: Entries): Entries
    decreases |b|
  {
    if |b| == 0 then acc else MergeInto(MergeStep(acc, b[0]), b[1..])
  }

  /** The value the last entry keyed `k` gives, or `dflt` when there is none. */
  function LastNamed(b: Entries, k: Key, dflt: Option<Value>): Option<Value>
    decreases |b|
  {
    if |b| == 0 then dflt
    else LastNamed(b[1..], k, if b[0].0 == k then Some(b[0].1) else dflt)
  }

  lemma {:induction false} MergeIntoInv(acc: Entries, b: Entries)
    requires MergeInv(acc)
    ensures MergeInv(MergeInto(acc, b))
    decreases |b|
  {
    if |b| > 0 {
      MergeStepInv(acc, b[0]);
      MergeIntoInv(MergeStep(acc, b[0]), b[1..]);
    }
  }

  lemma {:induction false} MergeIntoIndexed(acc: Entries, b: Entries)
    ensures IndexedValues(MergeInto(acc, b)) == IndexedValues(acc) + IndexedValues(b)
    decreases |b|
  {
    if |b| > 0 {
      var acc' := MergeStep(acc, b[0]);
      var head := if b[0].0.Index? then [b[0].1] else [];
      MergeStepIndexed(acc, b[0]);
      MergeIntoIndexed(acc', b[1..]);
      assert MergeInto(acc, b) == MergeInto(acc', b[1..]);
      var x := IndexedValues(acc); var y := IndexedValues(b[1..]);
      assert IndexedValues(b) == head + y;
      assert x + head + y == x + (head + y);
    }
  }

  lemma {:induction false} MergeIntoGet(acc: Entries, b: Entries, s: string)
    ensures Get(MergeInto(acc, b), Name(s)) == LastNamed(b, Name(s), Get(acc, Name(s)))
    decreases |b|
  {
    if |b| > 0 {
      MergeStepGet(acc, b[0], s);
      MergeIntoGet(MergeStep(acc, b[0]), b[1..], s);
    }
  }

  /** With unique keys the last entry keyed `k` is the only one. */
  lemma {:induction false} LastNamedUnique(b: Entries, k: Key, dflt: Option<Value>)
    requires UniqueKeys(b)
    ensures LastNamed(b, k, dflt) == if k in KeysOf(b) then Get(b, k) else dflt
    decreases |b|
  {
    if |b| > 0 {
      var d' := if b[0].0 == k then Some(b[0].1) else dflt;
      assert UniqueKeys(b[1..]);
      LastNamedUnique(b[1..], k, d');
      if b[0].0 == k {
        KeysOfLength(b[1..]);
        assert k !in KeysOf(b[1..]);
      }
    }
  }

  /**
   * `array_merge(a, b)`: integer-keyed values of `a` then of `b`, renumbered
   * from zero; a string key takes the value `b` gives it, else the one `a`
   * gives it, and keeps the position where it first appeared.
   */
  function Merge(a: Entries, b: Entries): (r: Entries)
    ensures MergeInv(r)
    ensures IndexedValues(r) == IndexedValues(a) + IndexedValues(b)
    ensures UniqueKeys(a) && UniqueKeys(b) ==>
      forall s :: Get(r, Name(s)) == if Name(s) in KeysOf(b) then Get(b, Name(s)) else Get(a, Name(s))
  {
    MergeKeepsInv(a, b);
    MergeIndexed(a, b);
    MergeNames(a, b);
    MergeInto(MergeInto([], a), b)
  }

  lemma MergeKeepsInv(a: Entries, b: Entries)
    ensures MergeInv(MergeInto(MergeInto([], a), b))
  {
    assert MergeInv([]);
    MergeIntoInv([], a);
    MergeIntoInv(MergeInto([], a), b);
  }

  lemma MergeIndexed(a: Entries, b: Entries)
    ensures IndexedValues(MergeInto(MergeInto([], a), b)) == IndexedValues(a) + IndexedValues(b)
  {
    var m := MergeInto([], a);
    MergeIntoIndexed([], a);
    assert IndexedValues(m) == IndexedValues(a);
    MergeIntoIndexed(m, b);
  }

  lemma MergeNames(a: Entries, b: Entries)
    ensures UniqueKeys(a) && UniqueKeys(b) ==>
      forall s :: Get(MergeInto(MergeInto([], a), b), Name(s))
        == if Name(s) in KeysOf(b) then Get(b, Name(s)) else Get(a, Name(s))
  {
    if UniqueKeys(a) && UniqueKeys(b) {
      forall s ensures Get(MergeInto(MergeInto([], a), b), Name(s)) == if Name(s) in KeysOf(b) then Get(b, Name(s)) else Get(a, Name(s)) {
        MergeNamedGet(a, b, s);
      }
    }
  }

  lemma MergeNamedGet(a: Entries, b: Entries, s: string)
    requires UniqueKeys(a) && UniqueKeys(b)
    ensures Get(MergeInto(MergeInto([], a), b), Name(s)) == if Name(s) in KeysOf(b) then Get(b, Name(s)) else Get(a, Name(s))
  {
    var m := MergeInto([], a);
    MergeIntoGet([], a, s);
    MergeIntoGet(m, b, s);
    LastNamedUnique(a, Name(s), None);
    LastNamedUnique(b, Name(s), Get(m, Name(s)));
    GetFound(a, Name(s));
  }

  /** The keys of `ks` that are not in `seen` (nor earlier in `ks`), in order. */
  function NewKeys(seen: seq<Key>, ks: seq<Key>): seq<Key>
    decreases |ks|
  {
    if |ks| == 0 then []
    else if ks[0] in seen then NewKeys(seen, ks[1..])
    else [ks[0]] + NewKeys(seen + [ks[0]], ks[1..])
  }

  /** Merging entries with string keys only appends the keys that were not there yet, in their order. */
  lemma {:induction false} MergeNamesKeys(acc: Entries, b: Entries)
    requires forall i :: 0 <= i < |b| ==> b[i].0.Name?
    ensures KeysOf(MergeInto(acc, b)) == KeysOf(acc) + NewKeys(KeysOf(acc), KeysOf(b))
    decreases |b|
  {
    if |b| > 0 {
      var k := b[0].0;
      var acc' := Put(acc, k, b[0].1);
      assert MergeStep(acc, b[0]) == acc';
      assert MergeInto(acc, b) == MergeInto(acc', b[1..]);
      PutKeys(acc, k, b[0].1);
      MergeNamesKeys(acc', b[1..]);
      var ka := KeysOf(acc);
      var kb := KeysOf(b[1..]);
      assert KeysOf(b) == [k] + kb;
      if k in ka {
        assert NewKeys(ka, [k] + kb) == NewKeys(ka, kb);
      } else {
        assert NewKeys(ka, [k] + kb) == [k] + NewKeys(ka + [k], kb);
      }
    }
  }

  /** PHP's `"{$v}"`: a string is itself, an array turns into the word `Array` (with a warning). */
  function ValueText(v: Value): string {
    match v
    case Str(s) => s
    case Arr(_) => "Array"
  }
}

=== FILE: php_string.dfy ===
/**
 * The PHP (and JavaScript) string primitives the Fluency code relies on:
 * `strpos`, `str_replace`, `explode`/`implode` (`split`/`join` in JS), `trim`,
 * `strcmp`, PHP string truthiness and decimal rendering of integers.
 * Strings are sequences of characters; PHP's byte strings hold UTF-8 text, and
 * every operation here works on literal (sub)strings, which behaves the same on
 * characters as on the UTF-8 bytes that encode them.
 */
module PhpString {

  /** `p` is a prefix of `s`. */
  predicate IsPrefix(p: string, s: string) {
    |p| <= |s| && s[..|p|] == p
  }

  /** `strpos(s, w) !== false`: `w` occurs somewhere in `s` (the empty string occurs everywhere). */
  predicate Contains(s: string, w: string)
    decreases |s|
  {
    IsPrefix(w, s) || (|s| > 0 && Contains(s[1..], w))
  }

  /** A non-empty prefix of `[c] + r` starts with `c` and goes on with a prefix of `r`. */
  lemma PrefixCons(m: string, c: char, r: string)
    requires |m| > 0
    ensures IsPrefix(m, [c] + r) <==> m[0] == c && IsPrefix(m[1..], r)
  {
    var t := [c] + r;
    if IsPrefix(m, t) {
      assert m[1..] == t[1..|m|] == r[..|m| - 1];
    }
    if m[0] == c && IsPrefix(m[1..], r) {
      assert t[..|m|] == [c] + r[..|m| - 1];
      assert m == [m[0]] + m[1..];
    }
  }

  lemma Assoc(x: string, y: string, z: string)
    ensures (x + y) + z == x + (y + z)
  {
  }

  /** PHP truthiness of a string: only "" and "0" are falsy. */
  predicate Truthy(s: string) {
    s != "" && s != "0"
  }

  lemma ContainsAt(s: string, w: string, i: nat)
    requires i + |w| <= |s| && s[i..i + |w|] == w
    ensures Contains(s, w)
    decreases i
  {
    if i == 0 {
      assert s[..|w|] == w;
    } else {
      assert s[1..][i - 1..i - 1 + |w|] == s[i..i + |w|];
      ContainsAt(s[1..], w, i - 1);
    }
  }

  lemma ContainsWitness(s: string, w: string) returns (i: nat)
    requires Contains(s, w)
    ensures i + |w| <= |s| && s[i..i + |w|] == w
    decreases |s|
  {
    if IsPrefix(w, s) {
      i := 0;
    } else {
      var j := ContainsWitness(s[1..], w);
      assert s[1..][j..j + |w|] == s[j + 1..j + 1 + |w|];
      i := j + 1;
    }
  }

  /** A string without the character `c` contains no string that has `c`. */
  lemma NotContainsChar(s: string, w: string, c: char)
    requires c !in s && c in w
    ensures !Contains(s, w)
  {
    if Contains(s, w) {
      var i := ContainsWitness(s, w);
    }
  }

  // ---------------------------------------------------------------------------
  // ASCII case folding (PCRE's `/i` without the `u` modifier)
  // ---------------------------------------------------------------------------

  function Lower(c: char): char {
    if 'A' <= c <= 'Z' then (c as int + 32) as char else c
  }

  function LowerString(s: string): (r: string)
    ensures |r| == |s|
    ensures forall i :: 0 <= i < |s| ==> r[i] == Lower(s[i])
  {
    seq(|s|, i requires 0 <= i < |s| => Lower(s[i]))
  }

  /** Case-insensitive equality on ASCII letters; every other character must match exactly. */
  predicate CiEq(a: string, b: string) {
    LowerString(a) == LowerString(b)
  }

  /** Folding case never creates or removes the characters `<` and `>`. */
  lemma LowerKeepsAngles(s: string)
    ensures ('<' in s) == ('<' in LowerString(s))
    ensures ('>' in s) == ('>' in LowerString(s))
  {
    if '<' in LowerString(s) {
      var k :| 0 <= k < |s| && LowerString(s)[k] == '<';
      assert s[k] == '<';
    }
    if '>' in LowerString(s) {
      var k :| 0 <= k < |s| && LowerString(s)[k] == '>';
      assert s[k] == '>';
    }
  }

  /** Folding case keeps an occurrence an occurrence. */
  lemma ContainsLower(s: string, w: string)
    ensures Contains(s, w) ==> Contains(LowerString(s), LowerString(w))
  {
    if Contains(s, w) {
      var i := ContainsWitness(s, w);
      var ls := LowerString(s);
      assert ls[i..i + |w|] == LowerString(w);
      ContainsAt(ls, LowerString(w), i);
    }
  }

  // ---------------------------------------------------------------------------
  // str_replace, explode, implode
  // ---------------------------------------------------------------------------

  /**
   * `str_replace(w, r, s)` for one search string: occurrences of `w` are found
   * left to right without overlap and each is replaced by `r`. An empty search
   * string leaves the subject unchanged.
   */
  function ReplaceAll(s: string, w: string, r: string): string
    decreases |s|
  {
    if |w| == 0 then s
    else if IsPrefix(w, s) then r + ReplaceAll(s[|w|..], w, r)
    else if |s| == 0 then s
    else [s[0]] + ReplaceAll(s[1..], w, r)
  }

  /** Text that cannot start an occurrence is copied through. */
  lemma {:induction false} ReplaceSkip(x: string, y: string, w: string, r: string)
    requires |w| > 0 && w[0] !in x
    ensures ReplaceAll(x + y, w, r) == x + ReplaceAll(y, w, r)
    decreases |x|
  {
    if |x| > 0 {
      var s := x + y;
      assert s[0] == x[0] && s[1..] == x[1..] + y;
      ReplaceSkip(x[1..], y, w, r);
      assert x == [x[0]] + x[1..];
    } else {
      assert x + y == y;
    }
  }

  /** A first character that starts no occurrence is copied through. */
  lemma ReplaceMiss(c: char, y: string, w: string, r: string)
    requires |w| > 0 && !IsPrefix(w, [c] + y)
    ensures ReplaceAll([c] + y, w, r) == [c] + ReplaceAll(y, w, r)
  {
    assert ([c] + y)[1..] == y;
  }

  /** An occurrence at the front is replaced. */
  lemma ReplaceHit(y: string, w: string, r: string)
    requires |w| > 0
    ensures ReplaceAll(w + y, w, r) == r + ReplaceAll(y, w, r)
  {
    assert IsPrefix(w, w + y) && (w + y)[|w|..] == y;
  }

  /**
   * `explode(d, s)`: the pieces of `s` between the non-overlapping, leftmost
   * occurrences of the delimiter. There is always at least one piece.
   */
  function Split(s: string, d: string): (parts: seq<string>)
    requires |d| > 0
    ensures |parts| >= 1
    decreases |s|
  {
    if IsPrefix(d, s) then [""] + Split(s[|d|..], d)
    else if |s| == 0 then [""]
    else
      var rest := Split(s[1..], d);
      [[s[0]] + rest[0]] + rest[1..]
  }

  /** `implode(sep, parts)`. */
  function Join(parts: seq<string>, sep: string): string
    decreases |parts|
  {
    if |parts| == 0 then ""
    else if |parts| == 1 then parts[0]
    else parts[0] + sep + Join(parts[1..], sep)
  }

  lemma JoinCons(p: string, parts: seq<string>, sep: string)
    requires |parts| >= 1
    ensures Join([p] + parts, sep) == p + sep + Join(parts, sep)
  {
    assert ([p] + parts)[1..] == parts;
  }

  lemma JoinHeadExtend(c: char, parts: seq<string>, sep: string)
    requires |parts| >= 1
    ensures Join([[c] + parts[0]] + parts[1..], sep) == [c] + Join(parts, sep)
  {
    var ps := [[c] + parts[0]] + parts[1..];
    if |parts| > 1 {
      assert ps[1..] == parts[1..];
    }
  }

  /** The first piece of `explode` is a prefix of the subject that does not contain the delimiter. */
  lemma {:induction false} SplitHead(s: string, d: string)
    requires |d| > 0
    ensures IsPrefix(Split(s, d)[0], s)
    ensures !Contains(Split(s, d)[0], d)
    decreases |s|
  {
    if IsPrefix(d, s) {
    } else if |s| == 0 {
    } else {
      var rest := Split(s[1..], d);
      SplitHead(s[1..], d);
      var h := [s[0]] + rest[0];
      assert Split(s, d)[0] == h;
      assert IsPrefix(h, s);
      assert !IsPrefix(d, h) by {
        if |d| <= |h| {
          assert h[..|d|] == s[..|d|];
        }
      }
      assert h[1..] == rest[0];
    }
  }

  /** No piece of `explode(d, s)` contains the delimiter. */
  lemma {:induction false} SplitPiecesFree(s: string, d: string)
    requires |d| > 0
    ensures forall p :: p in Split(s, d) ==> !Contains(p, d)
    decreases |s|
  {
    if IsPrefix(d, s) {
      SplitPiecesFree(s[|d|..], d);
      assert Split(s, d) == [""] + Split(s[|d|..], d);
    } else if |s| > 0 {
      var rest := Split(s[1..], d);
      SplitHead(s, d);
      SplitPiecesFree(s[1..], d);
      assert forall p :: p in rest[1..] ==> p in rest;
    }
  }

  /** `implode(d, explode(d, s)) == s`. */
  lemma {:induction false} JoinSplit(s: string, d: string)
    requires |d| > 0
    ensures Join(Split(s, d), d) == s
    decreases |s|
  {
    if IsPrefix(d, s) {
      var rest := Split(s[|d|..], d);
      assert Split(s, d) == [""] + rest;
      JoinSplit(s[|d|..], d);
      JoinAfterDelimiter(s, d, rest);
    } else if |s| == 0 {
    } else {
      var rest := Split(s[1..], d);
      assert Split(s, d) == [[s[0]] + rest[0]] + rest[1..];
      JoinSplit(s[1..], d);
      JoinAfterChar(s, d, rest);
    }
  }

  lemma JoinAfterDelimiter(s: string, d: string, rest: seq<string>)
    requires IsPrefix(d, s) && |rest| >= 1 && Join(rest, d) == s[|d|..]
    ensures Join([""] + rest, d) == s
  {
    JoinCons("", rest, d);
    assert "" + d == d;
    PrefixRest(d, s);
  }

  lemma PrefixRest(p: string, s: string)
    requires IsPrefix(p, s)
    ensures p + s[|p|..] == s
  {
    assert s == s[..|p|] + s[|p|..];
  }

  lemma JoinAfterChar(s: string, d: string, rest: seq<string>)
    requires |s| > 0 && |rest| >= 1 && Join(rest, d) == s[1..]
    ensures Join([[s[0]] + rest[0]] + rest[1..], d) == s
  {
    JoinHeadExtend(s[0], rest, d);
    assert s == [s[0]] + s[1..];
  }

  /** `str_replace(w, r, s) == implode(r, explode(w, s))`: replacing is re-joining the pieces. */
  lemma {:induction false} ReplaceAllIsJoinSplit(s: string, w: string, r: string)
    requires |w| > 0
    ensures ReplaceAll(s, w, r) == Join(Split(s, w), r)
    decreases |s|
  {
    if IsPrefix(w, s) {
      var rest := Split(s[|w|..], w);
      ReplaceAllIsJoinSplit(s[|w|..], w, r);
      JoinCons("", rest, r);
    } else if |s| == 0 {
    } else {
      var rest := Split(s[1..], w);
      ReplaceAllIsJoinSplit(s[1..], w, r);
      JoinHeadExtend(s[0], rest, r);
    }
  }

  /** A search string that does not occur leaves the subject unchanged. */
  lemma {:induction false} ReplaceAllAbsent(s: string, w: string, r: string)
    requires !Contains(s, w)
    ensures ReplaceAll(s, w, r) == s
    decreases |s|
  {
    if |w| == 0 || |s| == 0 {
    } else {
      ReplaceAllAbsent(s[1..], w, r);
      assert s == [s[0]] + s[1..];
    }
  }

  /**
   * Splitting on a one-character delimiter recovers the joined pieces when no
   * piece holds the delimiter: `explode(d, implode(d, parts)) == parts`.
   */
  lemma {:induction false} SplitJoin(parts: seq<string>, c: char)
    requires |parts| >= 1
    requires forall i :: 0 <= i < |parts| ==> c !in parts[i]
    ensures Split(Join(parts, [c]), [c]) == parts
    decreases |parts|, |parts[0]|
  {
    var d := [c];
    if |parts[0]| == 0 {
      if |parts| == 1 {
      } else {
        JoinCons(parts[0], parts[1..], d);
        var s := Join(parts, d);
        assert s == d + Join(parts[1..], d);
        assert IsPrefix(d, s);
        assert s[1..] == Join(parts[1..], d);
        SplitJoin(parts[1..], c);
        assert parts == [""] + parts[1..];
      }
    } else {
      var h := parts[0];
      var tailParts := [h[1..]] + parts[1..];
      assert forall i :: 0 <= i < |tailParts| ==> c !in tailParts[i] by {
        forall i | 0 <= i < |tailParts| ensures c !in tailParts[i] {
          if i == 0 {
            assert forall k :: 0 <= k < |h[1..]| ==> h[1..][k] == h[k + 1];
          } else {
            assert tailParts[i] == parts[i];
          }
        }
      }
      JoinHeadExtend(h[0], tailParts, d);
      assert [h[0]] + tailParts[0] == h;
      assert [[h[0]] + tailParts[0]] + tailParts[1..] == parts;
      var s := Join(parts, d);
      assert s == [h[0]] + Join(tailParts, d);
      assert s[0] == h[0] && h[0] != c;
      assert !IsPrefix(d, s);
      assert s[1..] == Join(tailParts, d);
      SplitJoin(tailParts, c);
    }
  }

  // ---------------------------------------------------------------------------
  // trim
  // ---------------------------------------------------------------------------

  /** The characters PHP's `trim` strips by default: space, tab, LF, CR, NUL and vertical tab. */
  predicate IsTrimmed(c: char) {
    c == ' ' || c == '\t' || c == '\n' || c == '\r' || c == '\0' || c == '\U{000B}'
  }

  predicate AllTrimmed(s: string) {
    forall k :: 0 <= k < |s| ==> IsTrimmed(s[k])
  }

  function TrimLeft(s: string): (r: string)
    ensures |r| <= |s| && r == s[|s| - |r|..]
    ensures AllTrimmed(s[..|s| - |r|])
    ensures |r| > 0 ==> !IsTrimmed(r[0])
    decreases |s|
  {
    if |s| > 0 && IsTrimmed(s[0]) then
      var r := TrimLeft(s[1..]);
      TrimmedFront(s, |s| - |r|);
      r
    else s
  }

  /** A whitespace character followed by a whitespace run is a whitespace run. */
  lemma TrimmedFront(s: string, n: nat)
    requires 0 < n <= |s| && IsTrimmed(s[0]) && AllTrimmed(s[1..][..n - 1])
    ensures AllTrimmed(s[..n])
  {
    forall k | 0 <= k < n ensures IsTrimmed(s[..n][k]) {
      if k > 0 {
        assert s[..n][k] == s[1..][..n - 1][k - 1];
      }
    }
  }

  function TrimRight(s: string): (r: string)
    ensures |r| <= |s| && r == s[..|r|]
    ensures AllTrimmed(s[|r|..])
    ensures |r| > 0 ==> !IsTrimmed(r[|r| - 1])
    decreases |s|
  {
    if |s| > 0 && IsTrimmed(s[|s| - 1]) then
      var r := TrimRight(s[..|s| - 1]);
      TrimmedBack(s, |r|);
      r
    else s
  }

  /** A whitespace run followed by a whitespace character is a whitespace run. */
  lemma TrimmedBack(s: string, n: nat)
    requires n < |s| && IsTrimmed(s[|s| - 1]) && AllTrimmed(s[..|s| - 1][n..])
    ensures AllTrimmed(s[n..])
  {
    forall k | 0 <= k < |s| - n ensures IsTrimmed(s[n..][k]) {
      if k < |s| - 1 - n {
        assert s[n..][k] == s[..|s| - 1][n..][k];
      }
    }
  }

  /** `r` is what remains of `s` once a whitespace run is cut from each end, starting at index `i`. */
  predicate TrimmedAt(s: string, r: string, i: nat) {
    i + |r| <= |s| && r == s[i..i + |r|] && AllTrimmed(s[..i]) && AllTrimmed(s[i + |r|..])
  }

  /** `r` is `s` with a whitespace run cut from each end. */
  predicate IsTrimOf(s: string, r: string) {
    exists i: nat | i <= |s| :: TrimmedAt(s, r, i)
  }

  /**
   * `trim(s)`: the result is the piece of `s` left after removing the
   * whitespace run at each end, and it neither starts nor ends with whitespace.
   */
  function Trim(s: string): (r: string)
    ensures IsTrimOf(s, r)
    ensures |r| > 0 ==> !IsTrimmed(r[0]) && !IsTrimmed(r[|r| - 1])
  {
    var l := TrimLeft(s);
    var r := TrimRight(l);
    TrimmedBoth(s, l, r);
    r
  }

  /** Cutting the leading run and then the trailing run leaves a trimmed middle piece. */
  lemma TrimmedBoth(s: string, l: string, r: string)
    requires |l| <= |s| && l == s[|s| - |l|..] && AllTrimmed(s[..|s| - |l|])
    requires |l| > 0 ==> !IsTrimmed(l[0])
    requires |r| <= |l| && r == l[..|r|] && AllTrimmed(l[|r|..])
    requires |r| > 0 ==> !IsTrimmed(r[|r| - 1])
    ensures IsTrimOf(s, r)
    ensures |r| > 0 ==> !IsTrimmed(r[0]) && !IsTrimmed(r[|r| - 1])
  {
    var i: nat := |s| - |l|;
    assert s[i + |r|..] == l[|r|..];
    assert s[i..i + |r|] == l[..|r|];
    assert TrimmedAt(s, r, i);
  }

  // ---------------------------------------------------------------------------
  // Decimal rendering (PHP string interpolation of an int, JS String(n))
  // ---------------------------------------------------------------------------

  function DigitChar(d: nat): char
    requires d < 10
  {
    ('0' as int + d) as char
  }

  predicate IsDigit(c: char) {
    '0' <= c <= '9'
  }

  /** The decimal digits of a natural number, most significant first, without leading zeros. */
  function NatToDecimal(n: nat): (r: string)
    ensures |r| >= 1
    ensures forall i :: 0 <= i < |r| ==> IsDigit(r[i])
    ensures |r| > 1 ==> r[0] != '0'
    decreases n
  {
    if n < 10 then [DigitChar(n)] else NatToDecimal(n / 10) + [DigitChar(n % 10)]
  }

  /** The value of a string of decimal digits. */
  function DecimalValue(s: string): nat
    requires forall i :: 0 <= i < |s| ==> IsDigit(s[i])
    decreases |s|
  {
    if |s| == 0 then 0
    else
      assert IsDigit(s[|s| - 1]);
      DecimalValue(s[..|s| - 1]) * 10 + (s[|s| - 1] as int - '0' as int)
  }

  /** Reading back the decimal rendering gives the number: the rendering loses nothing. */
  lemma {:induction false} DecimalRoundTrip(n: nat)
    ensures DecimalValue(NatToDecimal(n)) == n
    decreases n
  {
    if n >= 10 {
      var r := NatToDecimal(n);
      assert r[..|r| - 1] == NatToDecimal(n / 10);
      DecimalRoundTrip(n / 10);
    }
  }

  /** Different numbers have different decimal renderings. */
  lemma DecimalInjective(a: nat, b: nat)
    requires NatToDecimal(a) == NatToDecimal(b)
    ensures a == b
  {
    DecimalRoundTrip(a);
    DecimalRoundTrip(b);
  }

  /** Three-digit numbers have three digits. */
  lemma ThreeDigits(n: nat)
    requires 100 <= n < 1000
    ensures |NatToDecimal(n)| == 3
  {
    var m := n / 10;
    assert 10 <= m < 100;
    assert |NatToDecimal(m / 10)| == 1;
    assert |NatToDecimal(m)| == 2;
    assert NatToDecimal(n) == NatToDecimal(m) + [DigitChar(n % 10)];
  }

  /** `"{$n}"` for an int: a minus sign for negative numbers, then the digits. */
  function IntToString(n: int): (r: string)
    ensures |r| >= 1
    ensures n >= 0 ==> r == NatToDecimal(n)
    ensures n < 0 ==> r == "-" + NatToDecimal(-n)
  {
    if n >= 0 then NatToDecimal(n) else "-" + NatToDecimal(-n)
  }

  // ---------------------------------------------------------------------------
  // strcmp ordering
  // ---------------------------------------------------------------------------

  /**
   * `strcmp(a, b) <= 0`: lexicographic order, a proper prefix first. PHP compares
   * the UTF-8 bytes; byte order of UTF-8 agrees with code point order, so
   * comparing characters gives the same answer.
   */
  predicate LexLe(a: string, b: string)
    decreases |a|
  {
    if |a| == 0 then true
    else if |b| == 0 then false
    else if a[0] != b[0] then a[0] < b[0]
    else LexLe(a[1..], b[1..])
  }

  lemma {:induction false} LexLeTotal(a: string, b: string)
    ensures LexLe(a, b) || LexLe(b, a)
    decreases |a|
  {
    if |a| > 0 && |b| > 0 && a[0] == b[0] {
      LexLeTotal(a[1..], b[1..]);
    }
  }

  lemma {:induction false} LexLeTransitive(a: string, b: string, c: string)
    requires LexLe(a, b) && LexLe(b, c)
    ensures LexLe(a, c)
    decreases |a|
  {
    if |a| > 0 && |b| > 0 && |c| > 0 && a[0] == b[0] && b[0] == c[0] {
      LexLeTransitive(a[1..], b[1..], c[1..]);
    }
  }

  lemma {:induction false} LexLeAntisymmetric(a: string, b: string)
    requires LexLe(a, b) && LexLe(b, a)
    ensures a == b
    decreases |a|
  {
    if |a| > 0 && |b| > 0 {
      LexLeAntisymmetric(a[1..], b[1..]);
      assert a == [a[0]] + a[1..] && b == [b[0]] + b[1..];
    }
  }
}

=== FILE: url_encoding.dfy ===
/**
 * Percent-encoding of text for HTTP form bodies, as PHP's `urlencode` and
 * JavaScript's `encodeURIComponent` perform it: the text is taken as UTF-8
 * (RFC 3629), every byte outside a small unreserved set becomes `%XY` with
 * upper-case hexadecimal digits, and PHP additionally writes a space as `+`.
 * The decoders (`urldecode`, `decodeURIComponent`) are modelled too, as the
 * inverse the encoders are proved against.
 */
module UrlEncoding {

  type byte = x: int | 0 <= x < 256

  // ---------------------------------------------------------------------------
  // UTF-8 (RFC 3629, section 3)
  // ---------------------------------------------------------------------------

  predicate IsContinuation(b: byte) {
    0x80 <= b < 0xC0
  }

  /** The UTF-8 encoding of one Unicode scalar value. */
  function Utf8(c: char): (r: seq<byte>)
    ensures 1 <= |r| <= 4
    ensures |r| == 1 <==> c as int < 0x80
    ensures !IsContinuation(r[0])
    ensures forall i :: 1 <= i < |r| ==> IsContinuation(r[i])
  {
    var n := c as int;
    if n < 0x80 then [n]
    else if n < 0x800 then [0xC0 + n / 64, 0x80 + n % 64]
    else if n < 0x10000 then [0xE0 + n / 4096, 0x80 + (n / 64) % 64, 0x80 + n % 64]
    else [0xF0 + n / 262144, 0x80 + (n / 4096) % 64, 0x80 + (n / 64) % 64, 0x80 + n % 64]
  }

  /** The scalar value a complete UTF-8 sequence stands for (lead byte's payload, then six bits per continuation byte). */
  function Utf8Value(bs: seq<byte>): int
    requires 1 <= |bs| <= 4
  {
    var b0 := bs[0] as int;
    var lead := if |bs| == 1 then b0 else if |bs| == 2 then b0 - 0xC0 else if |bs| == 3 then b0 - 0xE0 else b0 - 0xF0;
    Payload(lead, bs[1..])
  }

  function Payload(acc: int, cont: seq<byte>): int
    decreases |cont|
  {
    if |cont| == 0 then acc else Payload(acc * 64 + (cont[0] as int - 0x80), cont[1..])
  }

  /** UTF-8 loses nothing: the bytes of a character decode back to it. */
  lemma Utf8RoundTrip(c: char)
    ensures Utf8Value(Utf8(c)) == c as int
  {
    var n := c as int;
    var r := Utf8(c);
    if n < 0x80 {
    } else if n < 0x800 {
      assert Payload(n / 64, r[1..]) == (n / 64) * 64 + n % 64;
    } else if n < 0x10000 {
      assert (n / 4096) * 64 + (n / 64) % 64 == n / 64;
      assert Payload(n / 64, r[2..]) == n;
      assert Payload(n / 4096, r[1..]) == Payload(n / 64, r[2..]);
    } else {
      assert (n / 262144) * 64 + (n / 4096) % 64 == n / 4096;
      assert (n / 4096) * 64 + (n / 64) % 64 == n / 64;
      assert Payload(n / 64, r[3..]) == n;
      assert Payload(n / 4096, r[2..]) == Payload(n / 64, r[3..]);
      assert Payload(n / 262144, r[1..]) == Payload(n / 4096, r[2..]);
    }
  }

  /** The UTF-8 bytes of a whole string. */
  function Utf8String(s: string): (r: seq<byte>)
    ensures |r| >= |s|
    decreases |s|
  {
    if |s| == 0 then [] else Utf8(s[0]) + Utf8String(s[1..])
  }

  // ---------------------------------------------------------------------------
  // Percent-encoding
  // ---------------------------------------------------------------------------

  /** PHP `urlencode` (application/x-www-form-urlencoded) or JavaScript `encodeURIComponent`. */
  datatype Style = PhpUrlencode | JsUriComponent

  predicate IsAlnum(b: byte) {
    ('0' as int <= b <= '9' as int) || ('A' as int <= b <= 'Z' as int) || ('a' as int <= b <= 'z' as int)
  }

  /** The bytes a style copies through unchanged. */
  predicate Unreserved(style: Style, b: byte) {
    IsAlnum(b) || b in {'-' as int, '_' as int, '.' as int}
    || (style == JsUriComponent && b in {'!' as int, '~' as int, '*' as int, '\'' as int, '(' as int, ')' as int})
  }

  function HexDigit(d: int): (c: char)
    requires 0 <= d < 16
    ensures c in "0123456789ABCDEF"
  {
    "0123456789ABCDEF"[d]
  }

  function HexValue(c: char): (r: int)
    ensures -1 <= r < 16
  {
    if '0' <= c <= '9' then c as int - '0' as int
    else if 'A' <= c <= 'F' then c as int - 'A' as int + 10
    else if 'a' <= c <= 'f' then c as int - 'a' as int + 10
    else -1
  }

  lemma HexDigitValue(d: int)
    requires 0 <= d < 16
    ensures HexValue(HexDigit(d)) == d
  {
  }

  function EncodeByte(style: Style, b: byte): (r: string)
    ensures |r| == 1 || |r| == 3
  {
    if Unreserved(style, b) then [b as char]
    else if style == PhpUrlencode && b == ' ' as int then "+"
    else ['%', HexDigit(b / 16), HexDigit(b % 16)]
  }

  function EncodeBytes(style: Style, bs: seq<byte>): string
    decreases |bs|
  {
    if |bs| == 0 then "" else EncodeByte(style, bs[0]) + EncodeBytes(style, bs[1..])
  }

  /** The characters an encoded string is made of: ASCII letters, digits, `%`, and the style's unreserved marks (plus `+` for PHP). */
  predicate EncodedChar(style: Style, c: char) {
    c == '%' || (style == PhpUrlencode && c == '+') || (c as int < 128 && Unreserved(style, c as int))
  }

  /** `urlencode(s)` / `encodeURIComponent(s)`. */
  function Encode(style: Style, s: string): (r: string)
    ensures forall c :: c in r ==> EncodedChar(style, c)
  {
    EncodedChars(style, Utf8String(s));
    EncodeBytes(style, Utf8String(s))
  }

  lemma {:induction false} EncodedChars(style: Style, bs: seq<byte>)
    ensures forall c :: c in EncodeBytes(style, bs) ==> EncodedChar(style, c)
    decreases |bs|
  {
    if |bs| > 0 {
      EncodedChars(style, bs[1..]);
      ByteEncodedChars(style, bs[0]);
    }
  }

  lemma ByteEncodedChars(style: Style, b: byte)
    ensures forall c :: c in EncodeByte(style, b) ==> EncodedChar(style, c)
  {
    if !Unreserved(style, b) && !(style == PhpUrlencode && b == ' ' as int) {
      var e := EncodeByte(style, b);
      assert e == ['%', HexDigit(b / 16), HexDigit(b % 16)];
      HexDigitEncoded(style, b / 16);
      HexDigitEncoded(style, b % 16);
    }
  }

  lemma HexDigitEncoded(style: Style, d: int)
    requires 0 <= d < 16
    ensures EncodedChar(style, HexDigit(d))
  {
  }

  /** An encoded value never holds the separators of a form body. */
  lemma EncodedHasNoSeparators(style: Style, s: string)
    ensures '&' !in Encode(style, s) && '=' !in Encode(style, s) && ' ' !in Encode(style, s)
  {
    assert !EncodedChar(style, '&') && !EncodedChar(style, '=') && !EncodedChar(style, ' ');
  }

  /** `urldecode` / `decodeURIComponent` on well-formed input: `%XY` is one byte, PHP's `+` is a space, any other character stands for its UTF-8 bytes. */
  function Decode(style: Style, s: string): seq<byte>
    decreases |s|
  {
    if |s| == 0 then []
    else if s[0] == '%' && |s| >= 3 && HexValue(s[1]) >= 0 && HexValue(s[2]) >= 0 then
      [HexValue(s[1]) * 16 + HexValue(s[2])] + Decode(style, s[3..])
    else if style == PhpUrlencode && s[0] == '+' then [' ' as int] + Decode(style, s[1..])
    else Utf8(s[0]) + Decode(style, s[1..])
  }

  lemma DecodePercent(style: Style, h: char, l: char, t: string, v: byte)
    requires HexValue(h) >= 0 && HexValue(l) >= 0 && v == HexValue(h) * 16 + HexValue(l)
    ensures Decode(style, ['%', h, l] + t) == [v] + Decode(style, t)
  {
    var s := ['%', h, l] + t;
    assert s[0] == '%' && s[1] == h && s[2] == l && s[3..] == t;
  }

  lemma DecodePlain(style: Style, c: char, t: string)
    requires c != '%' && !(style == PhpUrlencode && c == '+')
    ensures Decode(style, [c] + t) == Utf8(c) + Decode(style, t)
  {
    assert ([c] + t)[1..] == t;
  }

  lemma DecodePlus(t: string)
    ensures Decode(PhpUrlencode, ['+'] + t) == [' ' as int] + Decode(PhpUrlencode, t)
  {
    assert (['+'] + t)[1..] == t;
  }

  lemma DecodeByte(style: Style, b: byte, t: string)
    ensures Decode(style, EncodeByte(style, b) + t) == [b] + Decode(style, t)
  {
    if Unreserved(style, b) {
      DecodeUnreserved(style, b, t);
    } else if style == PhpUrlencode && b == ' ' as int {
      DecodePlus(t);
    } else {
      DecodeEscaped(style, b, t);
    }
  }

  lemma DecodeUnreserved(style: Style, b: byte, t: string)
    requires Unreserved(style, b)
    ensures Decode(style, [b as char] + t) == [b] + Decode(style, t)
  {
    assert b < 128 && b != '%' as int && b != '+' as int;
    DecodePlain(style, b as char, t);
  }

  lemma DecodeEscaped(style: Style, b: byte, t: string)
    ensures Decode(style, ['%', HexDigit(b / 16), HexDigit(b % 16)] + t) == [b] + Decode(style, t)
  {
    var hi, lo := b / 16, b % 16;
    HexDigitValue(hi);
    HexDigitValue(lo);
    assert HexValue(HexDigit(hi)) * 16 + HexValue(HexDigit(lo)) == b;
    DecodePercent(style, HexDigit(hi), HexDigit(lo), t, b);
  }

  lemma {:induction false} DecodeEncodeBytes(style: Style, bs: seq<byte>)
    ensures Decode(style, EncodeBytes(style, bs)) == bs
    decreases |bs|
  {
    if |bs| > 0 {
      DecodeByte(style, bs[0], EncodeBytes(style, bs[1..]));
      DecodeEncodeBytes(style, bs[1..]);
    }
  }

  /** Decoding an encoded string gives back exactly the UTF-8 bytes of the original text. */
  lemma DecodeEncode(style: Style, s: string)
    ensures Decode(style, Encode(style, s)) == Utf8String(s)
  {
    DecodeEncodeBytes(style, Utf8String(s));
  }
}
